=== FILE: README.md ===
# Streamer finance hub — a verified model of its data core

This project models the pure logic of the streamer finance hub. The hub is a
back-office web application where an agency tracks its streamers' counters:
luck gifts, exclusive gifts, host crystals, minutes on air and effective days.
It saves periodic snapshots of those counters and exports them as text or
spreadsheets. Everything the application does with a remote store, dates,
floating-point money or the DOM is left to parameters or left out. What
remains is written as pure Dafny functions over immutable datatypes, with
contracts and lemmas that the verifier checks.

The model is organised by the source's own structure:

| module | file | what it models |
|---|---|---|
| `Wrappers` | wrappers.dfy | `Option` (JavaScript's `null`/absent value) |
| `Text` | text.dfy | JavaScript string built-ins used by the core: `trim`, `split`/`join`, `includes`, ASCII `toLowerCase`, `String(n)`, `padStart(2, '0')`, `substring(0, n)` |
| `Seqs` | seqs.dfy | `filter`, `map` and `find` over arrays, and their laws |
| `StreamerTypes` | streamer_types.dfy | the shared records, `formatMinutesToHours`, `formatNumber` (dot-grouped digits) and `parseFormattedNumber` / `parseInt` |
| `BatchImport` | batch_import.dfy | the batch importer: `parseLine`, `isValidId`, `parseBatchInput`, `getImportSummary` |
| `BatchImportDialog` | batch_import_dialog.dfy | the import dialog's `parsed` memo, badges, button and `handleImport` |
| `StreamerForm` | streamer_form.dfy | the add/edit form: keystroke normalisation, edit prefill, submit guard, stored payload |
| `StreamerList` | streamer_list.dfy | the list's sort toggle and search filter |
| `StreamersTable` | streamers_table.dfy | pagination of the streamers table |
| `DashboardUtils` | dashboard_utils.dfy | live statistics, per-ID merging of snapshot rows, available months and years |
| `Snapshots` | snapshots.dfy | building a snapshot, the duplicate-period guard, listing by period |
| `Dashboard` | dashboard.dfy | the selected total, the top-ten chart, the save guard, the week number |
| `ExportUtils` | export_utils.dfy | the export column table, active columns, spreadsheet preview, text block |
| `ExportPage` | export_page.dfy | option toggles, what is exported, the one-line-per-streamer text, the preview |
| `FieldSelection` | field_selection.dfy | moving export columns up and down with Ranking locked first |

The batch importer is the largest piece. Each non-blank pasted line becomes
exactly one record. The line is read by the first strategy that works:

1. comma fields;
2. tab fields;
3. a trailing run of at least five digits, with decorative separators stripped
   from the end of the name.

The record is then judged in a fixed order. A clash with an existing name wins
over a clash with an existing ID, which wins over a clash with an earlier
record of the same batch. The first non-blank line is dropped when it looks
like a header, which happens whenever its lower-cased text contains "id". As a
result, a single pasted line such as "David,10597690" yields no records at
all. `BatchImport.HeaderSwallowsIdLine` states this behaviour as the code has
it.

Strings are sequences of code points. Integers are unbounded, and the source's
integer-valued counters stay below 2^53, where JavaScript numbers are exact.
Where JavaScript operators differ from Dafny's, the model writes them out:

- the truncating `%` is `StreamerTypes.JsRem60`;
- `Math.floor` and `Math.ceil` on integer division are written explicitly;
- `slice` clamps its bounds (`StreamersTable.Slice`);
- `parseInt` skips leading white space and reads one sign (`StreamerTypes.ParseInt10`).

Every callback the source receives becomes a function parameter: `onImport`,
`onSubmit`, and the store before and after `createSnapshot`. So do the
identifiers the store assigns, today's date, and whether the store accepts
the snapshot insert.

## Model

| member | source | states |
|---|---|---|
| BatchImport.SplitFields | src/lib/batch-import-utils.ts:90-112 | the comma and tab strategies succeed only when the separator occurs, and then give a non-empty trimmed name and an ID of at least five digits |
| BatchImport.TrailingDigits | src/lib/batch-import-utils.ts:114-127 | the fallback strategy's ID is the whole trailing run of digits, at least five long, and its name is non-empty and trimmed |
| BatchImport.ParseLine | src/lib/batch-import-utils.ts:89-130 | every accepted line has an ID matching `^\d{5,}$` and a non-empty trimmed name |
| BatchImport.FallbackReading | src/lib/batch-import-utils.ts:89-129 | a line with neither comma nor tab is read by the trailing-digits strategy alone |
| BatchImport.TrailingIdReading | src/lib/batch-import-utils.ts:114-126 | a name glued to a 5+ digit ID by any run of separators (spaces, punctuation, hearts, butterfly) reads back as exactly that name and ID, as in "Cat 10587003" |
| BatchImport.IsValidId | src/lib/batch-import-utils.ts:132-135 | an ID is five or more digits and nothing else; see BatchImport.CommaLineIdLength and BatchImport.ShortTrailingRun for what it accepts and refuses |
| BatchImport.ShortTrailingRun | src/lib/batch-import-utils.ts:116-117 | four or fewer trailing digits never make an ID, whatever precedes them |
| BatchImport.CommaLineIdLength | src/lib/batch-import-utils.ts:91-99 | a comma line whose ID field is all digits is accepted exactly when the field has at least five digits; four digits fall through every strategy |
| BatchImport.NonBlankLines | src/lib/batch-import-utils.ts:23 | the kept lines are exactly the input's lines whose trimmed text is non-blank, in their input order |
| BatchImport.IsHeader | src/lib/batch-import-utils.ts:27-34 | the header test on the lower-cased, trimmed first line; see BatchImport.HeaderIsKeywordTest |
| BatchImport.HeaderIsKeywordTest | src/lib/batch-import-utils.ts:27-34 | the header test is exactly "lower-cased trimmed first line contains nome, name or id"; the two literal comparisons add nothing |
| BatchImport.DataLines | src/lib/batch-import-utils.ts:23-36 | the lines read are a suffix of the non-blank lines, each non-blank, one shorter exactly when the first non-blank line passes the header test |
| BatchImport.HeaderSwallowsIdLine | src/lib/batch-import-utils.ts:27-36 | a paste of one line containing "id" (for example "David,10597690") produces no records |
| BatchImport.Classify | src/lib/batch-import-utils.ts:39-83 | an unreadable line becomes an invalid record with its first 30 characters and "Formato inválido"; a read line is invalid for an existing name, else an existing ID, else an earlier batch record with the same name or ID, each with its own message; valid exactly when no error |
| BatchImport.ParseBatchInput | src/lib/batch-import-utils.ts:22-38 | one record per non-blank line, minus one when the first non-blank line is a header |
| BatchImport.ParseBatchRecordAt | src/lib/batch-import-utils.ts:38-84 | record i is the verdict on data line i, trimmed, judged against the existing list and every record produced before it |
| BatchImport.ValidRecordsDistinct | src/lib/batch-import-utils.ts:46-75 | no valid record shares a name or ID with the existing list, and no two valid records share a name or an ID |
| BatchImport.ValidRecordsWellFormed | src/lib/batch-import-utils.ts:89-135 | every valid record has an ID of at least five digits and a non-empty name |
| BatchImport.BlankInputNoRecords | src/lib/batch-import-utils.ts:23 | a paste of only white space yields no records |
| BatchImport.GetImportSummary | src/lib/batch-import-utils.ts:137-141 | valid plus invalid is the number of records; valid is zero exactly when no record is valid, invalid is zero exactly when all are |
| BatchImportDialog.Parsed | src/components/streamers/BatchImportDialog.tsx:30-33 | the blank-text shortcut agrees with `parseBatchInput`, and white-space-only text gives no rows |
| BatchImportDialog.ValidStreamers | src/components/streamers/BatchImportDialog.tsx:38-41 | as many rows are submitted as the summary counts valid |
| BatchImportDialog.ValidStreamersInOrder | src/components/streamers/BatchImportDialog.tsx:38-41 | the submitted rows are the valid records, projected to name and ID, in input order |
| BatchImportDialog.PreviewBadges | src/components/streamers/BatchImportDialog.tsx:123-130 | the badges add up to the number of rows, and the invalid badge appears, with a positive count, exactly when some row is invalid |
| BatchImportDialog.HandleImport | src/components/streamers/BatchImportDialog.tsx:37-59 | `onImport` is called exactly when some row is valid, and then once with exactly the valid rows; the dialog closes itself exactly when success > 0 and failed = 0 |
| BatchImportDialog.ImportEnabled | src/components/streamers/BatchImportDialog.tsx:174 | the import button is disabled when no row is valid or an import is running; see BatchImportDialog.EnabledButtonSubmits |
| BatchImportDialog.EnabledButtonSubmits | src/components/streamers/BatchImportDialog.tsx:172-176 | the import button is enabled (when idle) exactly when pressing it would submit rows |
| BatchImportDialog.SubmittedRowsAreFresh | src/components/streamers/BatchImportDialog.tsx:30-41 | the rows submitted clash with neither the existing streamers nor each other, in name or ID |
| StreamerTypes.JsRem60 | src/types/streamer.ts:86 | `m % 60` with JavaScript's sign rule: Dafny's remainder for m ≥ 0; for m < 0 the value in (-60, 0] that differs from m by a multiple of 60, i.e. -((-m) mod 60) |
| StreamerTypes.FormatParts | src/types/streamer.ts:84-88 | for m ≥ 0 the text is `m div 60`, ':' and `m mod 60` padded to two characters |
| StreamerTypes.FormatMinutesToHours | src/types/streamer.ts:84-88 | for m ≥ 0 the text is hours, ':' and two digits below 60 that read back to m; a negative count starts with '-'; see also StreamerTypes.MinutesToHoursReadsBack |
| StreamerTypes.MinutesToHoursReadsBack | src/types/streamer.ts:84-88 | for m ≥ 0 the part after ':' is exactly two digits below 60 and hours × 60 + minutes read back to m; a negative count starts with '-' |
| StreamerTypes.GroupThousands | src/types/streamer.ts:90-92 | grouping adds only '.' characters: removing them gives the digits back |
| StreamerTypes.FormatNumber | src/types/streamer.ts:90-92 | the formatted number holds only digits, dots and a leading '-' for negatives, and cleaning it gives `String(n)` |
| StreamerTypes.CleanNumber | src/types/streamer.ts:101 | only digits and '-' survive the clean-up |
| StreamerTypes.LeadingDigits | src/types/streamer.ts:102 | the longest all-digit prefix: it is followed by a non-digit or the end |
| StreamerTypes.ParseInt10 | src/types/streamer.ts:102 | `parseInt` is NaN exactly when no digit follows the optional white space and sign |
| StreamerTypes.ParseFormattedNumber | src/types/streamer.ts:98-102 | empty text is 0, otherwise `parseInt` of the digits and '-' signs it keeps, or 0; see StreamerTypes.ParseGroupedDigits, StreamerTypes.ParseWithoutDigits, StreamerTypes.ParseStopsAtFirstNonDigit and StreamerTypes.FormatNumberRoundTrip |
| StreamerTypes.ParseGroupedDigits | src/types/streamer.ts:98-102 | digits separated by dots or commas read as the number the digits spell |
| StreamerTypes.ParseWithoutDigits | src/types/streamer.ts:98-102 | text with no leading integer after the sign (no digit, or only "-") reads as 0 |
| StreamerTypes.ParseStopsAtFirstNonDigit | src/types/streamer.ts:101-102 | reading stops at the first non-digit: "12-3" reads as 12 |
| StreamerTypes.ParseIntOfIntToString | src/types/streamer.ts:102 | `parseInt(String(n))` is n |
| StreamerTypes.ParseIntToString | src/types/streamer.ts:98-102 | `parseFormattedNumber(String(n))` is n |
| StreamerTypes.FormatNumberRoundTrip | src/types/streamer.ts:90-102 | `parseFormattedNumber(formatNumber(n))` is n for every integer n |
| StreamerForm.Set | src/components/streamers/StreamerFormDialog.tsx:58-60 | the edited field takes the new value and every other field is unchanged |
| StreamerForm.NormaliseNumeric | src/components/streamers/StreamerFormDialog.tsx:55-57 | the result is empty exactly when no digit was typed, holds only digits and dots, and reads back as the number the typed digits spell |
| StreamerForm.NormaliseIdempotent | src/components/streamers/StreamerFormDialog.tsx:54-58 | re-normalising a normalised field changes nothing |
| StreamerForm.HandleChange | src/components/streamers/StreamerFormDialog.tsx:52-62 | gift and crystal fields store the normalised text, other fields store the text verbatim, and no other field changes |
| StreamerForm.ShowGrouped | src/components/streamers/StreamerFormDialog.tsx:41-43 | a counter is shown empty exactly when it is 0, and the text reads back as the counter |
| StreamerForm.ShowPlain | src/components/streamers/StreamerFormDialog.tsx:44-45 | minutes and days are shown empty exactly when 0, and read back as the counter under both parsers |
| StreamerForm.Prefill | src/components/streamers/StreamerFormDialog.tsx:36-50 | a new form is empty; editing copies ID and name and leaves each counter field empty exactly when the counter is zero |
| StreamerForm.HandleSubmit | src/components/streamers/StreamerFormDialog.tsx:64-82 | `onSubmit` is called exactly when ID and name are non-empty; the form resets and closes exactly when it reports success |
| StreamerForm.FormToInput | src/hooks/useStreamers.ts:49-57 | the stored payload keeps ID and name, and each of the five counters is stored as 0 when its field is empty; see StreamerForm.EditRoundTrip for the counters of an untouched edit |
| StreamerForm.EditRoundTrip | src/hooks/useStreamers.ts:86-96 | saving an edited streamer without touching the form stores its counters unchanged |
| StreamerForm.TypedDigitsStored | src/components/streamers/StreamerFormDialog.tsx:54-58 | whatever is typed into any of the three grouped fields (luck gifts, exclusive gifts, host crystals) is stored in that counter as the number its digits spell, or 0 when it has no digit |
| StreamerList.InitialSortClicks | src/hooks/useStreamers.ts:9-10 | the list starts sorted by crystals descending, so a first click on crystals sorts ascending and a first click on any other column sorts it descending |
| StreamerList.HandleSort | src/hooks/useStreamers.ts:136-143 | the clicked column becomes the sort column; the same column flips direction, a new column starts descending |
| StreamerList.HandleSortTwice | src/hooks/useStreamers.ts:137-138 | clicking the sorted column twice restores the sort state |
| StreamerList.HandleSortNewField | src/hooks/useStreamers.ts:136-143 | a new column goes descending, then ascending, then descending again |
| StreamerList.FilteredStreamers | src/hooks/useStreamers.ts:127-134 | a non-empty search keeps only streamers whose lower-cased name or ID contains the lower-cased query |
| StreamerList.EmptyQueryKeepsAll | src/hooks/useStreamers.ts:127-128 | an empty search shows the whole list unchanged |
| StreamerList.Matches | src/hooks/useStreamers.ts:129-133 | a case-insensitive substring test on name or ID; see StreamerList.FilteredMembership and StreamerList.SearchIgnoresCase |
| StreamerList.FilteredMembership | src/hooks/useStreamers.ts:129-134 | a streamer is shown exactly when it is listed and matches the search |
| StreamerList.FilteredInOrder | src/hooks/useStreamers.ts:127-134 | the search result is a subsequence of the list |
| StreamerList.SearchIgnoresCase | src/hooks/useStreamers.ts:129-133 | a query and its lower-cased form find the same streamers |
| StreamersTable.TotalPages | src/components/streamers/StreamersTable.tsx:48 | `ceil(n / 20)`: zero pages exactly for an empty list, otherwise the least t with n ≤ 20t |
| StreamersTable.StartIndex | src/components/streamers/StreamersTable.tsx:49 | page p starts at the multiple of 20 whose quotient is p - 1 |
| StreamersTable.Slice | src/components/streamers/StreamersTable.tsx:50 | `slice` clamps its end to the length and copies the elements from the start |
| StreamersTable.PageRows | src/components/streamers/StreamersTable.tsx:49-50 | a page has at most 20 rows, row i being list element startIndex + i, and is as long as the list allows |
| StreamersTable.Rank | src/components/streamers/StreamersTable.tsx:121-131 | the rank shown is at least 1; see StreamersTable.RankIsGlobalPosition for its position in the whole list |
| StreamersTable.RankIsGlobalPosition | src/components/streamers/StreamersTable.tsx:121-131 | the rank shown on a row is that streamer's 1-based position in the whole list |
| StreamersTable.ReachablePageNonEmpty | src/components/streamers/StreamersTable.tsx:48-50 | every page from 1 to totalPages is non-empty, and all but the last are full |
| StreamersTable.StalePageIsEmpty | src/components/streamers/StreamersTable.tsx:46-50 | a current page beyond totalPages, left after the list shrank, shows no rows |
| StreamersTable.PrevPage | src/components/streamers/StreamersTable.tsx:187 | "previous" goes back one page but never below page 1 |
| StreamersTable.NextPage | src/components/streamers/StreamersTable.tsx:198 | "next" goes forward one page but never past totalPages |
| StreamersTable.ButtonsStayInRange | src/components/streamers/StreamersTable.tsx:184-202 | from any page in 1..totalPages both buttons stay in range, and each undoes the other away from the ends |
| StreamersTable.PagerCaption | src/components/streamers/StreamersTable.tsx:178-182 | the caption appears exactly when there is more than one page; see StreamersTable.CaptionRangeIsPage for its text |
| StreamersTable.CaptionRangeIsPage | src/components/streamers/StreamersTable.tsx:178-182 | on a reachable page of a list with more than one page, the caption reads "Mostrando a-b de n streamers", where a and b are the global positions of the first and last rows shown and n is the list length |
| StreamersTable.PagesArePrefix | src/components/streamers/StreamersTable.tsx:48-50 | pages 1..k together are the first min(20k, n) rows |
| StreamersTable.PagesCoverList | src/components/streamers/StreamersTable.tsx:48-50 | paging through all pages shows every row once, in order |
| FieldSelection.Swap | src/components/export/FieldSelection.tsx:38 | the destructuring swap exchanges two positions and leaves the rest |
| FieldSelection.SwapPermutes | src/components/export/FieldSelection.tsx:38 | a swap keeps the same fields |
| FieldSelection.MoveField | src/components/export/FieldSelection.tsx:29-40 | `onReorder` is called exactly when the field is not in place 0 and the target place lies in 1..length-1; the new order swaps the field with its neighbour and keeps every other place |
| FieldSelection.MovePermutes | src/components/export/FieldSelection.tsx:30-39 | a move is a permutation that keeps position 0 |
| FieldSelection.ButtonEnabled | src/components/export/FieldSelection.tsx:61-80 | the arrows' enabled state: none for Ranking, up from place 2 on, down everywhere but the last place; see FieldSelection.EnabledIffMoves |
| FieldSelection.EnabledIffMoves | src/components/export/FieldSelection.tsx:61-80 | with Ranking first, an arrow is enabled exactly when pressing it reorders |
| FieldSelection.UpThenDown | src/components/export/FieldSelection.tsx:33-38 | moving a field up and then down again restores the order |
| FieldSelection.DownThenUp | src/components/export/FieldSelection.tsx:33-38 | moving a field down and then up again restores the order |
| DashboardUtils.RealtimeStats | src/lib/dashboard-utils.ts:28-50 | one aggregate per streamer, same order and count, copying identity and every counter |
| DashboardUtils.RealtimeTotals | src/lib/dashboard-utils.ts:41-48 | the live totals are the sums of the listed aggregates |
| DashboardUtils.AddRow | src/lib/dashboard-utils.ts:75-82 | merging a row keeps the aggregate's identity and adds every counter |
| DashboardUtils.AggregateSnapshots | src/lib/dashboard-utils.ts:55-66 | no snapshots give all-zero totals and no streamers; the count is the number of aggregates |
| DashboardUtils.FirstSeenIds | src/lib/dashboard-utils.ts:69-99 | the distinct IDs of the rows, each once |
| DashboardUtils.AggregateRowsCorrect | src/lib/dashboard-utils.ts:68-99 | one aggregate per distinct ID in first-seen order, carrying the first row's name and every counter summed over the ID's rows |
| DashboardUtils.AggregateTotals | src/lib/dashboard-utils.ts:99-104 | merging rows per ID loses nothing: the aggregates' total is the total over all rows |
| DashboardUtils.SnapshotTotals | src/lib/dashboard-utils.ts:99-108 | the combined totals are the sums over every snapshot row, and the count is the number of distinct IDs |
| DashboardUtils.SnapshotAggregates | src/lib/dashboard-utils.ts:68-108 | each combined aggregate is its ID's reference description |
| DashboardUtils.DistinctDescending | src/lib/dashboard-utils.ts:129-130 | the set of keys sorted most recent first: strictly decreasing and holding exactly the keys given |
| DashboardUtils.DescendingUnique | src/lib/dashboard-utils.ts:129-130 | a strictly decreasing list is determined by its elements |
| DashboardUtils.MonthValue | src/lib/dashboard-utils.ts:121 | a month's value is its year, a dash and the month number from 1 in two digits |
| DashboardUtils.AvailableMonths | src/lib/dashboard-utils.ts:115-132 | the month of every snapshot date is offered; see DashboardUtils.AvailableMonthsExact for exactness and order |
| DashboardUtils.AvailableMonthsExact | src/lib/dashboard-utils.ts:115-132 | the months offered are exactly the months that occur, each once, most recent first |
| DashboardUtils.AvailableYears | src/lib/dashboard-utils.ts:137-148 | the year of every snapshot is offered; see DashboardUtils.AvailableYearsExact for exactness and order |
| DashboardUtils.AvailableYearsExact | src/lib/dashboard-utils.ts:137-148 | the years offered are exactly the years that occur, each once, most recent first |
| Snapshots.BuildSnapshotData | src/hooks/useSnapshots.ts:59-69 | one row per streamer, in order, copying ID, name and every counter |
| Snapshots.SnapshotDataSums | src/hooks/useSnapshots.ts:59-71 | every counter summed over the rows equals the sum over the streamers |
| Snapshots.CreateSnapshot | src/hooks/useSnapshots.ts:40-98 | succeeds exactly when the period is free and the store accepts the insert; otherwise false with the store unchanged; on success exactly one snapshot is appended, with the period, the count, the crystal total and the copied rows |
| Snapshots.CreateKeepsPeriodsUnique | src/hooks/useSnapshots.ts:46-57 | the duplicate-period guard keeps at most one snapshot per (type, label) |
| Snapshots.SavedSnapshotMatchesLive | src/hooks/useSnapshots.ts:71-83 | a saved snapshot, combined on its own, has the live view's totals, and its stored crystal total agrees |
| Snapshots.SnapshotsByPeriod | src/hooks/useSnapshots.ts:116-118 | every listed snapshot has the requested type |
| Snapshots.SnapshotsByPeriodMembership | src/hooks/useSnapshots.ts:116-118 | a snapshot is listed exactly when it is stored with that type |
| Snapshots.PeriodListsPartition | src/hooks/useSnapshots.ts:116-118 | the weekly, monthly and yearly lists' lengths add up to the number of stored snapshots, so each snapshot is listed under exactly one type |
| Snapshots.SnapshotsByPeriodAppend | src/hooks/useSnapshots.ts:116-118 | listing keeps the store's order: listing a store extended at the end extends the listing by the new snapshots of that type |
| Dashboard.CrystalsTotal | src/pages/Dashboard.tsx:53-63 | the selected counter summed over every streamer, 0 for none |
| Dashboard.DefaultTotalIsSnapshotTotal | src/pages/Dashboard.tsx:59-61 | the default total is the crystal total a snapshot of the same streamers records |
| Dashboard.SortDesc | src/pages/Dashboard.tsx:109-110 | the sort is a permutation ordered by the ranking field, largest first |
| Dashboard.TopStreamers | src/pages/Dashboard.tsx:109-117 | min(10, n) bars in non-increasing value order, names at most 15 characters, each bar the ranking field of the sorted streamer at its place |
| Dashboard.TopStreamersDominate | src/pages/Dashboard.tsx:109-111 | every streamer left off the chart has a value no larger than any bar's |
| Dashboard.HandleSaveSnapshot | src/pages/Dashboard.tsx:140-149 | with no streamers nothing is saved; otherwise the store is what `createSnapshot` leaves |
| Dashboard.SavedSnapshotNonEmpty | src/pages/Dashboard.tsx:141-147 | a snapshot saved from the dashboard never has zero streamers |
| Dashboard.WeekNumber | src/pages/Dashboard.tsx:131 | `ceil(day / 7)`: the week w with 7(w-1) < day ≤ 7w, so days 1..31 give weeks 1..5 |
| ExportUtils.TableIndex | src/lib/export-utils.ts:22-33 | every option has a column in the table |
| ExportUtils.TableIndexInverse | src/lib/export-utils.ts:22-33 | the table lists every option exactly once |
| ExportUtils.ActiveFields | src/lib/export-utils.ts:35-37 | only columns whose option is on are selected |
| ExportUtils.ActiveFieldsExact | src/lib/export-utils.ts:35-37 | a column is selected exactly when its option is on |
| ExportUtils.ActiveFieldsOrdered | src/lib/export-utils.ts:22-37 | columns come out in table order, not option order, so none appears twice |
| ExportUtils.RowCells | src/lib/export-utils.ts:62 | one cell per active column, each that column's value for the streamer; no cell has a line break when the streamer's name, ID and dollar texts have none |
| ExportUtils.SpreadsheetPreview | src/lib/export-utils.ts:58-66 | headers are the active captions, one row per streamer, every row as long as the headers, cell (i, j) the value of column j for streamer i |
| ExportUtils.RankingCell | src/lib/export-utils.ts:23 | with ranking on, the first header is "Ranking" and row i's first cell is i + 1 in decimal |
| ExportUtils.NothingSelected | src/lib/export-utils.ts:58-66 | with every option off there are no headers and every row is empty |
| ExportUtils.StreamerBlock | src/lib/export-utils.ts:43-53 | a streamer's block is "Streamer: name", one "label: value" line per active column except Nome, then the dashed separator; see ExportUtils.BlockAvoidsNewline and ExportUtils.BlockAt |
| ExportUtils.BlockAvoidsNewline | src/lib/export-utils.ts:43-53 | no line of a streamer's block has a line break when the captions and the streamer's name, ID and dollar texts have none, so each block line stays one line of the text |
| ExportUtils.BlockLines | src/lib/export-utils.ts:39-53 | every streamer contributes the same number of lines |
| ExportUtils.BlockAt | src/lib/export-utils.ts:43-53 | streamer i's block sits at its fixed offset among the lines |
| ExportUtils.BlockAtEarlier | src/lib/export-utils.ts:43-53 | appending the last streamer's block leaves every earlier block at its offset |
| ExportUtils.NameNotListed | src/lib/export-utils.ts:46-50 | Nome is never written as a "label: value" line |
| ExportUtils.TextBlock | src/lib/export-utils.ts:39-56 | the blocks of all streamers joined by newlines; see ExportUtils.TextBlockLines and ExportUtils.BlockAt |
| ExportUtils.TextBlockLines | src/lib/export-utils.ts:39-56 | for a non-empty list whose names, IDs and dollar texts have no newline, splitting the text block at newlines gives back its lines |
| ExportPage.DefaultsExportEverything | src/pages/Export.tsx:23-34 | every option starts on, so by default every column of the field table is exported, in table order |
| ExportPage.ToggleOption | src/pages/Export.tsx:46-48 | the toggled option's flag is negated and every other flag is kept; see ExportPage.ToggleTwice for its inverse |
| ExportPage.ToggleFlipsOne | src/pages/Export.tsx:46-48 | toggling flips the chosen flag and no other |
| ExportPage.ToggleTwice | src/pages/Export.tsx:46-48 | toggling twice restores the options |
| ExportPage.DataToExport | src/pages/Export.tsx:50-75 | "all" gives every streamer; an ID gives the one streamer with that record ID or null; a snapshot gives its rows converted in order, or null when none has that ID |
| ExportPage.StreamerOfRowFaithful | src/pages/Export.tsx:62-73 | a converted row uses its streamer ID as both IDs and keeps the name and every counter |
| ExportPage.LinePartsInOrder | src/pages/Export.tsx:81-94 | a line holds one part per option that is on, in the fixed order, and nothing else |
| ExportPage.SelectedPartsCount | src/pages/Export.tsx:81-94 | a line has as many parts as options that are on |
| ExportPage.ExportLines | src/pages/Export.tsx:80-95 | one line per streamer, in order; no line has a line break when names, IDs and dollar texts have none; with ranking on, line i opens with the trophy and i+1 |
| ExportPage.FormatExportData | src/pages/Export.tsx:77-98 | the streamers' lines joined by newlines; see ExportPage.OneLinePerStreamer |
| ExportPage.OneLinePerStreamer | src/pages/Export.tsx:77-98 | for a non-empty list whose names, IDs and dollar texts have no newline, splitting the exported text at newlines gives back each streamer's line, in order |
| ExportPage.RankingPart | src/pages/Export.tsx:83 | with ranking on, line i starts with the trophy, a space and i + 1 |
| ExportPage.ExportText | src/pages/Export.tsx:100-126 | copying and downloading are refused exactly when there is nothing to export; otherwise the text is the export format of the selected streamers; see ExportPage.ExportTextLines |
| ExportPage.ExportTextLines | src/pages/Export.tsx:100-126 | when names, IDs and dollar texts have no newline, the copied or downloaded text splits at newlines into exactly the streamers' lines, in order |
| ExportPage.Preview | src/pages/Export.tsx:327-331 | "Nenhum dado disponível" when there is no data or it is empty; the text ends with a "..." line when there are more than five streamers; see ExportPage.PreviewLines |
| ExportPage.PreviewLines | src/pages/Export.tsx:327-331 | the preview holds the lines of the first min(5, n) streamers and a "..." line exactly when n > 5 |

## Left out

- Floating-point money: `calculateHostUsd`, `calculateAgencyUsd`, `formatCurrency` and the dollar totals, margin, growth and pie data are not modelled. The two dollar export columns take their text from a caller-supplied `UsdText` parameter.
- `formatNumber` is `toLocaleString('pt-BR')`; it is modelled for integers only, as the decimal digits grouped by '.', without other locale rules.
- `toLowerCase` is modelled for ASCII letters only. Lower-casing other characters does not change which lines contain "nome", "name" or "id", but it can change search results for non-ASCII names.
- `substring(0, 30)` and `substring(0, 15)` count UTF-16 code units in the source; the model counts code points, so a truncated name can differ when it contains characters outside the Basic Multilingual Plane.
- `parseInt` is modelled for decimal digits only; values beyond 2^53, where JavaScript numbers lose precision, are not modelled.
- StreamerForm.FormToInput: `effective_days` is read by `parseInt` without a radix (src/hooks/useStreamers.ts:56), which reads a leading "0x" as hexadecimal; the model reads it in base 10, so "0x1A" is stored as 26 by the source and as 0 by the model.
- Dates are not parsed: snapshot months and years are taken as already-decoded numbers, and `getPeriodLabel`, `filterSnapshotsByMonth`, `filterSnapshotsByYear` and `getMonthlyGrowthData` are not modelled.
- DashboardUtils.AvailableMonthsExact: orders months by year × 12 + month, which matches the source's string comparison of "YYYY-MM" keys only for four-digit years.
- DashboardUtils.AvailableYearsExact: orders years numerically, which matches the source's string comparison only when all years have the same number of digits.
- The remote store is not modelled beyond the snapshot list: fetching, the duplicate queries of `addStreamer`/`updateStreamer`, `deleteStreamer`, `deleteSnapshot`, authentication and the server functions are I/O. `createSnapshot`'s duplicate-period query is modelled over the store passed in, and the outcome of its insert is a parameter: a failed insert returns false and stores nothing.
- Toasts, the clipboard, `setTimeout`, loading flags, and the PDF, XLSX, CSV and TXT downloads are output side effects and are left out.
- Dashboard.SortDesc: states a permutation ordered by the key but not stability; the source's `sort` is stable and so is the model's insertion, but that property is not stated.
- Charts, labels and other pure rendering (the badge wording, the per-row copy button, the `includeMinutes` label in the field list) are left out.
- The batch-import separator class, the white-space class of `trim` and `\s`, and the emoji set are fixed character sets in the model, written out by code point.

=== FILE: batch_import.dfy ===
/**
 * The batch streamer importer: free-form pasted text becomes one annotated
 * `(name, streamer_id)` record per non-blank line. Each line is read by the
 * first of three strategies that succeeds (comma fields, tab fields, a
 * trailing run of at least five digits), then checked against the caller's
 * existing streamers and against the records produced earlier in the batch.
 * Nothing is ever rejected by failing: a bad line becomes an invalid record.
 */
module BatchImport {
  import opened Wrappers
  import opened Text
  import Seqs

  /** `{ name, streamer_id }`: what a line yields and what the existing list holds. */
  datatype StreamerRef = StreamerRef(name: string, streamer_id: string)

  /** `ParsedStreamer`: a line's reading and its verdict; `error` is absent on valid records. */
  datatype ParsedStreamer = ParsedStreamer(name: string, streamer_id: string, isValid: bool, error: Option<string>)

  const InvalidFormatMessage: string := "Formato inv\U{00E1}lido"
  const DuplicateInBatchMessage: string := "Duplicado neste lote"

  function NameExistsMessage(name: string): string {
    "Nome \"" + name + "\" j\U{00E1} existe"
  }

  function IdExistsMessage(id: string): string {
    "ID \"" + id + "\" j\U{00E1} existe"
  }

  /** `isValidId`: `/^\d{5,}$/`. */
  predicate IsValidId(id: string) {
    |id| >= 5 && AllDigits(id)
  }

  /**
   * The characters stripped from the end of a name glued to its ID: white
   * space, `. , ; : - _` and a fixed set of hearts, stars and a butterfly
   * (the heart U+2764 and its emoji selector U+FE0F are separate members).
   */
  predicate IsTrailingSeparator(c: char) {
    || IsSpace(c)
    || c in ".,;:-_"
    || c in {'\U{1F98B}', '\U{1F49C}', '\U{1F499}', '\U{1F49A}', '\U{1F49B}', '\U{1F9E1}',
             '\U{2764}', '\U{FE0F}', '\U{1F495}', '\U{2728}', '\U{2B50}', '\U{1F31F}'}
  }

  // ---------------------------------------------------------------------------
  // Reading one line

  /**
   * The comma and tab strategies: when the separator occurs, the trimmed
   * first field is the name and the trimmed second field the ID.
   */
  function SplitFields(line: string, sep: char): (r: Option<StreamerRef>)
    ensures r.Some? ==> sep in line
    ensures r.Some? ==> IsValidId(r.value.streamer_id) && r.value.name != [] && IsTrimmed(r.value.name)
  {
    if sep !in line then None
    else
      var parts := Split(line, sep);
      var name := Trim(parts[0]);
      var id := Trim(parts[1]);
      if name != [] && IsValidId(id) then Some(StreamerRef(name, id)) else None
  }

  /**
   * The fallback strategy: the longest trailing run of digits is the ID when
   * it has at least five digits; the text before it, trimmed and stripped of
   * trailing separators, is the name.
   */
  function TrailingDigits(line: string): (r: Option<StreamerRef>)
    ensures r.Some? ==> IsValidId(r.value.streamer_id) && r.value.name != [] && IsTrimmed(r.value.name)
    ensures r.Some? ==> r.value.streamer_id == TakeEndWhile(line, IsDigit)
  {
    var id := TakeEndWhile(line, IsDigit);
    if |id| < 5 then None
    else
      var name := Trim(DropEndWhile(Trim(line[..|line| - |id|]), IsTrailingSeparator));
      if name != [] then Some(StreamerRef(name, id)) else None
  }

  /** `parseLine`: comma fields, else tab fields, else the trailing-digits reading. */
  function ParseLine(line: string): (r: Option<StreamerRef>)
    ensures r.Some? ==> IsValidId(r.value.streamer_id) && r.value.name != [] && IsTrimmed(r.value.name)
  {
    OrElse(SplitFields(line, ','), OrElse(SplitFields(line, '\t'), TrailingDigits(line)))
  }

  // ---------------------------------------------------------------------------
  // Header and blank lines

  predicate IsNonBlank(line: string) {
    Trim(line) != []
  }

  /**
   * `input.split('\n').filter(line => line.trim())`: exactly the non-blank
   * lines of the input, in their input order.
   */
  function NonBlankLines(input: string): (lines: seq<string>)
    ensures forall i :: 0 <= i < |lines| ==> Trim(lines[i]) != []
    ensures forall l :: l in lines <==> l in Split(input, '\n') && Trim(l) != []
    ensures Seqs.Subsequence(lines, Split(input, '\n'))
  {
    var all := Split(input, '\n');
    forall l ensures l in Seqs.Filter(all, IsNonBlank) <==> l in all && Trim(l) != [] {
      Seqs.FilterMembership(all, IsNonBlank, l);
    }
    Seqs.FilterIsSubsequence(all, IsNonBlank);
    Seqs.Filter(all, IsNonBlank)
  }

  /** The header test applied to the first non-blank line. */
  predicate IsHeader(line: string) {
    var first := Trim(Lower(line));
    || Contains(first, "nome")
    || Contains(first, "name")
    || Contains(first, "id")
    || first == "nome,id"
    || first == "name,id"
  }

  /**
   * The non-blank lines without the header line, when there is one: a
   * suffix of the non-blank lines that is one line shorter exactly when the
   * first non-blank line passes the header test.
   */
  function DataLines(input: string): (r: seq<string>)
    ensures var lines := NonBlankLines(input);
      && |lines| - 1 <= |r| <= |lines| && r == lines[|lines| - |r|..]
      && (|r| < |lines| <==> |lines| > 0 && IsHeader(lines[0]))
    ensures forall i :: 0 <= i < |r| ==> Trim(r[i]) != []
  {
    var lines := NonBlankLines(input);
    if |lines| > 0 && IsHeader(lines[0]) then lines[1..] else lines
  }

  // ---------------------------------------------------------------------------
  // Verdicts

  predicate NameTaken(existing: seq<StreamerRef>, name: string) {
    exists i :: 0 <= i < |existing| && existing[i].name == name
  }

  predicate IdTaken(existing: seq<StreamerRef>, id: string) {
    exists i :: 0 <= i < |existing| && existing[i].streamer_id == id
  }

  /** An earlier record of the batch, valid or not, shares the name or the ID. */
  predicate SeenInBatch(earlier: seq<ParsedStreamer>, p: StreamerRef) {
    exists i :: 0 <= i < |earlier| && (earlier[i].name == p.name || earlier[i].streamer_id == p.streamer_id)
  }

  /**
   * The record for one trimmed line. An unreadable line keeps its first 30
   * characters as the name and has no ID. A read line is invalid when its
   * name is already registered, else when its ID is, else when an earlier
   * record of the batch has the same name or ID; otherwise it is valid.
   */
  function Classify(line: string, existing: seq<StreamerRef>, earlier: seq<ParsedStreamer>): (r: ParsedStreamer)
    ensures ParseLine(line).None? ==>
      r == ParsedStreamer(Take(line, 30), "", false, Some(InvalidFormatMessage))
    ensures ParseLine(line).Some? ==> var p := ParseLine(line).value;
      && r.name == p.name && r.streamer_id == p.streamer_id
      && (r.isValid <==> !NameTaken(existing, p.name) && !IdTaken(existing, p.streamer_id) && !SeenInBatch(earlier, p))
      && (NameTaken(existing, p.name) ==> r.error == Some(NameExistsMessage(p.name)))
      && (!NameTaken(existing, p.name) && IdTaken(existing, p.streamer_id) ==>
            r.error == Some(IdExistsMessage(p.streamer_id)))
      && (!NameTaken(existing, p.name) && !IdTaken(existing, p.streamer_id) && SeenInBatch(earlier, p) ==>
            r.error == Some(DuplicateInBatchMessage))
    ensures r.isValid <==> r.error.None?
    ensures r.isValid ==> IsValidId(r.streamer_id) && r.name != []
    ensures r.isValid ==> !NameTaken(existing, r.name) && !IdTaken(existing, r.streamer_id)
    ensures r.isValid ==> forall k :: 0 <= k < |earlier| ==>
      earlier[k].name != r.name && earlier[k].streamer_id != r.streamer_id
  {
    match ParseLine(line)
    case None => ParsedStreamer(Take(line, 30), "", false, Some(InvalidFormatMessage))
    case Some(p) =>
      if NameTaken(existing, p.name) then
        ParsedStreamer(p.name, p.streamer_id, false, Some(NameExistsMessage(p.name)))
      else if IdTaken(existing, p.streamer_id) then
        ParsedStreamer(p.name, p.streamer_id, false, Some(IdExistsMessage(p.streamer_id)))
      else if SeenInBatch(earlier, p) then
        ParsedStreamer(p.name, p.streamer_id, false, Some(DuplicateInBatchMessage))
      else
        ParsedStreamer(p.name, p.streamer_id, true, None)
  }

  /** A left-to-right pass in which each line is judged together with every record produced before it. */
  function Scan(lines: seq<string>, earlier: seq<ParsedStreamer>, judge: (string, seq<ParsedStreamer>) -> ParsedStreamer): (r: seq<ParsedStreamer>)
    ensures |r| == |lines|
    decreases |lines|
  {
    if lines == [] then []
    else
      var rec := judge(lines[0], earlier);
      [rec] + Scan(lines[1..], earlier + [rec], judge)
  }

  /** The loop of `parseBatchInput`: each trimmed line is judged against the existing list and the batch so far. */
  function ClassifyLines(lines: seq<string>, existing: seq<StreamerRef>): (r: seq<ParsedStreamer>)
    ensures |r| == |lines|
  {
    Scan(lines, [], (line, earlier) => Classify(Trim(line), existing, earlier))
  }

  /**
   * `parseBatchInput`: one record per non-blank line, except that the first
   * non-blank line is dropped when it looks like a header.
   */
  function ParseBatchInput(input: string, existing: seq<StreamerRef>): (r: seq<ParsedStreamer>)
    ensures var lines := NonBlankLines(input);
      |r| == if |lines| > 0 && IsHeader(lines[0]) then |lines| - 1 else |lines|
  {
    ClassifyLines(DataLines(input), existing)
  }

  // ---------------------------------------------------------------------------
  // Summary

  datatype ImportSummary = ImportSummary(valid: nat, invalid: nat)

  predicate IsValidRecord(p: ParsedStreamer) {
    p.isValid
  }

  predicate IsInvalidRecord(p: ParsedStreamer) {
    !p.isValid
  }

  /** `getImportSummary`: how many records are valid and how many are not. */
  function GetImportSummary(parsed: seq<ParsedStreamer>): (s: ImportSummary)
    ensures s.valid + s.invalid == |parsed|
    ensures s.valid == 0 <==> forall i :: 0 <= i < |parsed| ==> !parsed[i].isValid
    ensures s.invalid == 0 <==> forall i :: 0 <= i < |parsed| ==> parsed[i].isValid
  {
    Seqs.FilterComplement(parsed, IsValidRecord, IsInvalidRecord);
    Seqs.FilterEmpty(parsed, IsValidRecord);
    Seqs.FilterEmpty(parsed, IsInvalidRecord);
    ImportSummary(|Seqs.Filter(parsed, IsValidRecord)|, |Seqs.Filter(parsed, IsInvalidRecord)|)
  }

  // ---------------------------------------------------------------------------
  // Properties

  lemma {:induction false} ScanAt(lines: seq<string>, earlier: seq<ParsedStreamer>,
                                  judge: (string, seq<ParsedStreamer>) -> ParsedStreamer, i: nat)
    requires i < |lines|
    ensures var r := Scan(lines, earlier, judge);
      r[i] == judge(lines[i], earlier + r[..i])
    decreases i
  {
    var r := Scan(lines, earlier, judge);
    var rec := judge(lines[0], earlier);
    var tail := Scan(lines[1..], earlier + [rec], judge);
    assert r == [rec] + tail;
    if i == 0 {
      assert earlier + r[..0] == earlier;
    } else {
      ScanAt(lines[1..], earlier + [rec], judge, i - 1);
      assert lines[1..][i - 1] == lines[i];
      assert r[..i] == [rec] + tail[..i - 1];
      assert earlier + [rec] + tail[..i - 1] == earlier + r[..i];
    }
  }

  /** Record `i` is the verdict on data line `i` given the records before it. */
  lemma ParseBatchRecordAt(input: string, existing: seq<StreamerRef>, i: nat)
    requires i < |ParseBatchInput(input, existing)|
    ensures var r := ParseBatchInput(input, existing);
      r[i] == Classify(Trim(DataLines(input)[i]), existing, r[..i])
  {
    ScanAt(DataLines(input), [], (line, earlier) => Classify(Trim(line), existing, earlier), i);
    assert [] + ParseBatchInput(input, existing)[..i] == ParseBatchInput(input, existing)[..i];
  }

  /** Valid records never collide: not with the existing list, and not with each other in name or ID. */
  lemma ValidRecordsDistinct(input: string, existing: seq<StreamerRef>)
    ensures var r := ParseBatchInput(input, existing);
      forall i :: 0 <= i < |r| && r[i].isValid ==>
        !NameTaken(existing, r[i].name) && !IdTaken(existing, r[i].streamer_id)
    ensures var r := ParseBatchInput(input, existing);
      forall i, j :: 0 <= i < j < |r| && r[i].isValid && r[j].isValid ==>
        r[i].name != r[j].name && r[i].streamer_id != r[j].streamer_id
  {
    var r := ParseBatchInput(input, existing);
    forall i | 0 <= i < |r| && r[i].isValid
      ensures !NameTaken(existing, r[i].name) && !IdTaken(existing, r[i].streamer_id)
    {
      ParseBatchRecordAt(input, existing, i);
    }
    forall i, j | 0 <= i < j < |r| && r[i].isValid && r[j].isValid
      ensures r[i].name != r[j].name && r[i].streamer_id != r[j].streamer_id
    {
      ParseBatchRecordAt(input, existing, j);
      assert r[..j][i] == r[i];
    }
  }

  /** Every valid record carries an ID of at least five digits and a non-empty name. */
  lemma ValidRecordsWellFormed(input: string, existing: seq<StreamerRef>)
    ensures var r := ParseBatchInput(input, existing);
      forall i :: 0 <= i < |r| && r[i].isValid ==> IsValidId(r[i].streamer_id) && r[i].name != []
  {
    var r := ParseBatchInput(input, existing);
    forall i | 0 <= i < |r| && r[i].isValid
      ensures IsValidId(r[i].streamer_id) && r[i].name != []
    {
      ParseBatchRecordAt(input, existing, i);
    }
  }

  /** The two equality tests in the header check are implied by the keyword tests. */
  lemma HeaderIsKeywordTest(line: string)
    ensures var first := Trim(Lower(line));
      IsHeader(line) <==> Contains(first, "nome") || Contains(first, "name") || Contains(first, "id")
  {
    var first := Trim(Lower(line));
    if first == "nome,id" {
      assert StartsWith(first, "nome");
    }
    if first == "name,id" {
      assert StartsWith(first, "name");
    }
  }

  /**
   * A comma line whose ID field is all digits is accepted exactly when that
   * field has at least five digits: four digits never make an ID.
   */
  lemma CommaLineIdLength(name: string, id: string)
    requires ',' !in name && '\t' !in name && Trim(name) != []
    requires AllDigits(id)
    ensures ParseLine(name + "," + id) == if |id| >= 5 then Some(StreamerRef(Trim(name), id)) else None
  {
    CommaFields(name, id);
    if |id| < 5 {
      NoTabFields(name + "," + id);
      ShortTrailingDigits(name, id);
    }
  }

  lemma CommaFields(name: string, id: string)
    requires ',' !in name && Trim(name) != []
    requires AllDigits(id)
    ensures SplitFields(name + "," + id, ',') == if |id| >= 5 then Some(StreamerRef(Trim(name), id)) else None
  {
    CommaSplit(name, id);
    DigitsTrimmed(id);
  }

  /** A comma between two comma-free texts splits into exactly those texts. */
  lemma CommaSplit(name: string, id: string)
    requires ',' !in name && AllDigits(id)
    ensures ',' in name + "," + id && Split(name + "," + id, ',') == [name, id]
  {
    assert ',' !in id;
    SplitFree(id, ',');
    SplitPrefix(name, id, ',');
    assert (name + "," + id)[|name|] == ',';
  }

  lemma DigitsTrimmed(id: string)
    requires AllDigits(id)
    ensures Trim(id) == id
  {
    assert IsTrimmed(id) by {
      assert id == [] || (IsDigit(id[0]) && IsDigit(id[|id| - 1]));
    }
    TrimOfTrimmed(id);
  }

  lemma NoTabFields(line: string)
    requires '\t' !in line
    ensures SplitFields(line, '\t') == None
  {
  }

  lemma ShortTrailingDigits(name: string, id: string)
    requires AllDigits(id) && |id| < 5
    ensures TrailingDigits(name + "," + id) == None
  {
    var line := name + "," + id;
    var digits := TakeEndWhile(line, IsDigit);
    assert line[|line| - |id| - 1] == ',';
    assert |digits| <= |id|;
  }

  /** A blank paste yields no records. */
  lemma BlankInputNoRecords(input: string, existing: seq<StreamerRef>)
    requires forall k :: 0 <= k < |input| ==> IsSpace(input[k])
    ensures ParseBatchInput(input, existing) == []
  {
    var parts := Split(input, '\n');
    SplitKeeps(input, '\n', IsSpace);
    forall i | 0 <= i < |parts|
      ensures !IsNonBlank(parts[i])
    {
      forall k | 0 <= k < |parts[i]|
        ensures IsSpace(parts[i][k])
      {
        assert IsSpace(parts[i][k]);
      }
    }
    Seqs.FilterEmpty(parts, IsNonBlank);
  }

  lemma NoSeparatorFields(line: string, sep: char)
    requires sep !in line
    ensures SplitFields(line, sep) == None
  {
  }

  /** When neither separator occurs, the trailing-digits reading decides. */
  lemma FallbackReading(line: string)
    requires ',' !in line && '\t' !in line
    ensures ParseLine(line) == TrailingDigits(line)
  {
    NoSeparatorFields(line, ',');
    NoSeparatorFields(line, '\t');
  }

  /**
   * A name glued to its ID by any run of separator characters (none, white
   * space, punctuation, hearts, a butterfly) reads back as that name and ID:
   * "Cat 10587003" gives ("Cat", "10587003") and "Luh🦋10702736" gives
   * ("Luh", "10702736").
   */
  lemma TrailingIdReading(name: string, gap: string, id: string)
    requires name != [] && IsTrimmed(name)
    requires !IsTrailingSeparator(name[|name| - 1]) && !IsDigit(name[|name| - 1])
    requires forall k :: 0 <= k < |gap| ==> IsTrailingSeparator(gap[k])
    requires AllDigits(id) && |id| >= 5
    ensures TrailingDigits(name + gap + id) == Some(StreamerRef(name, id))
  {
    var prefix := name + gap;
    assert !IsDigit(prefix[|prefix| - 1]) by {
      assert gap == [] || prefix[|prefix| - 1] == gap[|gap| - 1];
    }
    TakeEndWhileAfter(prefix, id, IsDigit);
    assert (prefix + id)[..|prefix + id| - |id|] == prefix;
    GluedName(name, gap);
  }

  lemma GluedName(name: string, gap: string)
    requires name != [] && IsTrimmed(name) && !IsTrailingSeparator(name[|name| - 1])
    requires forall k :: 0 <= k < |gap| ==> IsTrailingSeparator(gap[k])
    ensures Trim(DropEndWhile(Trim(name + gap), IsTrailingSeparator)) == name
  {
    var prefix := name + gap;
    assert DropStartWhile(prefix, IsSpace) == prefix;
    assert forall k :: |name| <= k < |prefix| ==> IsTrailingSeparator(prefix[k]) by {
      forall k | |name| <= k < |prefix| ensures IsTrailingSeparator(prefix[k]) {
        assert prefix[k] == gap[k - |name|];
      }
    }
    DropEndWhileAt(prefix, IsTrailingSeparator, |name|);
    assert prefix[..|name|] == name;
    DropEndWhileTwice(prefix, IsSpace, IsTrailingSeparator);
    TrimOfTrimmed(name);
  }

  /** Four trailing digits are never an ID, whatever precedes them. */
  lemma ShortTrailingRun(prefix: string, id: string)
    requires prefix == [] || !IsDigit(prefix[|prefix| - 1])
    requires AllDigits(id) && |id| < 5
    ensures TrailingDigits(prefix + id) == None
  {
    if prefix == [] {
      assert prefix + id == id;
      assert |TakeEndWhile(id, IsDigit)| == |id|;
    } else {
      TakeEndWhileAfter(prefix, id, IsDigit);
    }
  }

  lemma SingleLine(line: string)
    requires '\n' !in line && Trim(line) != []
    ensures NonBlankLines(line) == [line]
  {
    SplitFree(line, '\n');
    assert Seqs.Filter([line], IsNonBlank) == [line] + Seqs.Filter([line][1..], IsNonBlank);
  }

  /**
   * The header test looks for "id" anywhere in the first line, so a paste
   * whose only line is a real record mentioning it, such as
   * "David,10597690", produces no records at all.
   */
  lemma HeaderSwallowsIdLine(line: string, existing: seq<StreamerRef>)
    requires '\n' !in line && Trim(line) != []
    requires Contains(Trim(Lower(line)), "id")
    ensures ParseBatchInput(line, existing) == []
  {
    SingleLine(line);
    assert IsHeader(NonBlankLines(line)[0]);
    assert |ParseBatchInput(line, existing)| == 0;
  }
}

=== FILE: batch_import_dialog.dfy ===
/**
 * The state logic of the batch-import dialog: the memoised preview of the
 * pasted text, its badge counts, and the import action, which submits
 * exactly the valid rows and closes the dialog on its own only after a
 * fully successful import.
 */
module BatchImportDialog {
  import opened Wrappers
  import opened Text
  import Seqs
  import opened BatchImport

  /** The `parsed` memo: blank text short-circuits to no rows, otherwise `parseBatchInput`. */
  function Parsed(rawInput: string, existing: seq<StreamerRef>): (r: seq<ParsedStreamer>)
    ensures r == ParseBatchInput(rawInput, existing)
    ensures (forall k :: 0 <= k < |rawInput| ==> IsSpace(rawInput[k])) ==> r == []
  {
    if Trim(rawInput) == [] then
      BlankInputNoRecords(rawInput, existing);
      []
    else
      ParseBatchInput(rawInput, existing)
  }

  function ToRef(p: ParsedStreamer): StreamerRef {
    StreamerRef(p.name, p.streamer_id)
  }

  /** The rows handed to `onImport`: the valid records, projected to name and ID, in input order. */
  function ValidStreamers(parsed: seq<ParsedStreamer>): (r: seq<StreamerRef>)
    ensures |r| == GetImportSummary(parsed).valid
  {
    Seqs.Map(Seqs.Filter(parsed, IsValidRecord), ToRef)
  }

  /** Submitted rows are exactly the projections of the valid records, in order. */
  lemma {:induction false} ValidStreamersInOrder(parsed: seq<ParsedStreamer>)
    ensures parsed == [] ==> ValidStreamers(parsed) == []
    ensures parsed != [] && parsed[0].isValid ==>
      ValidStreamers(parsed) == [ToRef(parsed[0])] + ValidStreamers(parsed[1..])
    ensures parsed != [] && !parsed[0].isValid ==>
      ValidStreamers(parsed) == ValidStreamers(parsed[1..])
  {
  }

  /** The badges above the preview: the valid count always, the invalid count only when non-zero. */
  datatype Badges = Badges(valid: nat, invalid: Option<nat>)

  function PreviewBadges(parsed: seq<ParsedStreamer>): (b: Badges)
    ensures b.valid + b.invalid.GetOr(0) == |parsed|
    ensures b.invalid.Some? <==> exists i :: 0 <= i < |parsed| && !parsed[i].isValid
    ensures b.invalid.Some? ==> b.invalid.value > 0
  {
    var summary := GetImportSummary(parsed);
    Badges(summary.valid, if summary.invalid > 0 then Some(summary.invalid) else None)
  }

  /** The import button is enabled exactly when some preview row is valid (and no import is running). */
  predicate ImportEnabled(parsed: seq<ParsedStreamer>, isImporting: bool) {
    GetImportSummary(parsed).valid != 0 && !isImporting
  }

  /** What `onImport` reports back. */
  datatype ImportResult = ImportResult(success: nat, failed: nat)

  /** One run of `handleImport`: what was submitted, what came back, and whether the dialog closes itself. */
  datatype ImportOutcome = ImportOutcome(submitted: Option<seq<StreamerRef>>, result: Option<ImportResult>, autoClose: bool)

  /**
   * `handleImport`, with `onImport` as a parameter: nothing happens when no
   * row is valid; otherwise the valid rows are submitted once and the
   * dialog schedules its own closing only when every row succeeded.
   */
  function HandleImport(parsed: seq<ParsedStreamer>, onImport: seq<StreamerRef> -> ImportResult): (r: ImportOutcome)
    ensures r.submitted.None? <==> forall i :: 0 <= i < |parsed| ==> !parsed[i].isValid
    ensures r.submitted.Some? ==> r.submitted.value == ValidStreamers(parsed) && r.submitted.value != []
    ensures r.submitted.Some? <==> r.result.Some?
    ensures r.result.Some? ==> r.result.value == onImport(r.submitted.value)
    ensures r.autoClose <==> r.result.Some? && r.result.value.success > 0 && r.result.value.failed == 0
  {
    var rows := ValidStreamers(parsed);
    if |rows| == 0 then ImportOutcome(None, None, false)
    else
      var result := onImport(rows);
      ImportOutcome(Some(rows), Some(result), result.success > 0 && result.failed == 0)
  }

  /** The enabled button and the action agree: pressing an enabled button always submits. */
  lemma EnabledButtonSubmits(parsed: seq<ParsedStreamer>, onImport: seq<StreamerRef> -> ImportResult)
    ensures ImportEnabled(parsed, false) <==> HandleImport(parsed, onImport).submitted.Some?
  {
  }

  /**
   * Everything submitted is new: no row shares a name or ID with the
   * existing list or with another submitted row.
   */
  lemma SubmittedRowsAreFresh(rawInput: string, existing: seq<StreamerRef>)
    ensures var rows := ValidStreamers(Parsed(rawInput, existing));
      forall i :: 0 <= i < |rows| ==> !NameTaken(existing, rows[i].name) && !IdTaken(existing, rows[i].streamer_id)
    ensures var rows := ValidStreamers(Parsed(rawInput, existing));
      forall i, j :: 0 <= i < j < |rows| ==> rows[i].name != rows[j].name && rows[i].streamer_id != rows[j].streamer_id
  {
    var parsed := Parsed(rawInput, existing);
    ValidRecordsDistinct(rawInput, existing);
    FilterKeepsFresh(parsed, existing);
    FilterKeepsDistinct(parsed);
  }

  predicate FreshValid(parsed: seq<ParsedStreamer>, existing: seq<StreamerRef>) {
    forall i :: 0 <= i < |parsed| && parsed[i].isValid ==>
      !NameTaken(existing, parsed[i].name) && !IdTaken(existing, parsed[i].streamer_id)
  }

  predicate DistinctValid(parsed: seq<ParsedStreamer>) {
    forall i, j :: 0 <= i < j < |parsed| && parsed[i].isValid && parsed[j].isValid ==>
      parsed[i].name != parsed[j].name && parsed[i].streamer_id != parsed[j].streamer_id
  }

  lemma FilterKeepsFresh(parsed: seq<ParsedStreamer>, existing: seq<StreamerRef>)
    requires FreshValid(parsed, existing)
    ensures var rows := ValidStreamers(parsed);
      forall i :: 0 <= i < |rows| ==> !NameTaken(existing, rows[i].name) && !IdTaken(existing, rows[i].streamer_id)
  {
    var f := Seqs.Filter(parsed, IsValidRecord);
    forall i | 0 <= i < |f|
      ensures !NameTaken(existing, f[i].name) && !IdTaken(existing, f[i].streamer_id)
    {
      Seqs.FilterMembership(parsed, IsValidRecord, f[i]);
    }
  }

  /** Two valid records clash in neither name nor ID. */
  predicate ApartIfValid(a: ParsedStreamer, b: ParsedStreamer) {
    a.isValid && b.isValid ==> a.name != b.name && a.streamer_id != b.streamer_id
  }

  lemma FilterKeepsDistinct(parsed: seq<ParsedStreamer>)
    requires DistinctValid(parsed)
    ensures var rows := ValidStreamers(parsed);
      forall i, j :: 0 <= i < j < |rows| ==> rows[i].name != rows[j].name && rows[i].streamer_id != rows[j].streamer_id
  {
    var f := Seqs.Filter(parsed, IsValidRecord);
    Seqs.FilterKeepsOrder(parsed, IsValidRecord, ApartIfValid);
    assert forall i, j :: 0 <= i < j < |f| ==> ApartIfValid(f[i], f[j]);
  }
}

=== FILE: dashboard.dfy ===
/**
 * The dashboard page's integer logic: the total of the selected counter,
 * the top-ten ranking chart, the guard in front of saving a snapshot, and
 * the week number used in weekly period labels.
 */
module Dashboard {
  import opened Text
  import Seqs
  import opened StreamerTypes
  import Snapshots

  /** The counters the ranking and total selectors offer. */
  datatype RankingType = RankLuckGifts | RankExclusiveGifts | RankHostCrystals

  function CounterOf(t: RankingType): Counter {
    match t
    case RankLuckGifts => LuckGifts
    case RankExclusiveGifts => ExclusiveGifts
    case RankHostCrystals => HostCrystals
  }

  /** `s[rankingType]`. */
  function RankValue(s: Streamer, t: RankingType): int {
    StreamerCounter(s, CounterOf(t))
  }

  /** The selector's starting value, also what an unknown selection falls back to. */
  const DefaultRanking: RankingType := RankHostCrystals

  /** `getCrystalsTotal`: the selected counter summed over every streamer. */
  function CrystalsTotal(streamers: seq<Streamer>, t: RankingType): (total: int)
    ensures streamers == [] ==> total == 0
    ensures streamers != [] ==>
      total == CrystalsTotal(streamers[..|streamers| - 1], t) + RankValue(streamers[|streamers| - 1], t)
  {
    match t
    case RankLuckGifts => SumStreamers(streamers, LuckGifts)
    case RankExclusiveGifts => SumStreamers(streamers, ExclusiveGifts)
    case RankHostCrystals => SumStreamers(streamers, HostCrystals)
  }

  /** The total shown by default is the crystal total the saved snapshot records. */
  lemma DefaultTotalIsSnapshotTotal(streamers: seq<Streamer>, store: seq<Snapshot>, newId: string, today: string,
    periodType: PeriodType, periodLabel: string)
    requires !Snapshots.PeriodTaken(store, periodType, periodLabel)
    ensures Snapshots.CreateSnapshot(store, newId, today, periodType, periodLabel, streamers, true).store[|store|].total_crystals
      == CrystalsTotal(streamers, DefaultRanking)
  {
  }

  // ---------------------------------------------------------------------------
  // Top ten

  /** The ranking field as a sort key. */
  function Key(t: RankingType): Streamer -> int {
    (s: Streamer) => RankValue(s, t)
  }

  predicate NonIncreasing<T>(s: seq<T>, key: T -> int) {
    forall i, j :: 0 <= i < j < |s| ==> key(s[i]) >= key(s[j])
  }

  /** Every element of a sequence with the same elements as `s` is bounded like those of `s`. */
  lemma BoundedByMultiset<T>(r: seq<T>, s: seq<T>, x: T, key: T -> int, bound: int)
    requires multiset(r) == multiset(s) + multiset{x}
    requires key(x) <= bound
    requires forall k :: 0 <= k < |s| ==> key(s[k]) <= bound
    ensures forall k :: 0 <= k < |r| ==> key(r[k]) <= bound
  {
    forall k | 0 <= k < |r|
      ensures key(r[k]) <= bound
    {
      assert r[k] in multiset(r);
      if r[k] != x {
        assert r[k] in multiset(s);
        var m :| 0 <= m < |s| && s[m] == r[k];
      }
    }
  }

  /** Places `x` before the first element it is not below, so equal keys keep their input order. */
  function InsertDesc<T>(x: T, s: seq<T>, key: T -> int): (r: seq<T>)
    requires NonIncreasing(s, key)
    ensures NonIncreasing(r, key)
    ensures multiset(r) == multiset(s) + multiset{x}
    ensures |r| == |s| + 1
    decreases |s|
  {
    if s == [] then [x]
    else if key(x) >= key(s[0]) then [x] + s
    else
      var rest := InsertDesc(x, s[1..], key);
      assert s == [s[0]] + s[1..];
      BoundedByMultiset(rest, s[1..], x, key, key(s[0]));
      ConsNonIncreasing(s[0], rest, key);
      [s[0]] + rest
  }

  /** An element no smaller than everything in a non-increasing list can go in front of it. */
  lemma ConsNonIncreasing<T>(x: T, s: seq<T>, key: T -> int)
    requires NonIncreasing(s, key)
    requires forall k :: 0 <= k < |s| ==> key(s[k]) <= key(x)
    ensures NonIncreasing([x] + s, key)
  {
    var r := [x] + s;
    forall i, j | 0 <= i < j < |r| ensures key(r[i]) >= key(r[j]) {
      assert r[j] == s[j - 1];
      assert i > 0 ==> r[i] == s[i - 1];
    }
  }

  /** `[...s].sort((a, b) => key(b) - key(a))`: a stable sort, largest key first. */
  function SortDesc<T>(s: seq<T>, key: T -> int): (r: seq<T>)
    ensures NonIncreasing(r, key)
    ensures multiset(r) == multiset(s)
    ensures |r| == |s|
    decreases |s|
  {
    if s == [] then []
    else
      assert s == [s[0]] + s[1..];
      InsertDesc(s[0], SortDesc(s[1..], key), key)
  }

  /** A bar of the ranking chart. */
  datatype ChartEntry = ChartEntry(name: string, value: int)

  function Bar(t: RankingType): Streamer -> ChartEntry {
    (s: Streamer) => ChartEntry(Take(s.name, 15), RankValue(s, t))
  }

  function Min(a: int, b: int): int {
    if a <= b then a else b
  }

  /** The first `n` elements, or all of them when there are fewer: `slice(0, n)`. */
  function Prefix<T>(s: seq<T>, n: nat): (r: seq<T>)
    ensures |r| == Min(n, |s|) && r == s[..|r|]
  {
    if |s| <= n then s else s[..n]
  }

  /** `top10Streamers`. */
  function TopStreamers(streamers: seq<Streamer>, t: RankingType): (r: seq<ChartEntry>)
    ensures |r| == Min(10, |streamers|)
    ensures forall i, j :: 0 <= i < j < |r| ==> r[i].value >= r[j].value
    ensures forall i :: 0 <= i < |r| ==> |r[i].name| <= 15
    ensures forall i :: 0 <= i < |r| ==> r[i] == Bar(t)(SortDesc(streamers, Key(t))[i])
  {
    var sorted := SortDesc(streamers, Key(t));
    var shown := Prefix(sorted, 10);
    var r := Seqs.Map(shown, Bar(t));
    assert forall i :: 0 <= i < |r| ==> r[i] == Bar(t)(sorted[i]);
    assert forall i :: 0 <= i < |r| ==> r[i].value == Key(t)(shown[i]) && |r[i].name| <= 15;
    r
  }

  /** In a non-increasing list, everything in the first `n` places is at least everything after. */
  lemma PrefixDominates<T>(sorted: seq<T>, key: T -> int, n: nat)
    requires NonIncreasing(sorted, key) && n <= |sorted|
    ensures forall i, x :: 0 <= i < n && x in sorted[n..] ==> key(sorted[i]) >= key(x)
    ensures multiset(sorted[..n]) + multiset(sorted[n..]) == multiset(sorted)
  {
    assert sorted == sorted[..n] + sorted[n..];
    forall i, x | 0 <= i < n && x in sorted[n..]
      ensures key(sorted[i]) >= key(x)
    {
      var m :| 0 <= m < |sorted[n..]| && sorted[n..][m] == x;
      assert sorted[n + m] == x;
    }
  }

  /**
   * The chart shows the highest values: its bars describe the first
   * streamers of the sorted list, and every streamer left off the chart has
   * a value no larger than any bar's.
   */
  lemma TopStreamersDominate(streamers: seq<Streamer>, t: RankingType)
    ensures var r := TopStreamers(streamers, t);
      var sorted := SortDesc(streamers, Key(t));
      && (forall i :: 0 <= i < |r| ==> r[i] == ChartEntry(Take(sorted[i].name, 15), RankValue(sorted[i], t)))
      && multiset(sorted[..|r|]) + multiset(sorted[|r|..]) == multiset(streamers)
      && (forall i, x :: 0 <= i < |r| && x in sorted[|r|..] ==> r[i].value >= RankValue(x, t))
  {
    var r := TopStreamers(streamers, t);
    var sorted := SortDesc(streamers, Key(t));
    assert forall i :: 0 <= i < |r| ==> r[i] == Bar(t)(sorted[i]);
    PrefixDominates(sorted, Key(t), |r|);
    assert forall x :: Key(t)(x) == RankValue(x, t);
  }

  // ---------------------------------------------------------------------------
  // Saving a snapshot from the dashboard

  /** Whether `createSnapshot` was reached, and the store afterwards. */
  datatype SaveOutcome = SaveOutcome(attempted: bool, store: seq<Snapshot>)

  /** `handleSaveSnapshot`: refused with nothing stored when there are no streamers. */
  function HandleSaveSnapshot(
    streamers: seq<Streamer>, store: seq<Snapshot>, newId: string, today: string,
    activeTab: PeriodType, periodLabel: string, inserted: bool): (r: SaveOutcome)
    ensures r.attempted <==> |streamers| > 0
    ensures !r.attempted ==> r.store == store
    ensures r.attempted ==> r.store == Snapshots.CreateSnapshot(store, newId, today, activeTab, periodLabel, streamers, inserted).store
  {
    if |streamers| == 0 then SaveOutcome(false, store)
    else SaveOutcome(true, Snapshots.CreateSnapshot(store, newId, today, activeTab, periodLabel, streamers, inserted).store)
  }

  /** A snapshot saved from the dashboard never has zero streamers. */
  lemma SavedSnapshotNonEmpty(
    streamers: seq<Streamer>, store: seq<Snapshot>, newId: string, today: string,
    activeTab: PeriodType, periodLabel: string, inserted: bool)
    ensures var r := HandleSaveSnapshot(streamers, store, newId, today, activeTab, periodLabel, inserted);
      forall i :: |store| <= i < |r.store| ==> r.store[i].streamer_count > 0
  {
  }

  /** `Math.ceil(day / 7)`, the week of the month in a weekly label. */
  function WeekNumber(day: int): (w: int)
    ensures (w - 1) * 7 < day <= w * 7
    ensures 1 <= day <= 31 ==> 1 <= w <= 5
  {
    (day + 6) / 7
  }
}

=== FILE: dashboard_utils.dfy ===
/**
 * Dashboard statistics: the live view over the current streamers, the
 * combined view that merges snapshot rows per streamer ID, and the
 * most-recent-first lists of months and years that have snapshots.
 */
module DashboardUtils {
  import opened Wrappers
  import opened Text
  import Seqs
  import opened StreamerTypes

  /** `AggregatedStreamerData` without the floating-point dollar figures. */
  datatype Aggregate = Aggregate(
    streamer_id: string,
    name: string,
    luck_gifts: int,
    exclusive_gifts: int,
    host_crystals: int,
    minutes: int,
    effective_days: int)

  /** `DashboardStats` without the floating-point dollar totals. */
  datatype DashboardStats = DashboardStats(
    totalCrystals: int,
    totalLuckGifts: int,
    totalExclusiveGifts: int,
    streamerCount: nat,
    streamers: seq<Aggregate>)

  function AggCounter(a: Aggregate, c: Counter): int {
    match c
    case LuckGifts => a.luck_gifts
    case ExclusiveGifts => a.exclusive_gifts
    case HostCrystals => a.host_crystals
    case Minutes => a.minutes
    case EffectiveDays => a.effective_days
  }

  /** `aggregated.reduce((sum, s) => sum + s[c], 0)`. */
  function SumAggregates(aggs: seq<Aggregate>, c: Counter): int
    decreases |aggs|
  {
    if aggs == [] then 0 else SumAggregates(aggs[..|aggs| - 1], c) + AggCounter(aggs[|aggs| - 1], c)
  }

  function FromStreamer(s: Streamer): (a: Aggregate)
    ensures a.streamer_id == s.streamer_id && a.name == s.name
    ensures forall c :: AggCounter(a, c) == StreamerCounter(s, c)
  {
    Aggregate(s.streamer_id, s.name, s.luck_gifts, s.exclusive_gifts, s.host_crystals, s.minutes, s.effective_days)
  }

  function FromRow(r: SnapshotRow): (a: Aggregate)
    ensures a.streamer_id == r.streamer_id && a.name == r.name
    ensures forall c :: AggCounter(a, c) == RowCounter(r, c)
  {
    Aggregate(r.streamer_id, r.name, r.luck_gifts, r.exclusive_gifts, r.host_crystals, r.minutes, r.effective_days)
  }

  /** The `existing.x += streamer.x` branch: identity kept, every counter increased by the row's. */
  function AddRow(a: Aggregate, r: SnapshotRow): (b: Aggregate)
    ensures b.streamer_id == a.streamer_id && b.name == a.name
    ensures forall c :: AggCounter(b, c) == AggCounter(a, c) + RowCounter(r, c)
  {
    Aggregate(a.streamer_id, a.name,
      a.luck_gifts + r.luck_gifts, a.exclusive_gifts + r.exclusive_gifts, a.host_crystals + r.host_crystals,
      a.minutes + r.minutes, a.effective_days + r.effective_days)
  }

  // ---------------------------------------------------------------------------
  // Live statistics

  /** `getRealtimeStats`: one aggregate per streamer, in order, and the integer totals. */
  function RealtimeStats(streamers: seq<Streamer>): (st: DashboardStats)
    ensures |st.streamers| == |streamers| && st.streamerCount == |streamers|
    ensures forall i :: 0 <= i < |streamers| ==> st.streamers[i] == FromStreamer(streamers[i])
  {
    DashboardStats(
      SumStreamers(streamers, HostCrystals),
      SumStreamers(streamers, LuckGifts),
      SumStreamers(streamers, ExclusiveGifts),
      |streamers|,
      Seqs.Map(streamers, FromStreamer))
  }

  /** The live totals are the sums of the rows the live view lists. */
  lemma {:induction false} RealtimeTotals(streamers: seq<Streamer>)
    ensures var st := RealtimeStats(streamers);
      && st.totalCrystals == SumAggregates(st.streamers, HostCrystals)
      && st.totalLuckGifts == SumAggregates(st.streamers, LuckGifts)
      && st.totalExclusiveGifts == SumAggregates(st.streamers, ExclusiveGifts)
  {
    forall c { MappedSums(streamers, c); }
  }

  lemma {:induction false} MappedSums(streamers: seq<Streamer>, c: Counter)
    ensures SumAggregates(Seqs.Map(streamers, FromStreamer), c) == SumStreamers(streamers, c)
    decreases |streamers|
  {
    if streamers != [] {
      var init := streamers[..|streamers| - 1];
      MappedSums(init, c);
      assert Seqs.Map(streamers, FromStreamer)[..|streamers| - 1] == Seqs.Map(init, FromStreamer);
    }
  }

  // ---------------------------------------------------------------------------
  // Combining snapshots

  /** Every row of every snapshot, snapshot by snapshot. */
  function AllRows(snapshots: seq<Snapshot>): seq<SnapshotRow>
    decreases |snapshots|
  {
    if snapshots == [] then [] else AllRows(snapshots[..|snapshots| - 1]) + snapshots[|snapshots| - 1].data
  }

  function IdMatches(row: SnapshotRow): Aggregate -> bool {
    (a: Aggregate) => a.streamer_id == row.streamer_id
  }

  /** One pass of the inner loop: add to the ID's aggregate, or append a new one. */
  function Absorb(acc: seq<Aggregate>, row: SnapshotRow): seq<Aggregate> {
    match Seqs.FindIndex(acc, IdMatches(row))
    case Some(j) => acc[j := AddRow(acc[j], row)]
    case None => acc + [FromRow(row)]
  }

  /** The `streamerMap` after folding every row in, in insertion order. */
  function AggregateRows(rows: seq<SnapshotRow>): seq<Aggregate>
    decreases |rows|
  {
    if rows == [] then [] else Absorb(AggregateRows(rows[..|rows| - 1]), rows[|rows| - 1])
  }

  /** `aggregateSnapshots`. */
  function AggregateSnapshots(snapshots: seq<Snapshot>): (st: DashboardStats)
    ensures snapshots == [] ==> st == DashboardStats(0, 0, 0, 0, [])
    ensures st.streamerCount == |st.streamers|
  {
    if |snapshots| == 0 then DashboardStats(0, 0, 0, 0, [])
    else
      var aggs := AggregateRows(AllRows(snapshots));
      DashboardStats(
        SumAggregates(aggs, HostCrystals),
        SumAggregates(aggs, LuckGifts),
        SumAggregates(aggs, ExclusiveGifts),
        |aggs|,
        aggs)
  }

  // ---------------------------------------------------------------------------
  // The reference description of a combined view

  predicate Occurs(rows: seq<SnapshotRow>, id: string) {
    exists i :: 0 <= i < |rows| && rows[i].streamer_id == id
  }

  /** The distinct IDs of `rows`, in order of first appearance. */
  function FirstSeenIds(rows: seq<SnapshotRow>): (ids: seq<string>)
    ensures Seqs.Distinct(ids)
    ensures forall id :: id in ids <==> Occurs(rows, id)
    decreases |rows|
  {
    if rows == [] then []
    else
      var init := rows[..|rows| - 1];
      var last := rows[|rows| - 1];
      var prev := FirstSeenIds(init);
      assert forall id :: Occurs(rows, id) <==> Occurs(init, id) || id == last.streamer_id by {
        forall id | Occurs(rows, id) ensures Occurs(init, id) || id == last.streamer_id {
          var i :| 0 <= i < |rows| && rows[i].streamer_id == id;
          if i < |init| {
            assert init[i] == rows[i];
          }
        }
        forall id | Occurs(init, id) ensures Occurs(rows, id) {
          var i :| 0 <= i < |init| && init[i].streamer_id == id;
          assert rows[i] == init[i];
        }
      }
      if last.streamer_id in prev then prev else prev + [last.streamer_id]
  }

  /** Counter `c` summed over the rows carrying `id`. */
  function SumFor(rows: seq<SnapshotRow>, id: string, c: Counter): int
    decreases |rows|
  {
    if rows == [] then 0
    else
      var last := rows[|rows| - 1];
      SumFor(rows[..|rows| - 1], id, c) + (if last.streamer_id == id then RowCounter(last, c) else 0)
  }

  function HasId(id: string): SnapshotRow -> bool {
    (r: SnapshotRow) => r.streamer_id == id
  }

  /** The name on the first row carrying `id`. */
  function FirstName(rows: seq<SnapshotRow>, id: string): string {
    match Seqs.FindIndex(rows, HasId(id))
    case Some(i) => rows[i].name
    case None => ""
  }

  /** What the combined view should say about `id`: its first name and its summed counters. */
  function Reference(rows: seq<SnapshotRow>, id: string): (a: Aggregate)
    ensures a.streamer_id == id
    ensures forall c :: AggCounter(a, c) == SumFor(rows, id, c)
  {
    Aggregate(id, FirstName(rows, id),
      SumFor(rows, id, LuckGifts), SumFor(rows, id, ExclusiveGifts), SumFor(rows, id, HostCrystals),
      SumFor(rows, id, Minutes), SumFor(rows, id, EffectiveDays))
  }

  lemma OccursAppend(a: seq<SnapshotRow>, b: seq<SnapshotRow>, id: string)
    ensures Occurs(a + b, id) <==> Occurs(a, id) || Occurs(b, id)
  {
    if Occurs(a + b, id) {
      var i :| 0 <= i < |a + b| && (a + b)[i].streamer_id == id;
      assert i < |a| ==> a[i] == (a + b)[i];
      assert i >= |a| ==> b[i - |a|] == (a + b)[i];
    }
    if Occurs(a, id) {
      var i :| 0 <= i < |a| && a[i].streamer_id == id;
      assert (a + b)[i] == a[i];
    }
    if Occurs(b, id) {
      var i :| 0 <= i < |b| && b[i].streamer_id == id;
      assert (a + b)[i + |a|] == b[i];
    }
  }

  lemma {:induction false} SumForAbsent(rows: seq<SnapshotRow>, id: string, c: Counter)
    requires !Occurs(rows, id)
    ensures SumFor(rows, id, c) == 0
    decreases |rows|
  {
    if rows != [] {
      var init := rows[..|rows| - 1];
      assert rows == init + [rows[|rows| - 1]];
      OccursAppend(init, [rows[|rows| - 1]], id);
      SumForAbsent(init, id, c);
    }
  }

  lemma FirstNameAppend(rows: seq<SnapshotRow>, row: SnapshotRow, id: string)
    ensures Occurs(rows, id) ==> FirstName(rows + [row], id) == FirstName(rows, id)
    ensures !Occurs(rows, id) && row.streamer_id == id ==> FirstName(rows + [row], id) == row.name
  {
    var all := rows + [row];
    var a := Seqs.FindIndex(rows, HasId(id));
    var b := Seqs.FindIndex(all, HasId(id));
    if Occurs(rows, id) {
      var k :| 0 <= k < |rows| && rows[k].streamer_id == id;
      assert HasId(id)(rows[k]);
      assert all[k] == rows[k];
      assert a.Some? && b.Some?;
      assert all[a.value] == rows[a.value];
      assert b.value <= a.value;
      assert b.value < |rows| && rows[b.value] == all[b.value];
      assert a.value <= b.value;
    } else if row.streamer_id == id {
      assert HasId(id)(all[|rows|]);
      assert b.Some?;
      assert forall j :: 0 <= j < |rows| ==> all[j] == rows[j];
      assert forall j :: 0 <= j < |rows| ==> !HasId(id)(rows[j]);
      assert b.value == |rows|;
    }
  }

  /** The aggregates of `rows` as the reference describes them. */
  predicate Describes(aggs: seq<Aggregate>, rows: seq<SnapshotRow>) {
    var ids := FirstSeenIds(rows);
    |aggs| == |ids| && forall i :: 0 <= i < |aggs| ==> aggs[i] == Reference(rows, ids[i])
  }

  /**
   * The combined view has exactly one aggregate per distinct ID, in order of
   * first appearance, each carrying the name of that first appearance and
   * the sums of every counter over all rows with that ID.
   */
  lemma {:induction false} AggregateRowsCorrect(rows: seq<SnapshotRow>)
    ensures Describes(AggregateRows(rows), rows)
    decreases |rows|
  {
    if rows != [] {
      var init := rows[..|rows| - 1];
      var row := rows[|rows| - 1];
      assert rows == init + [row];
      AggregateRowsCorrect(init);
      AbsorbCorrect(AggregateRows(init), init, row);
    }
  }

  lemma AbsorbCorrect(acc: seq<Aggregate>, rows: seq<SnapshotRow>, row: SnapshotRow)
    requires Describes(acc, rows)
    ensures Describes(Absorb(acc, row), rows + [row])
  {
    var all := rows + [row];
    var ids := FirstSeenIds(rows);
    var id := row.streamer_id;
    assert all[..|all| - 1] == rows;
    forall x | x != id
      ensures Reference(all, x) == Reference(rows, x)
    {
      FirstNameSame(rows, row, x);
    }
    match Seqs.FindIndex(acc, IdMatches(row))
    case Some(j) =>
      assert ids[j] == id;
      assert Occurs(rows, id);
      FirstNameAppend(rows, row, id);
      var r := Absorb(acc, row);
      assert r == acc[j := AddRow(acc[j], row)];
      assert FirstSeenIds(all) == ids;
      forall i | 0 <= i < |r|
        ensures r[i] == Reference(all, ids[i])
      {
        if i != j {
          assert ids[i] != id;
        } else {
          assert forall c :: AggCounter(r[i], c) == AggCounter(Reference(all, id), c);
        }
      }
    case None =>
      assert forall k :: 0 <= k < |acc| ==> !IdMatches(row)(acc[k]);
      assert id !in ids;
      assert !Occurs(rows, id);
      FirstNameAppend(rows, row, id);
      forall c { SumForAbsent(rows, id, c); }
      var r := Absorb(acc, row);
      assert r == acc + [FromRow(row)];
      assert FirstSeenIds(all) == ids + [id];
      assert Reference(all, id) == FromRow(row) by {
        forall c ensures SumFor(all, id, c) == RowCounter(row, c) {
          assert SumFor(all, id, c) == SumFor(rows, id, c) + RowCounter(row, c);
        }
      }
      forall i | 0 <= i < |r|
        ensures r[i] == Reference(all, (ids + [id])[i])
      {
        if i < |acc| {
          assert ids[i] != id;
        }
      }
  }

  lemma FirstNameSame(rows: seq<SnapshotRow>, row: SnapshotRow, x: string)
    requires x != row.streamer_id
    ensures FirstName(rows + [row], x) == FirstName(rows, x)
  {
    if Occurs(rows, x) {
      FirstNameAppend(rows, row, x);
    } else {
      var all := rows + [row];
      OccursAppend(rows, [row], x);
      assert !Occurs([row], x);
      assert !Occurs(all, x);
      assert Seqs.FindIndex(all, HasId(x)).None?;
      assert Seqs.FindIndex(rows, HasId(x)).None?;
    }
  }

  lemma {:induction false} SumAggregatesUpdate(aggs: seq<Aggregate>, j: nat, a: Aggregate, c: Counter)
    requires j < |aggs|
    ensures SumAggregates(aggs[j := a], c) == SumAggregates(aggs, c) - AggCounter(aggs[j], c) + AggCounter(a, c)
    decreases |aggs|
  {
    var n := |aggs|;
    if j < n - 1 {
      assert aggs[j := a][..n - 1] == aggs[..n - 1][j := a];
      SumAggregatesUpdate(aggs[..n - 1], j, a, c);
    } else {
      assert aggs[j := a][..n - 1] == aggs[..n - 1];
    }
  }

  lemma SumAggregatesAppend(aggs: seq<Aggregate>, a: Aggregate, c: Counter)
    ensures SumAggregates(aggs + [a], c) == SumAggregates(aggs, c) + AggCounter(a, c)
  {
    assert (aggs + [a])[..|aggs|] == aggs;
  }

  /** Merging rows per ID loses nothing: the aggregates' total is the total over all rows. */
  lemma {:induction false} AggregateTotals(rows: seq<SnapshotRow>, c: Counter)
    ensures SumAggregates(AggregateRows(rows), c) == SumRows(rows, c)
    decreases |rows|
  {
    if rows != [] {
      var init := rows[..|rows| - 1];
      var row := rows[|rows| - 1];
      var acc := AggregateRows(init);
      AggregateTotals(init, c);
      match Seqs.FindIndex(acc, IdMatches(row))
      case Some(j) =>
        SumAggregatesUpdate(acc, j, AddRow(acc[j], row), c);
      case None =>
        SumAggregatesAppend(acc, FromRow(row), c);
    }
  }

  /**
   * The combined view's totals are the sums over every row of every
   * snapshot, and its count is the number of distinct IDs among them.
   */
  lemma SnapshotTotals(snapshots: seq<Snapshot>)
    ensures var st := AggregateSnapshots(snapshots);
      var rows := AllRows(snapshots);
      && st.totalCrystals == SumRows(rows, HostCrystals)
      && st.totalLuckGifts == SumRows(rows, LuckGifts)
      && st.totalExclusiveGifts == SumRows(rows, ExclusiveGifts)
      && st.streamerCount == |FirstSeenIds(rows)|
  {
    var rows := AllRows(snapshots);
    AggregateRowsCorrect(rows);
    forall c { AggregateTotals(rows, c); }
  }

  /** Each aggregate of the combined view is the reference description of its ID. */
  lemma SnapshotAggregates(snapshots: seq<Snapshot>)
    ensures Describes(AggregateSnapshots(snapshots).streamers, AllRows(snapshots))
  {
    AggregateRowsCorrect(AllRows(snapshots));
  }

  // ---------------------------------------------------------------------------
  // Available months and years

  predicate StrictlyDescending(s: seq<int>) {
    forall i, j :: 0 <= i < j < |s| ==> s[i] > s[j]
  }

  /** Inserts `x` into a strictly descending list unless it is already there. */
  function InsertDescending(s: seq<int>, x: int): (r: seq<int>)
    requires StrictlyDescending(s)
    ensures StrictlyDescending(r)
    ensures forall y :: y in r <==> y in s || y == x
    decreases |s|
  {
    if s == [] then [x]
    else if x == s[0] then s
    else if x > s[0] then [x] + s
    else
      var t := InsertDescending(s[1..], x);
      assert forall y :: y in s <==> y == s[0] || y in s[1..] by {
        assert s == [s[0]] + s[1..];
      }
      forall j | 0 <= j < |t|
        ensures t[j] < s[0]
      {
        assert t[j] in t;
        if t[j] in s[1..] {
          var k :| 0 <= k < |s[1..]| && s[1..][k] == t[j];
          assert s[k + 1] == t[j];
        }
      }
      var r := [s[0]] + t;
      assert forall i, j :: 0 <= i < j < |r| ==> r[i] > r[j] by {
        forall i, j | 0 <= i < j < |r| ensures r[i] > r[j] {
          assert r[j] == t[j - 1];
          assert i > 0 ==> r[i] == t[i - 1];
        }
      }
      r
  }

  /** A `Set` of keys sorted most recent first: each key once, in decreasing order. */
  function DistinctDescending(keys: seq<int>): (r: seq<int>)
    ensures StrictlyDescending(r)
    ensures forall y :: y in r <==> y in keys
    decreases |keys|
  {
    if keys == [] then []
    else
      var init := keys[..|keys| - 1];
      assert keys == init + [keys[|keys| - 1]];
      InsertDescending(DistinctDescending(init), keys[|keys| - 1])
  }

  /** A strictly descending list is determined by its elements, so the listing above is the only one. */
  lemma {:induction false} DescendingUnique(a: seq<int>, b: seq<int>)
    requires StrictlyDescending(a) && StrictlyDescending(b)
    requires forall y :: y in a <==> y in b
    ensures a == b
    decreases |a|
  {
    assert a != [] ==> a[0] in a && a[0] in b;
    assert b != [] ==> b[0] in b && b[0] in a;
    if a != [] && b != [] {
      SameHead(a, b);
      forall y ensures y in a[1..] <==> y in b[1..] {
        SameTail(a, b, y);
        SameTail(b, a, y);
      }
      DescendingUnique(a[1..], b[1..]);
      assert a == [a[0]] + a[1..];
      assert b == [b[0]] + b[1..];
    }
  }

  /** Two strictly descending lists with the same elements start with the same (largest) one. */
  lemma SameHead(a: seq<int>, b: seq<int>)
    requires StrictlyDescending(a) && StrictlyDescending(b) && a != [] && b != []
    requires forall y :: y in a <==> y in b
    ensures a[0] == b[0]
  {
    assert a[0] in a && b[0] in b;
    var i :| 0 <= i < |b| && b[i] == a[0];
    var j :| 0 <= j < |a| && a[j] == b[0];
    assert b[0] >= b[i];
    assert a[0] >= a[j];
  }

  /** Past a shared head, what remains of one list is in what remains of the other. */
  lemma SameTail(a: seq<int>, b: seq<int>, y: int)
    requires StrictlyDescending(a) && StrictlyDescending(b) && a != [] && b != [] && a[0] == b[0]
    requires forall y :: y in a <==> y in b
    ensures y in a[1..] ==> y in b[1..]
  {
    if y in a[1..] {
      var k :| 0 <= k < |a[1..]| && a[1..][k] == y;
      assert a[k + 1] == y && y in a && y in b;
      var m :| 0 <= m < |b| && b[m] == y;
      assert m != 0;
      assert b[1..][m - 1] == y;
    }
  }

  /** A calendar month already decoded from a snapshot date; `month` counts from 0. */
  datatype YearMonth = YearMonth(year: int, month: int)

  /** Orders months like their "YYYY-MM" keys do (for four-digit years). */
  function MonthKey(m: YearMonth): int {
    m.year * 12 + m.month
  }

  const MonthNames: seq<string> := [
    "Janeiro", "Fevereiro", "Mar\U{00E7}o", "Abril", "Maio", "Junho",
    "Julho", "Agosto", "Setembro", "Outubro", "Novembro", "Dezembro"]

  datatype MonthOption = MonthOption(value: string, caption: string)

  /** `v` is a year, a dash and the two digits of `month`. */
  predicate IsMonthValue(v: string, year: string, month: nat) {
    && |v| >= 4 && v[|v| - 3] == '-'
    && AllDigits(v[|v| - 2..]) && DigitsValue(v[|v| - 2..]) == month
    && v[..|v| - 3] == year
  }

  lemma DashedMonth(year: string, mm: string, month: nat)
    requires |year| >= 1 && |mm| == 2 && AllDigits(mm) && DigitsValue(mm) == month
    ensures IsMonthValue(year + ['-'] + mm, year, month)
  {
    TwoCharSuffix(year, '-', mm);
  }

  /**
   * The "YYYY-MM" key of a month: it ends in a dash and two digits that
   * spell the month counted from 1, after the year.
   */
  function MonthValue(key: int): (v: string)
    ensures IsMonthValue(v, IntToString(key / 12), key % 12 + 1)
  {
    PadTwoDigits(key % 12 + 1);
    DashedMonth(IntToString(key / 12), PadStart2(NatToString(key % 12 + 1)), key % 12 + 1);
    IntToString(key / 12) + ['-'] + PadStart2(NatToString(key % 12 + 1))
  }

  /** The option for a month key, labelled "Month YYYY". */
  function MonthOptionOf(key: int): MonthOption {
    MonthOption(MonthValue(key), MonthNames[key % 12] + " " + IntToString(key / 12))
  }

  /** The keys of the months that occur among `dates`. */
  ghost predicate ListsMonths(keys: seq<int>, dates: seq<YearMonth>) {
    forall y :: y in keys <==> exists i :: 0 <= i < |dates| && MonthKey(dates[i]) == y
  }

  /** `getAvailableMonths` over decoded dates: the month of every date is offered. */
  function AvailableMonths(dates: seq<YearMonth>): (r: seq<MonthOption>)
    ensures forall i :: 0 <= i < |dates| ==> MonthOptionOf(MonthKey(dates[i])) in r
  {
    var all := Seqs.Map(dates, MonthKey);
    var keys := DistinctDescending(all);
    var r := Seqs.Map(keys, MonthOptionOf);
    assert forall i :: 0 <= i < |dates| ==> MonthOptionOf(MonthKey(dates[i])) in r by {
      forall i | 0 <= i < |dates| ensures MonthOptionOf(MonthKey(dates[i])) in r {
        assert all[i] in keys;
        var k :| 0 <= k < |keys| && keys[k] == all[i];
        assert r[k] == MonthOptionOf(all[i]);
      }
    }
    r
  }

  /**
   * The months offered are exactly the months that occur, each once, most
   * recent first: any strictly descending listing of those months, turned
   * into options, is the result.
   */
  lemma AvailableMonthsExact(dates: seq<YearMonth>, keys: seq<int>)
    requires StrictlyDescending(keys) && ListsMonths(keys, dates)
    ensures AvailableMonths(dates) == Seqs.Map(keys, MonthOptionOf)
  {
    var all := Seqs.Map(dates, MonthKey);
    forall y ensures y in all <==> exists i :: 0 <= i < |dates| && MonthKey(dates[i]) == y {
      if y in all {
        var k :| 0 <= k < |all| && all[k] == y;
        assert MonthKey(dates[k]) == y;
      }
      if exists i :: 0 <= i < |dates| && MonthKey(dates[i]) == y {
        var i :| 0 <= i < |dates| && MonthKey(dates[i]) == y;
        assert all[i] == y;
      }
    }
    DescendingUnique(DistinctDescending(all), keys);
  }

  /** `getAvailableYears` over decoded years; each option's label equals its value, and every year is offered. */
  function AvailableYears(years: seq<int>): (r: seq<string>)
    ensures forall i :: 0 <= i < |years| ==> IntToString(years[i]) in r
  {
    var keys := DistinctDescending(years);
    var r := Seqs.Map(keys, IntToString);
    assert forall i :: 0 <= i < |years| ==> IntToString(years[i]) in r by {
      forall i | 0 <= i < |years| ensures IntToString(years[i]) in r {
        assert years[i] in keys;
        var k :| 0 <= k < |keys| && keys[k] == years[i];
        assert r[k] == IntToString(years[i]);
      }
    }
    r
  }

  /** The years offered are exactly the years that occur, each once, most recent first. */
  lemma AvailableYearsExact(years: seq<int>, keys: seq<int>)
    requires StrictlyDescending(keys)
    requires forall y :: y in keys <==> y in years
    ensures AvailableYears(years) == Seqs.Map(keys, IntToString)
  {
    DescendingUnique(DistinctDescending(years), keys);
  }
}

=== FILE: export_page.dfy ===
/**
 * The export page: the option toggles, which streamers are exported (the
 * current list, one streamer, or a saved snapshot), the one-line-per-streamer
 * text it copies or downloads, and the five-line preview.
 */
module ExportPage {
  import opened Wrappers
  import opened Text
  import Seqs
  import opened StreamerTypes
  import opened ExportUtils

  /** Every option starts switched on. */
  const DefaultOptions: ExportOptions := ExportOptions(true, true, true, true, true, true, true, true, true, true)

  /** With the default options every column of the field table is exported, in table order. */
  lemma DefaultsExportEverything()
    ensures forall k :: Enabled(DefaultOptions, k)
    ensures ActiveFields(DefaultOptions) == FieldTable
  {
    Seqs.FilterAll(FieldTable, IsActive(DefaultOptions));
  }

  /** The options whose flag for each key is `flag(key)`. */
  function FromFlags(flag: ExportKey -> bool): (r: ExportOptions)
    ensures forall key :: Enabled(r, key) == flag(key)
  {
    ExportOptions(
      flag(IncludeRanking), flag(IncludeName), flag(IncludeId), flag(IncludeLuckGifts),
      flag(IncludeExclusiveGifts), flag(IncludeHostCrystals), flag(IncludeHostUsd),
      flag(IncludeAgencyUsd), flag(IncludeHours), flag(IncludeDays))
  }

  /** `toggleOption(key)`: `{ ...prev, [key]: !prev[key] }`. */
  function ToggleOption(o: ExportOptions, k: ExportKey): (r: ExportOptions)
    ensures Enabled(r, k) == !Enabled(o, k)
    ensures forall other :: other != k ==> Enabled(r, other) == Enabled(o, other)
  {
    FromFlags(key => if key == k then !Enabled(o, key) else Enabled(o, key))
  }

  /** Toggling flips the chosen flag and leaves every other flag as it was. */
  lemma ToggleFlipsOne(o: ExportOptions, k: ExportKey, other: ExportKey)
    ensures Enabled(ToggleOption(o, k), k) == !Enabled(o, k)
    ensures other != k ==> Enabled(ToggleOption(o, k), other) == Enabled(o, other)
  {
  }

  /** Toggling the same option twice restores the options. */
  lemma ToggleTwice(o: ExportOptions, k: ExportKey)
    ensures ToggleOption(ToggleOption(o, k), k) == o
  {
  }

  // ---------------------------------------------------------------------------
  // What is exported

  datatype ExportSource = CurrentStreamers | SavedSnapshot

  /** A snapshot row shown as a streamer: both identifiers are the row's streamer ID. */
  function StreamerOfRow(r: SnapshotRow): Streamer {
    Streamer(r.streamer_id, r.streamer_id, r.name, r.luck_gifts, r.exclusive_gifts, r.host_crystals,
      r.minutes, r.effective_days, "", "")
  }

  function HasRecordId(id: string): Streamer -> bool {
    (s: Streamer) => s.id == id
  }

  function HasSnapshotId(id: string): Snapshot -> bool {
    (s: Snapshot) => s.id == id
  }

  /** The streamers are the snapshot's rows, converted one by one, in order. */
  predicate ConvertsRows(streamers: seq<Streamer>, rows: seq<SnapshotRow>) {
    |streamers| == |rows| && forall k :: 0 <= k < |rows| ==> streamers[k] == StreamerOfRow(rows[k])
  }

  /** `getDataToExport`; `None` is the page's `null`. */
  function DataToExport(
    source: ExportSource, selectedStreamer: string, selectedSnapshot: string,
    allStreamers: seq<Streamer>, snapshots: seq<Snapshot>): (r: Option<seq<Streamer>>)
    ensures source == CurrentStreamers && selectedStreamer == "all" ==> r == Some(allStreamers)
    ensures source == CurrentStreamers && selectedStreamer != "all" ==>
      (r.None? <==> forall i :: 0 <= i < |allStreamers| ==> allStreamers[i].id != selectedStreamer)
    ensures source == CurrentStreamers && selectedStreamer != "all" && r.Some? ==>
      |r.value| == 1 && r.value[0] in allStreamers && r.value[0].id == selectedStreamer
    ensures source == SavedSnapshot ==>
      (r.None? <==> forall i :: 0 <= i < |snapshots| ==> snapshots[i].id != selectedSnapshot)
    ensures source == SavedSnapshot && r.Some? ==>
      exists i :: 0 <= i < |snapshots| && snapshots[i].id == selectedSnapshot && ConvertsRows(r.value, snapshots[i].data)
  {
    match source
    case CurrentStreamers =>
      if selectedStreamer == "all" then Some(allStreamers)
      else
        (match Seqs.Find(allStreamers, HasRecordId(selectedStreamer))
         case None => None
         case Some(s) => Some([s]))
    case SavedSnapshot =>
      match Seqs.FindIndex(snapshots, HasSnapshotId(selectedSnapshot))
      case None => None
      case Some(i) => Some(Seqs.Map(snapshots[i].data, StreamerOfRow))
  }

  /** A converted snapshot row keeps the row's identity and every counter, and uses its streamer ID as record ID. */
  lemma StreamerOfRowFaithful(r: SnapshotRow)
    ensures var s := StreamerOfRow(r);
      && s.id == r.streamer_id && s.streamer_id == r.streamer_id && s.name == r.name
      && forall c :: StreamerCounter(s, c) == RowCounter(r, c)
  {
  }

  // ---------------------------------------------------------------------------
  // The copied text

  /** The trophy that precedes a rank. */
  const Trophy: char := '\U{1F3C6}'

  /** The parts of a line, in the page's fixed order. */
  const LineOrder: seq<ExportKey> := [
    IncludeRanking, IncludeName, IncludeId, IncludeLuckGifts, IncludeExclusiveGifts,
    IncludeHostCrystals, IncludeHostUsd, IncludeAgencyUsd, IncludeHours, IncludeDays]

  /** One part of a streamer's line. */
  function PartValue(k: ExportKey, s: Streamer, index: nat, usd: UsdText): string {
    if k == IncludeRanking then [Trophy, ' '] + NatToString(index + 1)
    else CellValue(k, s, index, usd)
  }

  function When(b: bool, part: string): seq<string> {
    if b then [part] else []
  }

  /** The value of every part for one streamer. */
  function PartsOf(s: Streamer, index: nat, usd: UsdText): ExportKey -> string {
    (k: ExportKey) => PartValue(k, s, index, usd)
  }

  /** The `parts.push(...)` sequence, given each key's part. */
  function LineParts(o: ExportOptions, part: ExportKey -> string): seq<string> {
    When(o.includeRanking, part(IncludeRanking))
      + (When(o.includeName, part(IncludeName))
      + (When(o.includeId, part(IncludeId))
      + (When(o.includeLuckGifts, part(IncludeLuckGifts))
      + (When(o.includeExclusiveGifts, part(IncludeExclusiveGifts))
      + (When(o.includeHostCrystals, part(IncludeHostCrystals))
      + (When(o.includeHostUsd, part(IncludeHostUsd))
      + (When(o.includeAgencyUsd, part(IncludeAgencyUsd))
      + (When(o.includeHours, part(IncludeHours))
      + (When(o.includeDays, part(IncludeDays)))))))))))
  }

  /** The pieces a key contributes: its part when its option is on, nothing otherwise. */
  function Pieces(o: ExportOptions, part: ExportKey -> string): ExportKey -> seq<string> {
    (k: ExportKey) => When(Enabled(o, k), part(k))
  }

  /** The pieces of `keys`, in the order of `keys`. */
  function SelectedParts(keys: seq<ExportKey>, piece: ExportKey -> seq<string>): seq<string>
    decreases |keys|
  {
    if keys == [] then [] else piece(keys[0]) + SelectedParts(keys[1..], piece)
  }

  lemma SelectedCons(k: ExportKey, keys: seq<ExportKey>, piece: ExportKey -> seq<string>)
    ensures SelectedParts([k] + keys, piece) == piece(k) + SelectedParts(keys, piece)
  {
    assert ([k] + keys)[1..] == keys;
  }

  lemma SelectedInOrder(piece: ExportKey -> seq<string>)
    ensures SelectedParts(LineOrder, piece) ==
      piece(IncludeRanking) + (piece(IncludeName) + (piece(IncludeId) + (piece(IncludeLuckGifts)
        + (piece(IncludeExclusiveGifts) + (piece(IncludeHostCrystals) + (piece(IncludeHostUsd)
        + (piece(IncludeAgencyUsd) + (piece(IncludeHours) + piece(IncludeDays)))))))))
  {
    var k9: seq<ExportKey> := [IncludeDays];
    var k8 := [IncludeHours] + k9;
    var k7 := [IncludeAgencyUsd] + k8;
    var k6 := [IncludeHostUsd] + k7;
    var k5 := [IncludeHostCrystals] + k6;
    var k4 := [IncludeExclusiveGifts] + k5;
    var k3 := [IncludeLuckGifts] + k4;
    var k2 := [IncludeId] + k3;
    var k1 := [IncludeName] + k2;
    var k0 := [IncludeRanking] + k1;
    assert k0 == LineOrder;
    SelectedCons(IncludeDays, [], piece);
    assert [IncludeDays] + [] == k9;
    assert piece(IncludeDays) + [] == piece(IncludeDays);
    SelectedCons(IncludeHours, k9, piece);
    SelectedCons(IncludeAgencyUsd, k8, piece);
    SelectedCons(IncludeHostUsd, k7, piece);
    SelectedCons(IncludeHostCrystals, k6, piece);
    SelectedCons(IncludeExclusiveGifts, k5, piece);
    SelectedCons(IncludeLuckGifts, k4, piece);
    SelectedCons(IncludeId, k3, piece);
    SelectedCons(IncludeName, k2, piece);
    SelectedCons(IncludeRanking, k1, piece);
  }

  /**
   * A line holds one part per enabled option, in the fixed order, and
   * nothing else: its parts are exactly the pieces of the keys of that
   * order, each present only when its option is on.
   */
  lemma LinePartsInOrder(o: ExportOptions, part: ExportKey -> string)
    ensures LineParts(o, part) == SelectedParts(LineOrder, Pieces(o, part))
  {
    SelectedInOrder(Pieces(o, part));
  }

  /** Only keys that are on contribute, one part each. */
  lemma {:induction false} SelectedPartsCount(keys: seq<ExportKey>, o: ExportOptions, part: ExportKey -> string)
    ensures |SelectedParts(keys, Pieces(o, part))| == |Seqs.Filter(keys, IsOn(o))|
    decreases |keys|
  {
    if keys != [] {
      SelectedPartsCount(keys[1..], o, part);
    }
  }

  function IsOn(o: ExportOptions): ExportKey -> bool {
    (k: ExportKey) => Enabled(o, k)
  }

  /** `parts.join(' ')`. */
  function ExportLine(s: Streamer, index: nat, o: ExportOptions, usd: UsdText): string {
    JoinWith(LineParts(o, PartsOf(s, index, usd)), ' ')
  }

  /**
   * The line of every streamer, in order. No line breaks when names, IDs and
   * dollar texts have no newline, and with ranking on every line opens with
   * the trophy and the streamer's position counted from 1.
   */
  function ExportLines(streamers: seq<Streamer>, o: ExportOptions, usd: UsdText): (lines: seq<string>)
    ensures |lines| == |streamers|
    ensures forall i :: 0 <= i < |streamers| ==> lines[i] == ExportLine(streamers[i], i, o, usd)
    ensures NewlineFree(streamers, usd) ==> forall i :: 0 <= i < |lines| ==> '\n' !in lines[i]
    ensures o.includeRanking ==>
      forall i :: 0 <= i < |lines| ==> StartsWith(lines[i], [Trophy, ' '] + NatToString(i + 1))
  {
    var lines := seq(|streamers|, i requires 0 <= i < |streamers| => ExportLine(streamers[i], i, o, usd));
    LinesFacts(streamers, o, usd, lines);
    lines
  }

  lemma LinesFacts(streamers: seq<Streamer>, o: ExportOptions, usd: UsdText, lines: seq<string>)
    requires LinesOf(streamers, o, usd, lines)
    ensures NewlineFree(streamers, usd) ==> forall i :: 0 <= i < |lines| ==> '\n' !in lines[i]
    ensures o.includeRanking ==>
      forall i :: 0 <= i < |lines| ==> StartsWith(lines[i], [Trophy, ' '] + NatToString(i + 1))
  {
    if NewlineFree(streamers, usd) {
      LinesAvoidNewline(streamers, o, usd, lines);
    }
    if o.includeRanking {
      LinesOpenWithRank(streamers, o, usd, lines);
    }
  }

  /** Line `i` of `lines` is the export line of streamer `i`. */
  predicate LinesOf(streamers: seq<Streamer>, o: ExportOptions, usd: UsdText, lines: seq<string>) {
    |lines| == |streamers| && forall i :: 0 <= i < |streamers| ==> lines[i] == ExportLine(streamers[i], i, o, usd)
  }

  lemma LinesAvoidNewline(streamers: seq<Streamer>, o: ExportOptions, usd: UsdText, lines: seq<string>)
    requires LinesOf(streamers, o, usd, lines) && NewlineFree(streamers, usd)
    ensures forall i :: 0 <= i < |lines| ==> '\n' !in lines[i]
  {
    forall i | 0 <= i < |lines| ensures '\n' !in lines[i] {
      assert NewlineFree([streamers[i]], usd);
      LineAvoidsNewline(streamers[i], i, o, usd);
    }
  }

  lemma LinesOpenWithRank(streamers: seq<Streamer>, o: ExportOptions, usd: UsdText, lines: seq<string>)
    requires LinesOf(streamers, o, usd, lines) && o.includeRanking
    ensures forall i :: 0 <= i < |lines| ==> StartsWith(lines[i], [Trophy, ' '] + NatToString(i + 1))
  {
    forall i | 0 <= i < |lines| ensures StartsWith(lines[i], [Trophy, ' '] + NatToString(i + 1)) {
      RankingPart(streamers[i], i, o, usd);
    }
  }

  /** `formatExportData`. */
  function FormatExportData(streamers: seq<Streamer>, o: ExportOptions, usd: UsdText): string {
    JoinWith(ExportLines(streamers, o, usd), '\n')
  }

  lemma {:induction false} JoinWithAvoids(parts: seq<string>, sep: char, c: char)
    requires c != sep && forall i :: 0 <= i < |parts| ==> c !in parts[i]
    ensures c !in JoinWith(parts, sep)
  {
    if parts != [] {
      JoinFree(parts, sep, c);
    }
  }

  /** No part of a line has a newline when names, IDs and dollar texts have none. */
  lemma PartsAvoidNewline(s: Streamer, index: nat, usd: UsdText, k: ExportKey)
    requires NewlineFree([s], usd)
    ensures '\n' !in PartsOf(s, index, usd)(k)
  {
    assert [s][0] == s;
    if k == IncludeRanking {
      var r := PartValue(k, s, index, usd);
      assert r == [Trophy, ' '] + NatToString(index + 1);
      forall j | 0 <= j < |r| ensures r[j] != '\n' {
        if j >= 2 { assert r[j] == NatToString(index + 1)[j - 2]; }
      }
    } else {
      CellAvoids(k, s, index, usd, '\n');
    }
  }

  lemma {:induction false} SelectedAvoid(keys: seq<ExportKey>, o: ExportOptions, part: ExportKey -> string, c: char)
    requires forall k: ExportKey :: c !in part(k)
    ensures forall i :: 0 <= i < |SelectedParts(keys, Pieces(o, part))| ==> c !in SelectedParts(keys, Pieces(o, part))[i]
    decreases |keys|
  {
    if keys != [] {
      SelectedAvoid(keys[1..], o, part, c);
      var head := Pieces(o, part)(keys[0]);
      var rest := SelectedParts(keys[1..], Pieces(o, part));
      assert forall i :: 0 <= i < |head| ==> c !in head[i];
      assert SelectedParts(keys, Pieces(o, part)) == head + rest;
    }
  }

  lemma LineAvoidsNewline(s: Streamer, index: nat, o: ExportOptions, usd: UsdText)
    requires NewlineFree([s], usd)
    ensures '\n' !in ExportLine(s, index, o, usd)
  {
    var part := PartsOf(s, index, usd);
    forall k: ExportKey ensures '\n' !in part(k) {
      PartsAvoidNewline(s, index, usd, k);
    }
    LinePartsInOrder(o, part);
    SelectedAvoid(LineOrder, o, part, '\n');
    JoinWithAvoids(LineParts(o, part), ' ', '\n');
  }

  /**
   * The exported text has exactly one line per streamer: splitting it at
   * newlines gives back each streamer's line, in order.
   */
  lemma OneLinePerStreamer(streamers: seq<Streamer>, o: ExportOptions, usd: UsdText)
    requires streamers != [] && NewlineFree(streamers, usd)
    ensures Split(FormatExportData(streamers, o, usd), '\n') == ExportLines(streamers, o, usd)
  {
    SplitJoin(ExportLines(streamers, o, usd), '\n');
  }

  /** With ranking on, the joined parts start with the ranking part. */
  lemma RankingFirst(o: ExportOptions, part: ExportKey -> string)
    requires o.includeRanking
    ensures StartsWith(JoinWith(LineParts(o, part), ' '), part(IncludeRanking))
  {
    LinePartsInOrder(o, part);
    assert LineOrder == [IncludeRanking] + LineOrder[1..];
    SelectedHead(IncludeRanking, LineOrder[1..], o, part);
  }

  /** The joined pieces of a list whose first key is on start with that key's part. */
  lemma SelectedHead(k: ExportKey, keys: seq<ExportKey>, o: ExportOptions, part: ExportKey -> string)
    requires Enabled(o, k)
    ensures StartsWith(JoinWith(SelectedParts([k] + keys, Pieces(o, part)), ' '), part(k))
  {
    SelectedCons(k, keys, Pieces(o, part));
    assert Pieces(o, part)(k) == [part(k)];
    JoinStartsWithHead(part(k), SelectedParts(keys, Pieces(o, part)), ' ');
  }

  /** With ranking on, a line starts with the trophy, a space and the position counted from 1. */
  lemma RankingPart(s: Streamer, index: nat, o: ExportOptions, usd: UsdText)
    requires o.includeRanking
    ensures var p := [Trophy, ' '] + NatToString(index + 1);
      StartsWith(ExportLine(s, index, o, usd), p) && DigitsValue(p[2..]) == index + 1
  {
    var p := [Trophy, ' '] + NatToString(index + 1);
    RankingFirst(o, PartsOf(s, index, usd));
    assert PartsOf(s, index, usd)(IncludeRanking) == p;
    assert p[2..] == NatToString(index + 1);
  }

  // ---------------------------------------------------------------------------
  // Copy, download and preview

  /**
   * The copy and download actions: nothing to export is refused; otherwise
   * the text is the exported data, one line per streamer.
   */
  function ExportText(data: Option<seq<Streamer>>, o: ExportOptions, usd: UsdText): (r: Option<string>)
    ensures r.None? <==> data.None? || data.value == []
    ensures r.Some? ==> r.value == FormatExportData(data.value, o, usd)
  {
    if data.None? || data.value == [] then None else Some(FormatExportData(data.value, o, usd))
  }

  /**
   * The copied or downloaded text splits at newlines into exactly the
   * streamers' lines, in order, when names, IDs and dollar texts have none.
   */
  lemma ExportTextLines(streamers: seq<Streamer>, o: ExportOptions, usd: UsdText)
    requires streamers != [] && NewlineFree(streamers, usd)
    ensures var r := ExportText(Some(streamers), o, usd);
      r.Some? && Split(r.value, '\n') == ExportLines(streamers, o, usd)
  {
    OneLinePerStreamer(streamers, o, usd);
  }

  const NoData: string := "Nenhum dado dispon\U{00ED}vel"

  /**
   * The preview box: "Nenhum dado disponível" when there is nothing to
   * export; otherwise the first five streamers' lines, then "\n..." exactly
   * when there are more.
   */
  function Preview(data: Option<seq<Streamer>>, o: ExportOptions, usd: UsdText): (r: string)
    ensures data.None? || data.value == [] ==> r == NoData
    ensures data.Some? && |data.value| > 5 ==> |r| >= 4 && r[|r| - 4..] == "\n..."
  {
    if data.None? || data.value == [] then NoData
    else
      var all := data.value;
      var shown := if |all| <= 5 then all else all[..5];
      FormatExportData(shown, o, usd) + (if |all| > 5 then "\n..." else "")
  }

  /**
   * The preview shows the first min(5, n) lines and then a "..." line
   * exactly when more than five streamers would be exported.
   */
  lemma PreviewLines(all: seq<Streamer>, o: ExportOptions, usd: UsdText)
    requires all != [] && NewlineFree(all, usd)
    ensures var shown := if |all| <= 5 then all else all[..5];
      Split(Preview(Some(all), o, usd), '\n')
        == ExportLines(shown, o, usd) + (if |all| > 5 then ["..."] else [])
  {
    var shown := if |all| <= 5 then all else all[..5];
    assert NewlineFree(shown, usd);
    assert Preview(Some(all), o, usd)
      == JoinWith(ExportLines(shown, o, usd), '\n') + (if |all| > 5 then "\n..." else "");
    MoreLine(ExportLines(shown, o, usd), |all| > 5);
  }

  /** Appending "\n..." to joined lines adds one "..." line; appending nothing adds none. */
  lemma MoreLine(lines: seq<string>, more: bool)
    requires lines != [] && forall i :: 0 <= i < |lines| ==> '\n' !in lines[i]
    ensures Split(JoinWith(lines, '\n') + (if more then "\n..." else ""), '\n')
      == lines + (if more then ["..."] else [])
  {
    if more {
      var parts := lines + ["..."];
      JoinAppend(lines, ["..."], '\n');
      assert Join(["..."], '\n') == "...";
      assert JoinWith(lines, '\n') + "\n..." == Join(parts, '\n');
      SplitJoin(parts, '\n');
    } else {
      assert JoinWith(lines, '\n') + "" == Join(lines, '\n');
      SplitJoin(lines, '\n');
      assert lines + [] == lines;
    }
  }
}

=== FILE: export_utils.dfy ===
/**
 * The export layout shared by the text, spreadsheet, PDF and CSV exports:
 * the fixed table of columns, the columns an options record selects, the
 * spreadsheet preview (headers and one row of cells per streamer) and the
 * plain-text block (a few lines per streamer).
 */
module ExportUtils {
  import opened Text
  import Seqs
  import opened StreamerTypes

  /**
   * The two dollar columns are floating-point figures derived from a
   * streamer's host crystals; their text is supplied by the caller.
   */
  datatype UsdText = UsdText(hostUsd: int -> string, agencyUsd: int -> string)

  /** A column: the option that switches it on and its header. */
  datatype ExportField = ExportField(key: ExportKey, caption: string)

  /** The column table, in output order. */
  const FieldTable: seq<ExportField> := [
    ExportField(IncludeRanking, "Ranking"),
    ExportField(IncludeName, "Nome"),
    ExportField(IncludeId, "ID"),
    ExportField(IncludeExclusiveGifts, "Exclusivos"),
    ExportField(IncludeHostUsd, "Host $"),
    ExportField(IncludeAgencyUsd, "Ag\U{00EA}ncia $"),
    ExportField(IncludeHostCrystals, "Cristais"),
    ExportField(IncludeLuckGifts, "Sorte"),
    ExportField(IncludeHours, "Horas"),
    ExportField(IncludeDays, "Dias")]

  /** Where each option's column sits in the table. */
  function TableIndex(k: ExportKey): (i: nat)
    ensures i < |FieldTable| && FieldTable[i].key == k
  {
    match k
    case IncludeRanking => 0
    case IncludeName => 1
    case IncludeId => 2
    case IncludeExclusiveGifts => 3
    case IncludeHostUsd => 4
    case IncludeAgencyUsd => 5
    case IncludeHostCrystals => 6
    case IncludeLuckGifts => 7
    case IncludeHours => 8
    case IncludeDays => 9
  }

  /** The table lists every option exactly once, and its rows follow `TableIndex`. */
  lemma TableIndexInverse()
    ensures forall i :: 0 <= i < |FieldTable| ==> TableIndex(FieldTable[i].key) == i
  {
  }

  /** A column's cell for the streamer at position `index` of the exported list. */
  function CellValue(k: ExportKey, s: Streamer, index: nat, usd: UsdText): string {
    match k
    case IncludeRanking => NatToString(index + 1)
    case IncludeName => s.name
    case IncludeId => s.streamer_id
    case IncludeExclusiveGifts => FormatNumber(s.exclusive_gifts)
    case IncludeHostUsd => usd.hostUsd(s.host_crystals)
    case IncludeAgencyUsd => usd.agencyUsd(s.host_crystals)
    case IncludeHostCrystals => FormatNumber(s.host_crystals)
    case IncludeLuckGifts => FormatNumber(s.luck_gifts)
    case IncludeHours => FormatMinutesToHours(s.minutes)
    case IncludeDays => IntToString(s.effective_days)
  }

  function IsActive(o: ExportOptions): ExportField -> bool {
    (f: ExportField) => Enabled(o, f.key)
  }

  /** `getActiveFields`. */
  function ActiveFields(o: ExportOptions): (r: seq<ExportField>)
    ensures forall i :: 0 <= i < |r| ==> Enabled(o, r[i].key)
  {
    Seqs.Filter(FieldTable, IsActive(o))
  }

  /** A column is exported exactly when its option is on. */
  lemma ActiveFieldsExact(o: ExportOptions, k: ExportKey)
    ensures (exists i :: 0 <= i < |ActiveFields(o)| && ActiveFields(o)[i].key == k) <==> Enabled(o, k)
  {
    if Enabled(o, k) {
      var i := ActivePosition(FieldTable, o, TableIndex(k));
      assert ActiveFields(o)[i].key == k;
    }
  }

  /** Where a column whose option is on lands among the selected columns. */
  function ActivePosition(fields: seq<ExportField>, o: ExportOptions, at: nat): (i: nat)
    requires at < |fields| && Enabled(o, fields[at].key)
    ensures i < |Seqs.Filter(fields, IsActive(o))| && Seqs.Filter(fields, IsActive(o))[i].key == fields[at].key
  {
    Seqs.FilterPosition(fields, IsActive(o), at)
  }

  /** Columns come out in table order, so no column appears twice. */
  lemma ActiveFieldsOrdered(o: ExportOptions)
    ensures forall i, j :: 0 <= i < j < |ActiveFields(o)| ==>
      TableIndex(ActiveFields(o)[i].key) < TableIndex(ActiveFields(o)[j].key)
  {
    TableIndexInverse();
    Seqs.FilterKeepsOrder(FieldTable, IsActive(o), TableOrder);
  }

  function TableOrder(a: ExportField, b: ExportField): bool {
    TableIndex(a.key) < TableIndex(b.key)
  }

  // ---------------------------------------------------------------------------
  // Spreadsheet preview

  datatype Sheet = Sheet(headers: seq<string>, rows: seq<seq<string>>)

  function Caption(f: ExportField): string {
    f.caption
  }

  /**
   * The cells of one streamer's row, one per active column. A cell can only
   * hold a character that numbers never use when the streamer's own texts
   * (name, ID, dollar amounts) hold it.
   */
  function RowCells(fields: seq<ExportField>, s: Streamer, index: nat, usd: UsdText): (cells: seq<string>)
    ensures |cells| == |fields|
    ensures forall j :: 0 <= j < |fields| ==> cells[j] == CellValue(fields[j].key, s, index, usd)
    ensures OwnTextsAvoid(s, usd, '\n') ==> forall j :: 0 <= j < |cells| ==> '\n' !in cells[j]
  {
    var cells := seq(|fields|, j requires 0 <= j < |fields| => CellValue(fields[j].key, s, index, usd));
    assert OwnTextsAvoid(s, usd, '\n') ==> forall j :: 0 <= j < |cells| ==> '\n' !in cells[j] by {
      if OwnTextsAvoid(s, usd, '\n') {
        forall j | 0 <= j < |cells| ensures '\n' !in cells[j] {
          CellAvoids(fields[j].key, s, index, usd, '\n');
        }
      }
    }
    cells
  }

  /** A rectangle with one header per column and one row of cells per streamer. */
  function SheetFor(streamers: seq<Streamer>, fields: seq<ExportField>, usd: UsdText): (r: Sheet)
    ensures |r.headers| == |fields|
    ensures forall j :: 0 <= j < |r.headers| ==> r.headers[j] == fields[j].caption
    ensures |r.rows| == |streamers|
    ensures forall i :: 0 <= i < |r.rows| ==> |r.rows[i]| == |r.headers|
    ensures forall i, j :: 0 <= i < |r.rows| && 0 <= j < |r.headers| ==>
      r.rows[i][j] == CellValue(fields[j].key, streamers[i], i, usd)
  {
    Sheet(
      Seqs.Map(fields, Caption),
      seq(|streamers|, i requires 0 <= i < |streamers| => RowCells(fields, streamers[i], i, usd)))
  }

  /** `formatSpreadsheetPreview`: the sheet of the active columns. */
  function SpreadsheetPreview(streamers: seq<Streamer>, o: ExportOptions, usd: UsdText): (r: Sheet)
    ensures |r.headers| == |ActiveFields(o)|
    ensures forall j :: 0 <= j < |r.headers| ==> r.headers[j] == ActiveFields(o)[j].caption
    ensures |r.rows| == |streamers|
    ensures forall i :: 0 <= i < |r.rows| ==> |r.rows[i]| == |r.headers|
    ensures forall i, j :: 0 <= i < |r.rows| && 0 <= j < |r.headers| ==>
      r.rows[i][j] == CellValue(ActiveFields(o)[j].key, streamers[i], i, usd)
  {
    SheetFor(streamers, ActiveFields(o), usd)
  }

  /** With ranking on, the first cell of row `i` is the position `i + 1` in decimal. */
  lemma RankingCell(streamers: seq<Streamer>, o: ExportOptions, usd: UsdText, i: nat)
    requires o.includeRanking && i < |streamers|
    ensures var r := SpreadsheetPreview(streamers, o, usd);
      && |r.rows[i]| >= 1 && r.headers[0] == "Ranking"
      && AllDigits(r.rows[i][0]) && DigitsValue(r.rows[i][0]) == i + 1
  {
    assert Seqs.Filter(FieldTable, IsActive(o))[0] == FieldTable[0];
  }

  predicate AllOff(o: ExportOptions) {
    forall k :: !Enabled(o, k)
  }

  /** With every option off the sheet has no headers and every row is empty. */
  lemma NothingSelected(streamers: seq<Streamer>, o: ExportOptions, usd: UsdText)
    requires AllOff(o)
    ensures var r := SpreadsheetPreview(streamers, o, usd);
      r.headers == [] && forall i :: 0 <= i < |r.rows| ==> r.rows[i] == []
  {
    Seqs.FilterEmpty(FieldTable, IsActive(o));
  }

  // ---------------------------------------------------------------------------
  // Text block

  const Separator: string := "------------------------"

  function NotName(f: ExportField): bool {
    f.key != IncludeName
  }

  /** A "label: value" line. */
  function FieldLine(f: ExportField, s: Streamer, index: nat, usd: UsdText): string {
    f.caption + ": " + CellValue(f.key, s, index, usd)
  }

  /** The lines written for one streamer: its heading, one line per listed field, the separator. */
  function StreamerBlock(s: Streamer, index: nat, fields: seq<ExportField>, usd: UsdText): (lines: seq<string>)
    ensures |lines| == |Seqs.Filter(fields, NotName)| + 2
    ensures lines[0] == "Streamer: " + s.name && lines[|lines| - 1] == Separator
    ensures forall k :: 1 <= k < |lines| - 1 ==>
      lines[k] == FieldLine(Seqs.Filter(fields, NotName)[k - 1], s, index, usd)
  {
    var shown := Seqs.Filter(fields, NotName);
    ["Streamer: " + s.name]
      + seq(|shown|, k requires 0 <= k < |shown| => FieldLine(shown[k], s, index, usd))
      + [Separator]
  }

  /** No line of a streamer's block breaks in two when the captions and the streamer's own texts have no newline. */
  lemma BlockAvoidsNewline(s: Streamer, index: nat, fields: seq<ExportField>, usd: UsdText)
    requires OwnTextsAvoid(s, usd, '\n') && CaptionsAvoid(fields, '\n')
    ensures var lines := StreamerBlock(s, index, fields, usd);
      forall k :: 0 <= k < |lines| ==> '\n' !in lines[k]
  {
    var shown := Seqs.Filter(fields, NotName);
    var lines := StreamerBlock(s, index, fields, usd);
    forall k | 1 <= k < |lines| - 1 ensures '\n' !in lines[k] {
      ShownFieldLineAvoids(fields, shown[k - 1], s, index, usd);
    }
  }

  /** Every line of the text block, streamer after streamer, for the given active columns. */
  function BlockLines(streamers: seq<Streamer>, fields: seq<ExportField>, usd: UsdText): (lines: seq<string>)
    ensures |lines| == |streamers| * (|Seqs.Filter(fields, NotName)| + 2)
    decreases |streamers|
  {
    if streamers == [] then []
    else
      var n := |streamers| - 1;
      MulSucc(n, |Seqs.Filter(fields, NotName)| + 2);
      BlockLines(streamers[..n], fields, usd) + StreamerBlock(streamers[n], n, fields, usd)
  }

  lemma MulSucc(n: nat, w: nat)
    ensures (n + 1) * w == n * w + w
  {
  }

  /** A listed field of captions without newlines gives a line without one. */
  lemma ShownFieldLineAvoids(fields: seq<ExportField>, f: ExportField, s: Streamer, index: nat, usd: UsdText)
    requires OwnTextsAvoid(s, usd, '\n') && CaptionsAvoid(fields, '\n')
    requires f in Seqs.Filter(fields, NotName)
    ensures '\n' !in FieldLine(f, s, index, usd)
  {
    Seqs.FilterMembership(fields, NotName, f);
    FieldLineAvoids(f, s, index, usd);
  }

  lemma FieldLineAvoids(f: ExportField, s: Streamer, index: nat, usd: UsdText)
    requires OwnTextsAvoid(s, usd, '\n') && '\n' !in f.caption
    ensures '\n' !in FieldLine(f, s, index, usd)
  {
    CellAvoids(f.key, s, index, usd, '\n');
  }

  /** `formatTextBlock`. */
  function TextBlock(streamers: seq<Streamer>, o: ExportOptions, usd: UsdText): string {
    JoinWith(BlockLines(streamers, ActiveFields(o), usd), '\n')
  }

  /** The name is only ever written in the "Streamer:" heading: the listed fields are the active ones except Nome. */
  lemma NameNotListed(o: ExportOptions, f: ExportField)
    ensures f in Seqs.Filter(ActiveFields(o), NotName) <==> f in ActiveFields(o) && f.key != IncludeName
  {
    Seqs.FilterMembership(ActiveFields(o), NotName, f);
  }

  /** The block of the streamer at position `i` sits at its fixed offset in the line list. */
  lemma {:induction false} BlockAt(streamers: seq<Streamer>, fields: seq<ExportField>, usd: UsdText, i: nat)
    requires i < |streamers|
    ensures var w := |Seqs.Filter(fields, NotName)| + 2;
      i * w + w <= |BlockLines(streamers, fields, usd)|
      && BlockLines(streamers, fields, usd)[i * w .. i * w + w] == StreamerBlock(streamers[i], i, fields, usd)
    decreases |streamers|, 1
  {
    var n := |streamers| - 1;
    if i < n {
      BlockAtEarlier(streamers, fields, usd, i);
    } else {
      var w := |Seqs.Filter(fields, NotName)| + 2;
      var init := BlockLines(streamers[..n], fields, usd);
      var block := StreamerBlock(streamers[n], n, fields, usd);
      assert i == n && BlockLines(streamers, fields, usd) == init + block;
      BlockStep(init, block, n, w, n, block);
    }
  }

  /** The case of BlockAt for a block before the last one: it is where it was before the last block was appended. */
  lemma {:induction false} BlockAtEarlier(streamers: seq<Streamer>, fields: seq<ExportField>, usd: UsdText, i: nat)
    requires i + 1 < |streamers|
    ensures var w := |Seqs.Filter(fields, NotName)| + 2;
      i * w + w <= |BlockLines(streamers, fields, usd)|
      && BlockLines(streamers, fields, usd)[i * w .. i * w + w] == StreamerBlock(streamers[i], i, fields, usd)
    decreases |streamers|, 0
  {
    var w := |Seqs.Filter(fields, NotName)| + 2;
    var n := |streamers| - 1;
    var init := BlockLines(streamers[..n], fields, usd);
    var block := StreamerBlock(streamers[n], n, fields, usd);
    assert BlockLines(streamers, fields, usd) == init + block;
    BlockAt(streamers[..n], fields, usd, i);
    assert streamers[..n][i] == streamers[i];
    BlockStep(init, block, n, w, i, StreamerBlock(streamers[i], i, fields, usd));
  }

  /**
   * One more block of `w` lines after `n` blocks: the block at position `i` is either
   * one of the earlier ones, at the same offset, or the appended one.
   */
  lemma BlockStep<T>(init: seq<T>, block: seq<T>, n: nat, w: nat, i: nat, target: seq<T>)
    requires |init| == n * w && |block| == w && |target| == w && i <= n
    requires i < n ==> i * w + w <= |init| && init[i * w .. i * w + w] == target
    requires i == n ==> block == target
    ensures i * w + w <= |init + block| && (init + block)[i * w .. i * w + w] == target
  {
    if i < n {
      assert forall k :: i * w <= k < i * w + w ==> (init + block)[k] == init[k];
    }
  }

  /** A character that no generated number text contains. */
  predicate NotInNumbers(c: char) {
    !IsDigit(c) && c != '.' && c != '-' && c != ':'
  }

  lemma IntToStringAvoids(i: int, c: char)
    requires NotInNumbers(c)
    ensures c !in IntToString(i)
  {
    var r := IntToString(i);
    forall k | 0 <= k < |r| ensures r[k] != c {
      if i < 0 && k > 0 {
        assert r[1..][k - 1] == r[k];
      }
    }
  }

  /** Only names, IDs and dollar texts can bring a character that numbers never use. */
  lemma CellAvoids(k: ExportKey, s: Streamer, index: nat, usd: UsdText, c: char)
    requires NotInNumbers(c)
    requires c !in s.name && c !in s.streamer_id
    requires c !in usd.hostUsd(s.host_crystals) && c !in usd.agencyUsd(s.host_crystals)
    ensures c !in CellValue(k, s, index, usd)
  {
    match k
    case IncludeHours => HoursAvoid(s.minutes, c);
    case IncludeDays => IntToStringAvoids(s.effective_days, c);
    case _ =>
  }

  lemma HoursAvoid(minutes: int, c: char)
    requires NotInNumbers(c)
    ensures c !in FormatMinutesToHours(minutes)
  {
    IntToStringAvoids(minutes / 60, c);
    IntToStringAvoids(JsRem60(minutes), c);
    var p := IntToString(JsRem60(minutes));
    var q := PadStart2(p);
    forall j | 0 <= j < |q| ensures q[j] != c {
      if j >= |q| - |p| {
        assert q[j] == q[|q| - |p|..][j - (|q| - |p|)];
      }
    }
  }

  /** The text block's text and its content are free of a newline in any name or ID or dollar text. */
  predicate NewlineFree(streamers: seq<Streamer>, usd: UsdText) {
    forall i :: 0 <= i < |streamers| ==>
      && '\n' !in streamers[i].name && '\n' !in streamers[i].streamer_id
      && '\n' !in usd.hostUsd(streamers[i].host_crystals)
      && '\n' !in usd.agencyUsd(streamers[i].host_crystals)
  }

  /** The streamer's own texts (name, ID, dollar amounts) do not hold `c`. */
  predicate OwnTextsAvoid(s: Streamer, usd: UsdText, c: char) {
    && c !in s.name && c !in s.streamer_id
    && c !in usd.hostUsd(s.host_crystals) && c !in usd.agencyUsd(s.host_crystals)
  }

  predicate CaptionsAvoid(fields: seq<ExportField>, c: char) {
    forall i :: 0 <= i < |fields| ==> c !in fields[i].caption
  }

  lemma TableCaptionsAvoidNewline()
    ensures CaptionsAvoid(FieldTable, '\n')
  {
  }

  lemma ActiveCaptionsAvoidNewline(o: ExportOptions)
    ensures CaptionsAvoid(ActiveFields(o), '\n')
  {
    var r := ActiveFields(o);
    TableCaptionsAvoidNewline();
    forall i | 0 <= i < |r| ensures '\n' !in r[i].caption {
      Seqs.FilterMembership(FieldTable, IsActive(o), r[i]);
    }
  }

  lemma {:induction false} BlockLinesAvoid(streamers: seq<Streamer>, fields: seq<ExportField>, usd: UsdText)
    requires NewlineFree(streamers, usd) && CaptionsAvoid(fields, '\n')
    ensures forall j :: 0 <= j < |BlockLines(streamers, fields, usd)| ==> '\n' !in BlockLines(streamers, fields, usd)[j]
    decreases |streamers|
  {
    if streamers != [] {
      var n := |streamers| - 1;
      BlockLinesAvoid(streamers[..n], fields, usd);
      var block := StreamerBlock(streamers[n], n, fields, usd);
      assert OwnTextsAvoid(streamers[n], usd, '\n');
      BlockAvoidsNewline(streamers[n], n, fields, usd);
      var all := BlockLines(streamers, fields, usd);
      var init := BlockLines(streamers[..n], fields, usd);
      assert all == init + block;
      forall j | 0 <= j < |all| ensures '\n' !in all[j] {
        if j < |init| { assert all[j] == init[j]; } else { assert all[j] == block[j - |init|]; }
      }
    }
  }

  /**
   * Splitting the text block at newlines gives back its lines, so a block
   * of `w` lines per streamer is what a reader of the text sees, provided
   * names, IDs and dollar texts contain no newline.
   */
  lemma TextBlockLines(streamers: seq<Streamer>, o: ExportOptions, usd: UsdText)
    requires streamers != [] && NewlineFree(streamers, usd)
    ensures Split(TextBlock(streamers, o, usd), '\n') == BlockLines(streamers, ActiveFields(o), usd)
  {
    var fields := ActiveFields(o);
    ActiveCaptionsAvoidNewline(o);
    BlockLinesAvoid(streamers, fields, usd);
    SplitJoin(BlockLines(streamers, fields, usd), '\n');
  }
}

=== FILE: field_selection.dfy ===
/**
 * Reordering the export columns: the field list keeps Ranking in place 0
 * and lets every other field move one place up or down with its neighbour.
 * `onReorder` is modelled by the result: `Some(newOrder)` when it is called,
 * `None` when the move is refused and nothing happens.
 */
module FieldSelection {
  import opened Wrappers
  import opened StreamerTypes

  datatype Direction = Up | Down

  function Target(index: nat, direction: Direction): int {
    match direction
    case Up => index - 1
    case Down => index + 1
  }

  /** The order with the entries at `i` and `j` exchanged. */
  function Swap<T>(s: seq<T>, i: nat, j: nat): (r: seq<T>)
    requires i < |s| && j < |s|
    ensures |r| == |s| && r[i] == s[j] && r[j] == s[i]
    ensures forall k :: 0 <= k < |s| && k != i && k != j ==> r[k] == s[k]
  {
    s[i := s[j]][j := s[i]]
  }

  /** Exchanging two entries keeps the same entries. */
  lemma SwapPermutes<T>(s: seq<T>, i: nat, j: nat)
    requires i < |s| && j < |s|
    ensures multiset(Swap(s, i, j)) == multiset(s)
  {
    var t := s[i := s[j]];
    assert multiset(t) == multiset(s) - multiset{s[i]} + multiset{s[j]};
    assert multiset(t[j := s[i]]) == multiset(t) - multiset{t[j]} + multiset{s[i]};
  }

  /** `moveField(index, direction)` over the current `fieldOrder`. */
  function MoveField<T>(order: seq<T>, index: nat, direction: Direction): (r: Option<seq<T>>)
    requires index < |order|
    ensures r.Some? <==> index != 0 && 1 <= Target(index, direction) < |order|
    ensures r.Some? ==>
      var t := Target(index, direction);
      && |r.value| == |order|
      && r.value[index] == order[t] && r.value[t] == order[index]
      && forall k :: 0 <= k < |order| && k != index && k != t ==> r.value[k] == order[k]
  {
    if index == 0 then None
    else
      var t := Target(index, direction);
      if t < 1 || t >= |order| then None
      else Some(Swap(order, index, t))
  }

  /** A move keeps the same fields and leaves Ranking first. */
  lemma MovePermutes<T>(order: seq<T>, index: nat, direction: Direction)
    requires index < |order|
    ensures var r := MoveField(order, index, direction);
      r.Some? ==> multiset(r.value) == multiset(order) && r.value[0] == order[0]
  {
    var t := Target(index, direction);
    if MoveField(order, index, direction).Some? {
      SwapPermutes(order, index, t);
    }
  }

  /** The arrow buttons: "up" is offered from place 2 on, "down" everywhere but the last place, neither for Ranking. */
  predicate ButtonEnabled(order: seq<ExportKey>, index: nat, direction: Direction)
    requires index < |order|
  {
    order[index] != IncludeRanking &&
    match direction
    case Up => index > 1
    case Down => index != |order| - 1
  }

  /**
   * With Ranking in place 0, an enabled arrow always reorders and a
   * disabled one never does.
   */
  lemma EnabledIffMoves(order: seq<ExportKey>, index: nat, direction: Direction)
    requires index < |order| && order[0] == IncludeRanking
    requires index != 0 ==> order[index] != IncludeRanking
    ensures ButtonEnabled(order, index, direction) <==> MoveField(order, index, direction).Some?
  {
  }

  /** Moving a field up and then moving it back down restores the order. */
  lemma UpThenDown<T>(order: seq<T>, index: nat)
    requires index < |order|
    ensures var r := MoveField(order, index, Up);
      r.Some? ==> index - 1 < |r.value| && MoveField(r.value, index - 1, Down) == Some(order)
  {
    var r := MoveField(order, index, Up);
    if r.Some? {
      var back := MoveField(r.value, index - 1, Down);
      assert back.value == order;
    }
  }

  /** Moving a field down and then moving it back up restores the order. */
  lemma DownThenUp<T>(order: seq<T>, index: nat)
    requires index < |order|
    ensures var r := MoveField(order, index, Down);
      r.Some? ==> MoveField(r.value, index + 1, Up) == Some(order)
  {
    var r := MoveField(order, index, Down);
    if r.Some? {
      var back := MoveField(r.value, index + 1, Up);
      assert back.value == order;
    }
  }
}

=== FILE: seqs.dfy ===
/** `Array.prototype.filter`, `map` and `findIndex` over immutable sequences. */
module Seqs {
  import opened Wrappers

  /** `Array.prototype.filter`: the elements satisfying `p`, in their original order. */
  function Filter<T>(s: seq<T>, p: T -> bool): (r: seq<T>)
    ensures |r| <= |s|
    ensures forall i :: 0 <= i < |r| ==> p(r[i])
    decreases |s|
  {
    if s == [] then [] else (if p(s[0]) then [s[0]] else []) + Filter(s[1..], p)
  }

  /** An element survives filtering exactly when it is present and satisfies `p`. */
  lemma {:induction false} FilterMembership<T>(s: seq<T>, p: T -> bool, x: T)
    ensures x in Filter(s, p) <==> x in s && p(x)
    decreases |s|
  {
    if s != [] {
      FilterMembership(s[1..], p, x);
      assert s == [s[0]] + s[1..];
    }
  }

  /** Where an element that passes the filter ends up in the filtered sequence. */
  function FilterPosition<T>(s: seq<T>, p: T -> bool, at: nat): (i: nat)
    requires at < |s| && p(s[at])
    ensures i <= at && i < |Filter(s, p)| && Filter(s, p)[i] == s[at]
    decreases |s|
  {
    if at == 0 then 0
    else
      var j := FilterPosition(s[1..], p, at - 1);
      if p(s[0]) then j + 1 else j
  }

  /** Nothing survives filtering exactly when no element satisfies `p`. */
  lemma FilterEmpty<T>(s: seq<T>, p: T -> bool)
    ensures Filter(s, p) == [] <==> forall i :: 0 <= i < |s| ==> !p(s[i])
  {
    var f := Filter(s, p);
    if f != [] {
      FilterMembership(s, p, f[0]);
    }
    forall i | 0 <= i < |s| && p(s[i])
      ensures f != []
    {
      FilterMembership(s, p, s[i]);
    }
  }

  /** Predicates that agree on every element filter alike. */
  lemma {:induction false} FilterCongruent<T>(s: seq<T>, p: T -> bool, q: T -> bool)
    requires forall i :: 0 <= i < |s| ==> p(s[i]) == q(s[i])
    ensures Filter(s, p) == Filter(s, q)
    decreases |s|
  {
    if s != [] {
      FilterCongruent(s[1..], p, q);
    }
  }

  /** Filtering distributes over concatenation, so relative order is kept. */
  lemma {:induction false} FilterAppend<T>(a: seq<T>, b: seq<T>, p: T -> bool)
    ensures Filter(a + b, p) == Filter(a, p) + Filter(b, p)
    decreases |a|
  {
    if a == [] {
      assert a + b == b;
    } else {
      assert (a + b)[0] == a[0];
      assert (a + b)[1..] == a[1..] + b;
      FilterAppend(a[1..], b, p);
    }
  }

  /** Keeping everything is the identity. */
  lemma {:induction false} FilterAll<T>(s: seq<T>, p: T -> bool)
    requires forall i :: 0 <= i < |s| ==> p(s[i])
    ensures Filter(s, p) == s
    decreases |s|
  {
    if s != [] {
      FilterAll(s[1..], p);
    }
  }

  /** A predicate and its complement split a sequence between them. */
  lemma {:induction false} FilterComplement<T>(s: seq<T>, p: T -> bool, q: T -> bool)
    requires forall i :: 0 <= i < |s| ==> q(s[i]) == !p(s[i])
    ensures |Filter(s, p)| + |Filter(s, q)| == |s|
    decreases |s|
  {
    if s != [] {
      FilterComplement(s[1..], p, q);
    }
  }

  /** A relation that holds between every earlier and later element still holds after filtering. */
  lemma {:induction false} FilterKeepsOrder<T>(s: seq<T>, p: T -> bool, rel: (T, T) -> bool)
    requires forall i, j :: 0 <= i < j < |s| ==> rel(s[i], s[j])
    ensures forall i, j :: 0 <= i < j < |Filter(s, p)| ==> rel(Filter(s, p)[i], Filter(s, p)[j])
    decreases |s|
  {
    if s != [] {
      var g := Filter(s[1..], p);
      FilterKeepsOrder(s[1..], p, rel);
      if p(s[0]) {
        var f := Filter(s, p);
        assert f == [s[0]] + g;
        forall j | 0 <= j < |g|
          ensures rel(s[0], g[j])
        {
          FilterMembership(s[1..], p, g[j]);
          var m :| 0 <= m < |s[1..]| && s[1..][m] == g[j];
          assert s[m + 1] == g[j];
        }
        forall i, j | 0 <= i < j < |f|
          ensures rel(f[i], f[j])
        {
          assert f[j] == g[j - 1];
          assert i > 0 ==> f[i] == g[i - 1];
        }
      }
    }
  }

  /** `r` is `s` with some elements left out and the rest in their original order. */
  predicate Subsequence<T(==)>(r: seq<T>, s: seq<T>)
    decreases |s|
  {
    if r == [] then true
    else if s == [] then false
    else (r[0] == s[0] && Subsequence(r[1..], s[1..])) || Subsequence(r, s[1..])
  }

  /** Filtering only leaves elements out: it never reorders or repeats them. */
  lemma {:induction false} FilterIsSubsequence<T>(s: seq<T>, p: T -> bool)
    ensures Subsequence(Filter(s, p), s)
    decreases |s|
  {
    if s != [] {
      var g := Filter(s[1..], p);
      FilterIsSubsequence(s[1..], p);
      if p(s[0]) {
        var f := Filter(s, p);
        assert f == [s[0]] + g;
        assert f[0] == s[0] && f[1..] == g;
      } else {
        assert Filter(s, p) == g;
      }
    }
  }

  /** `Array.prototype.map`. */
  function Map<T, U>(s: seq<T>, f: T -> U): (r: seq<U>)
    ensures |r| == |s|
    ensures forall i :: 0 <= i < |s| ==> r[i] == f(s[i])
  {
    seq(|s|, i requires 0 <= i < |s| => f(s[i]))
  }

  /** `Array.prototype.findIndex`, with `None` for -1. */
  function FindIndex<T>(s: seq<T>, p: T -> bool): (r: Option<nat>)
    ensures r.Some? ==> r.value < |s| && p(s[r.value])
    ensures r.Some? ==> forall j :: 0 <= j < r.value ==> !p(s[j])
    ensures r.None? ==> forall j :: 0 <= j < |s| ==> !p(s[j])
    decreases |s|
  {
    if s == [] then None
    else if p(s[0]) then Some(0)
    else match FindIndex(s[1..], p)
      case None => None
      case Some(i) => Some(i + 1)
  }

  /** `Array.prototype.find`. */
  function Find<T>(s: seq<T>, p: T -> bool): (r: Option<T>)
    ensures r.Some? ==> r.value in s && p(r.value)
    ensures r.None? <==> forall j :: 0 <= j < |s| ==> !p(s[j])
  {
    match FindIndex(s, p)
    case None => None
    case Some(i) => Some(s[i])
  }

  /** Every element occurs once. */
  predicate Distinct<T(==)>(s: seq<T>) {
    forall i, j :: 0 <= i < j < |s| ==> s[i] != s[j]
  }
}

=== FILE: snapshots.dfy ===
/**
 * Saving and listing snapshots: a snapshot freezes every current streamer's
 * counters under a period label, and at most one snapshot may exist per
 * (period type, label). The remote store is modelled as the sequence of
 * stored snapshots, and the new record's id and date are given by the caller.
 */
module Snapshots {
  import opened Wrappers
  import Seqs
  import opened StreamerTypes
  import DashboardUtils

  /** One streamer's counters as they are copied into a snapshot. */
  function RowOf(s: Streamer): SnapshotRow {
    SnapshotRow(s.streamer_id, s.name, s.luck_gifts, s.exclusive_gifts, s.host_crystals, s.minutes, s.effective_days)
  }

  /** Whether a row carries exactly a streamer's identity and counters. */
  predicate Copies(r: SnapshotRow, s: Streamer) {
    && r.streamer_id == s.streamer_id && r.name == s.name
    && forall c :: RowCounter(r, c) == StreamerCounter(s, c)
  }

  /** The `data` of a new snapshot: one row per streamer, in order. */
  function BuildSnapshotData(streamers: seq<Streamer>): (rows: seq<SnapshotRow>)
    ensures |rows| == |streamers|
    ensures forall i :: 0 <= i < |rows| ==> Copies(rows[i], streamers[i])
  {
    Seqs.Map(streamers, RowOf)
  }

  /** Every counter summed over a snapshot's rows equals the same sum over the streamers it copied. */
  lemma {:induction false} SnapshotDataSums(streamers: seq<Streamer>, c: Counter)
    ensures SumRows(BuildSnapshotData(streamers), c) == SumStreamers(streamers, c)
    decreases |streamers|
  {
    if streamers != [] {
      var init := streamers[..|streamers| - 1];
      SnapshotDataSums(init, c);
      assert BuildSnapshotData(streamers)[..|streamers| - 1] == BuildSnapshotData(init);
    }
  }

  predicate SamePeriod(s: Snapshot, periodType: PeriodType, periodLabel: string) {
    s.period_type == periodType && s.period_label == periodLabel
  }

  /** The duplicate-period query: some stored snapshot already has this type and label. */
  predicate PeriodTaken(store: seq<Snapshot>, periodType: PeriodType, periodLabel: string) {
    exists i :: 0 <= i < |store| && SamePeriod(store[i], periodType, periodLabel)
  }

  /** `createSnapshot`: the store after the call and whether it succeeded. */
  datatype CreateOutcome = CreateOutcome(created: bool, store: seq<Snapshot>)

  /**
   * `createSnapshot`. `inserted` is the outcome of the remote insert: when
   * it reports an error the call returns false and stores nothing, even for
   * a free period.
   */
  function CreateSnapshot(
    store: seq<Snapshot>, newId: string, today: string,
    periodType: PeriodType, periodLabel: string, streamers: seq<Streamer>, inserted: bool): (r: CreateOutcome)
    ensures r.created <==> !PeriodTaken(store, periodType, periodLabel) && inserted
    ensures !r.created ==> r.store == store
    ensures r.created ==> |r.store| == |store| + 1 && r.store[..|store|] == store
    ensures r.created ==>
      var s := r.store[|store|];
      && SamePeriod(s, periodType, periodLabel)
      && s.streamer_count == |streamers|
      && s.total_crystals == SumStreamers(streamers, HostCrystals)
      && |s.data| == |streamers|
      && forall i :: 0 <= i < |streamers| ==> Copies(s.data[i], streamers[i])
  {
    if PeriodTaken(store, periodType, periodLabel) || !inserted then CreateOutcome(false, store)
    else
      var data := BuildSnapshotData(streamers);
      var total := SumStreamers(streamers, HostCrystals);
      CreateOutcome(true, store + [Snapshot(newId, periodType, periodLabel, today, data, total, |streamers|)])
  }

  /** No two stored snapshots share a (period type, label). */
  predicate PeriodsUnique(store: seq<Snapshot>) {
    forall i, j :: 0 <= i < j < |store| ==>
      !SamePeriod(store[j], store[i].period_type, store[i].period_label)
  }

  /** The duplicate-period guard keeps periods unique, whatever is saved. */
  lemma CreateKeepsPeriodsUnique(
    store: seq<Snapshot>, newId: string, today: string,
    periodType: PeriodType, periodLabel: string, streamers: seq<Streamer>, inserted: bool)
    requires PeriodsUnique(store)
    ensures PeriodsUnique(CreateSnapshot(store, newId, today, periodType, periodLabel, streamers, inserted).store)
  {
    var r := CreateSnapshot(store, newId, today, periodType, periodLabel, streamers, inserted);
    if r.created {
      var s := r.store;
      forall i, j | 0 <= i < j < |s|
        ensures !SamePeriod(s[j], s[i].period_type, s[i].period_label)
      {
        assert s[i] == store[i];
        if j < |store| {
          assert s[j] == store[j];
        } else {
          assert !SamePeriod(store[i], periodType, periodLabel);
        }
      }
    }
  }

  /**
   * A freshly saved snapshot, combined on its own, has the same totals as
   * the live view of the streamers it froze, and its stored crystal total
   * agrees with both.
   */
  lemma SavedSnapshotMatchesLive(
    store: seq<Snapshot>, newId: string, today: string,
    periodType: PeriodType, periodLabel: string, streamers: seq<Streamer>)
    requires !PeriodTaken(store, periodType, periodLabel)
    ensures var s := CreateSnapshot(store, newId, today, periodType, periodLabel, streamers, true).store[|store|];
      var combined := DashboardUtils.AggregateSnapshots([s]);
      var live := DashboardUtils.RealtimeStats(streamers);
      && combined.totalCrystals == live.totalCrystals
      && combined.totalLuckGifts == live.totalLuckGifts
      && combined.totalExclusiveGifts == live.totalExclusiveGifts
      && s.total_crystals == combined.totalCrystals
  {
    var s := CreateSnapshot(store, newId, today, periodType, periodLabel, streamers, true).store[|store|];
    assert DashboardUtils.AllRows([s]) == s.data by {
      assert [s][..0] == [];
    }
    DashboardUtils.SnapshotTotals([s]);
    SnapshotDataSums(streamers, HostCrystals);
    SnapshotDataSums(streamers, LuckGifts);
    SnapshotDataSums(streamers, ExclusiveGifts);
  }

  function OfPeriod(periodType: PeriodType): Snapshot -> bool {
    (s: Snapshot) => s.period_type == periodType
  }

  /** `getSnapshotsByPeriod`. */
  function SnapshotsByPeriod(snapshots: seq<Snapshot>, periodType: PeriodType): (r: seq<Snapshot>)
    ensures forall i :: 0 <= i < |r| ==> r[i].period_type == periodType
  {
    Seqs.Filter(snapshots, OfPeriod(periodType))
  }

  /** A snapshot is listed under a period type exactly when it is stored and has that type. */
  lemma SnapshotsByPeriodMembership(snapshots: seq<Snapshot>, periodType: PeriodType, s: Snapshot)
    ensures s in SnapshotsByPeriod(snapshots, periodType) <==> s in snapshots && s.period_type == periodType
  {
    Seqs.FilterMembership(snapshots, OfPeriod(periodType), s);
  }

  /** The three period lists partition the store: every snapshot is listed exactly once. */
  lemma {:induction false} PeriodListsPartition(snapshots: seq<Snapshot>)
    ensures |SnapshotsByPeriod(snapshots, Weekly)| + |SnapshotsByPeriod(snapshots, Monthly)|
      + |SnapshotsByPeriod(snapshots, Yearly)| == |snapshots|
    decreases |snapshots|
  {
    if snapshots != [] {
      PeriodListsPartition(snapshots[1..]);
    }
  }

  /** Listing by period keeps the store's order: listing a store extended at the end extends the list. */
  lemma SnapshotsByPeriodAppend(a: seq<Snapshot>, b: seq<Snapshot>, periodType: PeriodType)
    ensures SnapshotsByPeriod(a + b, periodType) == SnapshotsByPeriod(a, periodType) + SnapshotsByPeriod(b, periodType)
  {
    Seqs.FilterAppend(a, b, OfPeriod(periodType));
  }
}

=== FILE: streamer_form.dfy ===
/**
 * The add/edit streamer form: its seven text fields, the keystroke
 * normaliser that keeps the gift and crystal fields as grouped numbers, the
 * edit prefill, the submit guard, and the conversion of the submitted text
 * back into numbers.
 */
module StreamerForm {
  import opened Wrappers
  import opened Text
  import Seqs
  import opened StreamerTypes

  /** `StreamerFormData`: every field is kept as text. */
  datatype FormData = FormData(
    streamer_id: string,
    name: string,
    luck_gifts: string,
    exclusive_gifts: string,
    host_crystals: string,
    minutes: string,
    effective_days: string)

  const EmptyForm: FormData := FormData("", "", "", "", "", "", "")

  datatype FormField =
    | StreamerIdField | NameField | LuckGiftsField | ExclusiveGiftsField
    | HostCrystalsField | MinutesField | EffectiveDaysField

  function Get(f: FormData, field: FormField): string {
    match field
    case StreamerIdField => f.streamer_id
    case NameField => f.name
    case LuckGiftsField => f.luck_gifts
    case ExclusiveGiftsField => f.exclusive_gifts
    case HostCrystalsField => f.host_crystals
    case MinutesField => f.minutes
    case EffectiveDaysField => f.effective_days
  }

  /** `{ ...prev, [field]: value }`. */
  function Set(f: FormData, field: FormField, value: string): (r: FormData)
    ensures Get(r, field) == value
    ensures forall other :: other != field ==> Get(r, other) == Get(f, other)
  {
    match field
    case StreamerIdField => f.(streamer_id := value)
    case NameField => f.(name := value)
    case LuckGiftsField => f.(luck_gifts := value)
    case ExclusiveGiftsField => f.(exclusive_gifts := value)
    case HostCrystalsField => f.(host_crystals := value)
    case MinutesField => f.(minutes := value)
    case EffectiveDaysField => f.(effective_days := value)
  }

  /** The fields that are re-formatted on every keystroke. */
  predicate IsGroupedField(field: FormField) {
    field == LuckGiftsField || field == ExclusiveGiftsField || field == HostCrystalsField
  }

  /**
   * `value.replace(/\D/g, '')` followed by `formatNumber(parseInt(...))`, or
   * "" when no digit was typed. The text shown always reads back as the
   * number its typed digits spell.
   */
  function NormaliseNumeric(value: string): (r: string)
    ensures r == [] <==> forall i :: 0 <= i < |value| ==> !IsDigit(value[i])
    ensures forall i :: 0 <= i < |r| ==> IsDigit(r[i]) || r[i] == '.'
    ensures r != [] ==> ParseFormattedNumber(r) == DigitsValue(Seqs.Filter(value, IsDigit))
  {
    var digits := Seqs.Filter(value, IsDigit);
    Seqs.FilterEmpty(value, IsDigit);
    if digits == [] then []
    else
      var n := DigitsValue(digits);
      FormatNumberRoundTrip(n);
      assert FormatNumber(n) != [] by {
        assert CleanNumber(FormatNumber(n)) == NatToString(n);
      }
      FormatNumber(n)
  }

  /** Normalising text that is already normalised changes nothing. */
  lemma NormaliseIdempotent(value: string)
    ensures NormaliseNumeric(NormaliseNumeric(value)) == NormaliseNumeric(value)
  {
    var d := Seqs.Filter(value, IsDigit);
    if d != [] {
      var n := DigitsValue(d);
      var r := FormatNumber(n);
      assert NormaliseNumeric(value) == r;
      Seqs.FilterCongruent(r, IsDigit, KeepsInNumber);
      var digits := Seqs.Filter(r, IsDigit);
      assert digits == CleanNumber(r) == NatToString(n);
      assert digits != [] && DigitsValue(digits) == n;
    }
  }

  /** `handleChange`: the edited field takes the (normalised) value; every other field is unchanged. */
  function HandleChange(f: FormData, field: FormField, value: string): (r: FormData)
    ensures IsGroupedField(field) ==> Get(r, field) == NormaliseNumeric(value)
    ensures !IsGroupedField(field) ==> Get(r, field) == value
    ensures forall other :: other != field ==> Get(r, other) == Get(f, other)
  {
    Set(f, field, if IsGroupedField(field) then NormaliseNumeric(value) else value)
  }

  /** A zero (falsy) counter is shown as an empty field, any other grouped; either reads back as the counter. */
  function ShowGrouped(n: int): (r: string)
    ensures r == [] <==> n == 0
    ensures ParseFormattedNumber(r) == n
  {
    if n == 0 then []
    else
      FormatNumberRoundTrip(n);
      FormatNumberNonEmpty(n);
      FormatNumber(n)
  }

  /** A zero (falsy) counter is shown as an empty field, any other as `String(n)`; either reads back as the counter. */
  function ShowPlain(n: int): (r: string)
    ensures r == [] <==> n == 0
    ensures ParseFormattedNumber(r) == n
    ensures ParseInt10(r).GetOr(0) == n
  {
    if n == 0 then []
    else
      ParseIntToString(n);
      ParseIntOfIntToString(n);
      IntToString(n)
  }

  lemma FormatNumberNonEmpty(n: int)
    ensures FormatNumber(n) != []
  {
    assert CleanNumber(FormatNumber(n)) == IntToString(n);
  }

  /**
   * The prefill effect: a new form is empty; an edited streamer's identity
   * is copied and each counter is shown so that it is empty exactly when the
   * counter is zero and reads back as the counter.
   */
  function Prefill(editing: Option<Streamer>): (r: FormData)
    ensures editing.None? ==> r == EmptyForm
    ensures editing.Some? ==> r.streamer_id == editing.value.streamer_id && r.name == editing.value.name
    ensures editing.Some? ==> var s := editing.value;
      && (r.luck_gifts == [] <==> s.luck_gifts == 0)
      && (r.exclusive_gifts == [] <==> s.exclusive_gifts == 0)
      && (r.host_crystals == [] <==> s.host_crystals == 0)
      && (r.minutes == [] <==> s.minutes == 0)
      && (r.effective_days == [] <==> s.effective_days == 0)
  {
    match editing
    case None => EmptyForm
    case Some(s) =>
      FormData(s.streamer_id, s.name,
        ShowGrouped(s.luck_gifts), ShowGrouped(s.exclusive_gifts), ShowGrouped(s.host_crystals),
        ShowPlain(s.minutes), ShowPlain(s.effective_days))
  }

  /** The guard of `handleSubmit`: an ID and a name are required. */
  predicate CanSubmit(f: FormData) {
    f.streamer_id != [] && f.name != []
  }

  /** One press of the submit button. */
  datatype SubmitOutcome = SubmitOutcome(called: bool, form: FormData, closed: bool)

  /**
   * `handleSubmit`, with `onSubmit` as a parameter: nothing is sent without
   * an ID and a name; a successful submission resets the form and closes the
   * dialog, a failed one leaves both as they were.
   */
  function HandleSubmit(f: FormData, onSubmit: FormData -> bool): (r: SubmitOutcome)
    ensures r.called <==> f.streamer_id != [] && f.name != []
    ensures r.closed <==> r.called && onSubmit(f)
    ensures r.form == if r.closed then EmptyForm else f
  {
    if !CanSubmit(f) then SubmitOutcome(false, f, false)
    else if onSubmit(f) then SubmitOutcome(true, EmptyForm, true)
    else SubmitOutcome(true, f, false)
  }

  /** The payload `addStreamer`/`updateStreamer` store for a submitted form. */
  datatype StreamerInput = StreamerInput(
    streamer_id: string,
    name: string,
    luck_gifts: int,
    exclusive_gifts: int,
    host_crystals: int,
    minutes: int,
    effective_days: int)

  /** Counters are read with `parseFormattedNumber`, except days, which use `parseInt(...) || 0`. */
  function FormToInput(f: FormData): (r: StreamerInput)
    ensures r.streamer_id == f.streamer_id && r.name == f.name
    ensures f.luck_gifts == [] ==> r.luck_gifts == 0
    ensures f.exclusive_gifts == [] ==> r.exclusive_gifts == 0
    ensures f.host_crystals == [] ==> r.host_crystals == 0
    ensures f.minutes == [] ==> r.minutes == 0
    ensures f.effective_days == [] ==> r.effective_days == 0
  {
    StreamerInput(f.streamer_id, f.name,
      ParseFormattedNumber(f.luck_gifts), ParseFormattedNumber(f.exclusive_gifts),
      ParseFormattedNumber(f.host_crystals), ParseFormattedNumber(f.minutes),
      ParseInt10(f.effective_days).GetOr(0))
  }

  /** Saving an edited streamer without touching the form stores its counters unchanged. */
  lemma EditRoundTrip(s: Streamer)
    ensures FormToInput(Prefill(Some(s))) ==
      StreamerInput(s.streamer_id, s.name, s.luck_gifts, s.exclusive_gifts, s.host_crystals, s.minutes, s.effective_days)
  {
    var f := Prefill(Some(s));
    assert f.luck_gifts == ShowGrouped(s.luck_gifts);
  }

  /** The stored counter that a form field is saved into; the ID and name fields store no counter. */
  function StoredCount(r: StreamerInput, field: FormField): int {
    match field
    case LuckGiftsField => r.luck_gifts
    case ExclusiveGiftsField => r.exclusive_gifts
    case HostCrystalsField => r.host_crystals
    case MinutesField => r.minutes
    case EffectiveDaysField => r.effective_days
    case _ => 0
  }

  /** Whatever is typed into a grouped field is stored as the number its digits spell. */
  lemma TypedDigitsStored(f: FormData, field: FormField, value: string)
    ensures var d := Seqs.Filter(value, IsDigit);
      IsGroupedField(field) ==>
        StoredCount(FormToInput(HandleChange(f, field, value)), field) == if d == [] then 0 else DigitsValue(d)
  {
  }
}

=== FILE: streamer_list.dfy ===
/**
 * The streamer list's view state: which column it is sorted by, in which
 * direction, and the search box that narrows the list by name or id.
 */
module StreamerList {
  import opened Text
  import Seqs
  import opened StreamerTypes

  datatype SortState = SortState(field: SortField, direction: SortDirection)

  /** The list opens sorted by crystals, largest first. */
  const InitialSort: SortState := SortState(SortHostCrystals, Desc)

  function Flip(d: SortDirection): (r: SortDirection)
    ensures r != d
  {
    match d
    case Asc => Desc
    case Desc => Asc
  }

  /** `handleSort(field)`. */
  function HandleSort(st: SortState, field: SortField): (r: SortState)
    ensures r.field == field
    ensures field == st.field ==> r.direction != st.direction
    ensures field != st.field ==> r.direction == Desc
  {
    if field == st.field then SortState(st.field, Flip(st.direction))
    else SortState(field, Desc)
  }

  /** Clicking the sorted column twice puts the list back as it was. */
  lemma HandleSortTwice(st: SortState)
    ensures HandleSort(HandleSort(st, st.field), st.field) == st
  {
  }

  /** Clicking a new column twice sorts it ascending; a third click is descending again. */
  lemma HandleSortNewField(st: SortState, field: SortField)
    requires field != st.field
    ensures HandleSort(HandleSort(st, field), field) == SortState(field, Asc)
    ensures HandleSort(HandleSort(HandleSort(st, field), field), field) == SortState(field, Desc)
  {
  }

  /**
   * From the initial state, a first click on the crystals column sorts it
   * ascending, and a first click on any other column sorts that column
   * descending.
   */
  lemma InitialSortClicks(field: SortField)
    ensures HandleSort(InitialSort, field) ==
      SortState(field, if field == SortHostCrystals then Asc else Desc)
  {
  }

  /** A streamer matches a non-empty query when its lower-cased name or id contains the lower-cased query. */
  predicate Matches(s: Streamer, query: string) {
    var q := Lower(query);
    Contains(Lower(s.name), q) || Contains(Lower(s.streamer_id), q)
  }

  function MatchesQuery(query: string): Streamer -> bool {
    (s: Streamer) => query == [] || Matches(s, query)
  }

  /** `filteredStreamers`: everything for an empty search, otherwise the matching streamers in list order. */
  function FilteredStreamers(streamers: seq<Streamer>, query: string): (r: seq<Streamer>)
    ensures |r| <= |streamers|
    ensures query != [] ==> forall i :: 0 <= i < |r| ==> Matches(r[i], query)
  {
    Seqs.Filter(streamers, MatchesQuery(query))
  }

  /** An empty search box shows the whole list unchanged. */
  lemma EmptyQueryKeepsAll(streamers: seq<Streamer>)
    ensures FilteredStreamers(streamers, []) == streamers
  {
    Seqs.FilterAll(streamers, MatchesQuery([]));
  }

  /** A streamer is shown exactly when it is in the list and matches the search. */
  lemma FilteredMembership(streamers: seq<Streamer>, query: string, s: Streamer)
    requires query != []
    ensures s in FilteredStreamers(streamers, query) <==> s in streamers && Matches(s, query)
  {
    Seqs.FilterMembership(streamers, MatchesQuery(query), s);
  }

  /** The search keeps the list's order: the result is a subsequence of the list. */
  lemma FilteredInOrder(streamers: seq<Streamer>, query: string)
    ensures Seqs.Subsequence(FilteredStreamers(streamers, query), streamers)
  {
    Seqs.FilterIsSubsequence(streamers, MatchesQuery(query));
  }

  /** Searching is case-blind: a query and its lower-cased form find the same streamers. */
  lemma SearchIgnoresCase(streamers: seq<Streamer>, query: string)
    requires query != []
    ensures FilteredStreamers(streamers, query) == FilteredStreamers(streamers, Lower(query))
  {
    assert Lower(Lower(query)) == Lower(query);
    Seqs.FilterCongruent(streamers, MatchesQuery(query), MatchesQuery(Lower(query)));
  }
}

=== FILE: streamer_types.dfy ===
/**
 * The records shared by every screen (streamer profiles, snapshots, export
 * options) and the number/time helpers that format and read their counters.
 * The US-dollar figures derived from crystals are floating point and are not
 * part of these records.
 */
module StreamerTypes {
  import opened Wrappers
  import opened Text
  import Seqs

  /** A streamer profile as stored remotely. Counters are whole numbers. */
  datatype Streamer = Streamer(
    id: string,
    streamer_id: string,
    name: string,
    luck_gifts: int,
    exclusive_gifts: int,
    host_crystals: int,
    minutes: int,
    effective_days: int,
    created_at: string,
    updated_at: string)

  /** One streamer's figures frozen inside a snapshot. */
  datatype SnapshotRow = SnapshotRow(
    streamer_id: string,
    name: string,
    luck_gifts: int,
    exclusive_gifts: int,
    host_crystals: int,
    minutes: int,
    effective_days: int)

  datatype PeriodType = Weekly | Monthly | Yearly

  /** A saved point-in-time copy of all streamers. */
  datatype Snapshot = Snapshot(
    id: string,
    period_type: PeriodType,
    period_label: string,
    snapshot_date: string,
    data: seq<SnapshotRow>,
    total_crystals: int,
    streamer_count: int)

  /** The integer counters a streamer carries. */
  datatype Counter = LuckGifts | ExclusiveGifts | HostCrystals | Minutes | EffectiveDays

  function StreamerCounter(s: Streamer, c: Counter): int {
    match c
    case LuckGifts => s.luck_gifts
    case ExclusiveGifts => s.exclusive_gifts
    case HostCrystals => s.host_crystals
    case Minutes => s.minutes
    case EffectiveDays => s.effective_days
  }

  function RowCounter(r: SnapshotRow, c: Counter): int {
    match c
    case LuckGifts => r.luck_gifts
    case ExclusiveGifts => r.exclusive_gifts
    case HostCrystals => r.host_crystals
    case Minutes => r.minutes
    case EffectiveDays => r.effective_days
  }

  /** `streamers.reduce((sum, s) => sum + s[c], 0)`. */
  function SumStreamers(streamers: seq<Streamer>, c: Counter): int
    decreases |streamers|
  {
    if streamers == [] then 0
    else SumStreamers(streamers[..|streamers| - 1], c) + StreamerCounter(streamers[|streamers| - 1], c)
  }

  /** The same sum over snapshot rows. */
  function SumRows(rows: seq<SnapshotRow>, c: Counter): int
    decreases |rows|
  {
    if rows == [] then 0 else SumRows(rows[..|rows| - 1], c) + RowCounter(rows[|rows| - 1], c)
  }

  lemma {:induction false} SumRowsAppend(a: seq<SnapshotRow>, b: seq<SnapshotRow>, c: Counter)
    ensures SumRows(a + b, c) == SumRows(a, c) + SumRows(b, c)
    decreases |b|
  {
    if b == [] {
      assert a + b == a;
    } else {
      assert (a + b)[..|a + b| - 1] == a + b[..|b| - 1];
      SumRowsAppend(a, b[..|b| - 1], c);
    }
  }

  /** Columns the streamer list can be ordered by. */
  datatype SortField =
    | SortName | SortStreamerId | SortLuckGifts | SortExclusiveGifts | SortHostCrystals
    | SortHostUsd | SortAgencyUsd | SortMinutes | SortEffectiveDays

  datatype SortDirection = Asc | Desc

  /** The keys of the export options record. */
  datatype ExportKey =
    | IncludeRanking | IncludeName | IncludeId | IncludeLuckGifts | IncludeExclusiveGifts
    | IncludeHostCrystals | IncludeHostUsd | IncludeAgencyUsd | IncludeHours | IncludeDays

  /** Which columns an export contains. */
  datatype ExportOptions = ExportOptions(
    includeRanking: bool,
    includeName: bool,
    includeId: bool,
    includeLuckGifts: bool,
    includeExclusiveGifts: bool,
    includeHostCrystals: bool,
    includeHostUsd: bool,
    includeAgencyUsd: bool,
    includeHours: bool,
    includeDays: bool)

  /** `options[key]`. */
  function Enabled(o: ExportOptions, k: ExportKey): bool {
    match k
    case IncludeRanking => o.includeRanking
    case IncludeName => o.includeName
    case IncludeId => o.includeId
    case IncludeLuckGifts => o.includeLuckGifts
    case IncludeExclusiveGifts => o.includeExclusiveGifts
    case IncludeHostCrystals => o.includeHostCrystals
    case IncludeHostUsd => o.includeHostUsd
    case IncludeAgencyUsd => o.includeAgencyUsd
    case IncludeHours => o.includeHours
    case IncludeDays => o.includeDays
  }

  // ---------------------------------------------------------------------------
  // Minutes as hours

  /**
   * JavaScript's `a % 60`: the remainder takes the sign of the dividend. It
   * differs from `a` by a multiple of 60, which together with its range
   * fixes it.
   */
  function JsRem60(a: int): (r: int)
    ensures a >= 0 ==> r == a % 60
    ensures a < 0 ==> -60 < r <= 0
    ensures (a - r) % 60 == 0
  {
    if a >= 0 then a % 60 else -((-a) % 60)
  }

  lemma PadTwoDigits(n: nat)
    requires n < 100
    ensures |PadStart2(NatToString(n))| == 2
    ensures AllDigits(PadStart2(NatToString(n)))
    ensures DigitsValue(PadStart2(NatToString(n))) == n
  {
    var s := NatToString(n);
    if n < 10 {
      assert s == [DigitChar(n)];
      var p := PadStart2(s);
      assert p == ['0'] + s;
      assert p[..1] == ['0'];
      assert DigitsValue(p[..1]) == 0 by {
        assert p[..1][..0] == [];
      }
    } else {
      assert NatToString(n / 10) == [DigitChar(n / 10)];
    }
  }

  /**
   * `formatMinutesToHours`: `Math.floor(m / 60)`, a colon, then `m % 60`
   * padded to two characters.
   */
  function FormatMinutesToHours(minutes: int): (r: string)
    ensures minutes >= 0 ==> ReadsAsHours(r, minutes)
    ensures minutes < 0 ==> |r| > 0 && r[0] == '-'
  {
    // Dafny's `/` by a positive divisor rounds down, as `Math.floor` does.
    var hours := IntToString(minutes / 60);
    var mins := PadStart2(IntToString(JsRem60(minutes)));
    assert minutes >= 0 ==> ReadsAsHours(hours + ":" + mins, minutes) by {
      if minutes >= 0 {
        assert JsRem60(minutes) == minutes % 60;
        PadTwoDigits(minutes % 60);
        ColonParts(hours, mins, minutes / 60, minutes % 60);
      }
    }
    assert minutes < 0 ==> minutes / 60 < 0;
    hours + ":" + mins
  }

  /**
   * `r` reads as whole hours, a colon and exactly two digits of minutes
   * below 60, and the two parts add back up to `total` minutes.
   */
  predicate ReadsAsHours(r: string, total: int) {
    && |r| >= 4 && r[|r| - 3] == ':'
    && AllDigits(r[..|r| - 3]) && AllDigits(r[|r| - 2..])
    && DigitsValue(r[|r| - 2..]) < 60
    && DigitsValue(r[..|r| - 3]) * 60 + DigitsValue(r[|r| - 2..]) == total
  }

  /** The text `h:m` of two digit strings reads back as `h * 60 + m`. */
  lemma ColonParts(h: string, m: string, hours: nat, mins: nat)
    requires |h| >= 1 && AllDigits(h) && DigitsValue(h) == hours
    requires |m| == 2 && AllDigits(m) && DigitsValue(m) == mins && mins < 60
    ensures ReadsAsHours(h + ":" + m, hours * 60 + mins)
  {
    TwoCharSuffix(h, ':', m);
  }

  /** For a non-negative count the truncating remainder is Dafny's `%`. */
  lemma FormatParts(minutes: int)
    requires minutes >= 0
    ensures FormatMinutesToHours(minutes)
      == IntToString(minutes / 60) + ":" + PadStart2(NatToString(minutes % 60))
  {
    assert JsRem60(minutes) == minutes % 60;
  }

  /**
   * A non-negative count is formatted as text that reads back as the same
   * number of minutes; a negative count is shown with a leading '-'.
   */
  lemma MinutesToHoursReadsBack(minutes: int)
    ensures minutes >= 0 ==> ReadsAsHours(FormatMinutesToHours(minutes), minutes)
    ensures minutes < 0 ==> FormatMinutesToHours(minutes)[0] == '-'
  {
    if minutes >= 0 {
      var hours := minutes / 60;
      var mins := minutes % 60;
      assert hours * 60 + mins == minutes;
      FormatParts(minutes);
      PadTwoDigits(mins);
      ColonParts(IntToString(hours), PadStart2(NatToString(mins)), hours, mins);
    } else {
      assert minutes / 60 < 0;
    }
  }

  // ---------------------------------------------------------------------------
  // Thousands-grouped numbers

  /** Inserts a '.' before every group of three digits counted from the right. */
  function GroupThousands(digits: string): (r: string)
    requires AllDigits(digits)
    ensures forall i :: 0 <= i < |r| ==> IsDigit(r[i]) || r[i] == '.'
    ensures CleanNumber(r) == digits
    ensures |digits| > 0 ==> |r| > 0 && IsDigit(r[0])
    decreases |digits|
  {
    if |digits| <= 3 then
      Seqs.FilterAll(digits, KeepsInNumber);
      digits
    else
      var head := digits[..|digits| - 3];
      var tail := digits[|digits| - 3..];
      var g := GroupThousands(head);
      GroupStepClean(g, tail);
      GroupStepChars(g, tail);
      assert digits == head + tail;
      g + "." + tail
  }

  /** A '.' between two parts is dropped by the cleaning. */
  lemma GroupStepClean(g: string, tail: string)
    requires AllDigits(tail)
    ensures CleanNumber(g + "." + tail) == CleanNumber(g) + tail
  {
    Seqs.FilterAppend(g + ".", tail, KeepsInNumber);
    Seqs.FilterAppend(g, ".", KeepsInNumber);
    Seqs.FilterAll(tail, KeepsInNumber);
    assert Seqs.Filter(".", KeepsInNumber) == [] by {
      assert "."[1..] == [];
    }
  }

  /** Joining two parts of digits and dots with a '.' keeps only digits and dots. */
  lemma GroupStepChars(g: string, tail: string)
    requires forall i :: 0 <= i < |g| ==> IsDigit(g[i]) || g[i] == '.'
    requires AllDigits(tail)
    ensures var r := g + "." + tail;
      forall i :: 0 <= i < |r| ==> IsDigit(r[i]) || r[i] == '.'
  {
    var r := g + "." + tail;
    forall i | 0 <= i < |r| ensures IsDigit(r[i]) || r[i] == '.' {
      if i < |g| { assert r[i] == g[i]; }
      else if i > |g| { assert r[i] == tail[i - |g| - 1]; }
    }
  }

  /**
   * `formatNumber` (`toLocaleString('pt-BR')`), modelled for whole numbers as
   * the decimal digits grouped by '.' with a leading '-' for negatives.
   */
  function FormatNumber(n: int): (r: string)
    ensures CleanNumber(r) == IntToString(n)
    ensures forall i :: 0 <= i < |r| ==> IsDigit(r[i]) || r[i] == '.' || (i == 0 && n < 0 && r[i] == '-')
  {
    if n < 0 then
      var g := GroupThousands(NatToString(-n));
      Seqs.FilterAppend("-", g, KeepsInNumber);
      "-" + g
    else GroupThousands(NatToString(n))
  }

  // ---------------------------------------------------------------------------
  // Reading numbers back

  predicate KeepsInNumber(c: char) {
    IsDigit(c) || c == '-'
  }

  /** `str.replace(/[^\d-]/g, '')`. */
  function CleanNumber(s: string): (r: string)
    ensures forall i :: 0 <= i < |r| ==> KeepsInNumber(r[i])
    ensures |r| <= |s|
  {
    Seqs.Filter(s, KeepsInNumber)
  }

  /** The longest prefix made of decimal digits. */
  function LeadingDigits(s: string): (r: string)
    ensures AllDigits(r) && StartsWith(s, r)
    ensures |r| == |s| || !IsDigit(s[|r|])
  {
    var rest := DropStartWhile(s, IsDigit);
    s[..|s| - |rest|]
  }

  /**
   * `parseInt(s, 10)`: leading white space is skipped, one optional sign is
   * read, then the longest run of digits; `None` stands for NaN (no digit).
   */
  function ParseInt10(s: string): (r: Option<int>)
    ensures r.None? <==> LeadingDigits(Unsigned(DropStartWhile(s, IsSpace))) == []
  {
    var t := DropStartWhile(s, IsSpace);
    var ds := LeadingDigits(Unsigned(t));
    if ds == [] then None
    else if |t| > 0 && t[0] == '-' then Some(0 - DigitsValue(ds))
    else Some(DigitsValue(ds))
  }

  /** The text after one optional leading '+' or '-'. */
  function Unsigned(t: string): string {
    if |t| > 0 && (t[0] == '-' || t[0] == '+') then t[1..] else t
  }

  /**
   * `parseFormattedNumber`: the empty string is 0; otherwise every character
   * except digits and '-' is dropped and the rest read by `parseInt`, with NaN
   * (and 0) giving 0.
   */
  function ParseFormattedNumber(str: string): int {
    if str == [] then 0 else ParseInt10(CleanNumber(str)).GetOr(0)
  }

  lemma LeadingDigitsOfDigits(s: string)
    requires AllDigits(s)
    ensures LeadingDigits(s) == s
  {
  }

  lemma LeadingDigitsStop(digits: string, c: char, rest: string)
    requires AllDigits(digits) && !IsDigit(c)
    ensures LeadingDigits(digits + [c] + rest) == digits
  {
    var s := digits + [c] + rest;
    var r := LeadingDigits(s);
    assert forall k :: 0 <= k < |digits| ==> s[k] == digits[k];
    assert s[|digits|] == c;
    assert |r| <= |digits| ==> r == s[..|r|];
    assert s[..|digits|] == digits;
  }

  lemma CleanedHasNoSpace(str: string)
    ensures DropStartWhile(CleanNumber(str), IsSpace) == CleanNumber(str)
  {
    var c := CleanNumber(str);
    assert c == [] || !IsSpace(c[0]);
  }

  /** A string whose digits are interspersed with separators such as '.' or ',' reads as the number its digits spell. */
  lemma ParseGroupedDigits(str: string)
    requires CleanNumber(str) != [] && AllDigits(CleanNumber(str))
    ensures ParseFormattedNumber(str) == DigitsValue(CleanNumber(str))
  {
    var c := CleanNumber(str);
    assert str != [];
    ParseFromDigit(c);
    LeadingDigitsOfDigits(c);
  }

  /** Text that starts with a digit is read as its leading digits. */
  lemma ParseFromDigit(c: string)
    requires c != [] && IsDigit(c[0])
    ensures LeadingDigits(c) != [] && ParseInt10(c) == Some(DigitsValue(LeadingDigits(c)))
  {
    assert !IsSpace(c[0]) && c[0] != '-' && c[0] != '+';
    assert DropStartWhile(c, IsSpace) == c;
    assert LeadingDigits(c)[0] == c[0] by {
      assert DropStartWhile(c, IsDigit) != c;
    }
  }

  /** Without a leading integer after the optional sign (no digit, or only "-") the result is 0. */
  lemma ParseWithoutDigits(str: string)
    requires LeadingDigits(Unsigned(CleanNumber(str))) == []
    ensures ParseFormattedNumber(str) == 0
  {
    CleanedHasNoSpace(str);
  }

  /** Reading stops at the first non-digit after the sign: "12-3" is 12. */
  lemma ParseStopsAtFirstNonDigit(str: string, digits: string, rest: string)
    requires digits != [] && AllDigits(digits)
    requires CleanNumber(str) == digits + "-" + rest
    ensures ParseFormattedNumber(str) == DigitsValue(digits)
  {
    var c := CleanNumber(str);
    assert str != [];
    assert c[0] == digits[0];
    ParseFromDigit(c);
    LeadingDigitsStop(digits, '-', rest);
  }

  /** Reading back the decimal text of an integer gives the integer. */
  lemma ParseIntToString(n: int)
    ensures ParseFormattedNumber(IntToString(n)) == n
  {
    var s := IntToString(n);
    Seqs.FilterAll(s, KeepsInNumber);
    assert CleanNumber(s) == s;
    ParseIntOfIntToString(n);
  }

  /** `parseInt(String(n), 10)` is `n`. */
  lemma ParseIntOfIntToString(n: int)
    ensures ParseInt10(IntToString(n)) == Some(n)
  {
    var s := IntToString(n);
    assert s == [] || !IsSpace(s[0]);
    assert DropStartWhile(s, IsSpace) == s;
    if n < 0 {
      assert Unsigned(s) == NatToString(-n);
      LeadingDigitsOfDigits(NatToString(-n));
    } else {
      assert Unsigned(s) == s;
      LeadingDigitsOfDigits(s);
    }
  }


  /** Reading a grouped number back gives the number: `parseFormattedNumber(formatNumber(n)) == n`. */
  lemma FormatNumberRoundTrip(n: int)
    ensures ParseFormattedNumber(FormatNumber(n)) == n
  {
    var s := FormatNumber(n);
    ParseIntToString(n);
    Seqs.FilterAll(IntToString(n), KeepsInNumber);
    assert CleanNumber(s) == CleanNumber(IntToString(n));
    assert s != [];
  }
}

=== FILE: streamers_table.dfy ===
/**
 * Pagination of the streamers table: twenty rows per page, pages counted
 * from 1, a global rank on every row, and the pager's clamped buttons and
 * range caption.
 */
module StreamersTable {
  import opened Text
  import opened Wrappers

  const PageSize: nat := 20

  /** `Math.ceil(n / 20)`. */
  function TotalPages(n: nat): (t: nat)
    ensures n == 0 <==> t == 0
    ensures n > 0 ==> (t - 1) * PageSize < n <= t * PageSize
  {
    (n + PageSize - 1) / PageSize
  }

  /** The position in the whole list of the first row of `page`. */
  function StartIndex(page: nat): (start: int)
    ensures page >= 1 ==> start >= 0 && start % PageSize == 0 && start / PageSize == page - 1
  {
    (page - 1) * PageSize
  }

  function Min(a: int, b: int): int {
    if a <= b then a else b
  }

  /** `Array.prototype.slice(start, end)` for `0 <= start`: the bounds are clamped to the length. */
  function Slice<T>(s: seq<T>, start: nat, end: nat): (r: seq<T>)
    ensures |r| == if start >= Min(end, |s|) then 0 else Min(end, |s|) - start
    ensures forall i :: 0 <= i < |r| ==> start + i < |s| && r[i] == s[start + i]
  {
    var e := Min(end, |s|);
    if start >= e then [] else s[start..e]
  }

  /** `paginatedStreamers`: the rows shown on `page`. */
  function PageRows<T>(rows: seq<T>, page: nat): (r: seq<T>)
    requires page >= 1
    ensures |r| <= PageSize
    ensures forall i :: 0 <= i < |r| ==> StartIndex(page) + i < |rows| && r[i] == rows[StartIndex(page) + i]
    ensures |r| == Min(PageSize, |rows| - StartIndex(page)) || (|r| == 0 && StartIndex(page) >= |rows|)
  {
    var start := StartIndex(page);
    Slice(rows, start, start + PageSize)
  }

  /** The rank shown in row `index` of `page`: `startIndex + index + 1`. */
  function Rank(page: nat, index: nat): (rank: int)
    requires page >= 1
    ensures rank >= 1
  {
    StartIndex(page) + index + 1
  }

  /** The rank on a row is that streamer's position in the whole list, counted from 1. */
  lemma RankIsGlobalPosition<T>(rows: seq<T>, page: nat, index: nat)
    requires page >= 1 && index < |PageRows(rows, page)|
    ensures 1 <= Rank(page, index) <= |rows|
    ensures PageRows(rows, page)[index] == rows[Rank(page, index) - 1]
  {
  }

  /** Every page of a non-empty list that the pager can reach is full except possibly the last. */
  lemma ReachablePageNonEmpty<T>(rows: seq<T>, page: nat)
    requires 1 <= page <= TotalPages(|rows|)
    ensures 1 <= |PageRows(rows, page)| <= PageSize
    ensures page < TotalPages(|rows|) ==> |PageRows(rows, page)| == PageSize
  {
    var start := StartIndex(page);
    MulMono(page, TotalPages(|rows|));
    if page < TotalPages(|rows|) {
      MulMono(page + 1, TotalPages(|rows|));
      assert page * PageSize <= (TotalPages(|rows|) - 1) * PageSize;
      assert start + PageSize == page * PageSize;
    }
  }

  /** `a <= b` gives `(a - 1) * 20 <= (b - 1) * 20`. */
  lemma MulMono(a: nat, b: nat)
    requires 1 <= a <= b
    ensures (a - 1) * PageSize <= (b - 1) * PageSize
  {
  }

  /** A page past the last one, left over after the list shrank, shows no rows. */
  lemma StalePageIsEmpty<T>(rows: seq<T>, page: nat)
    requires page > TotalPages(|rows|) && page >= 1
    ensures PageRows(rows, page) == []
  {
    var t := TotalPages(|rows|);
    assert t * PageSize >= |rows|;
    MulMono(t + 1, page);
  }

  /** The "previous" button: `Math.max(1, page - 1)`. */
  function PrevPage(page: nat): (r: nat)
    ensures r >= 1
    ensures page > 1 ==> r == page - 1
    ensures page <= 1 ==> r == 1
  {
    if page - 1 >= 1 then page - 1 else 1
  }

  /** The "next" button: `Math.min(totalPages, page + 1)`. */
  function NextPage(page: nat, totalPages: nat): (r: nat)
    ensures r <= totalPages
    ensures page < totalPages ==> r == page + 1
    ensures page >= totalPages ==> r == totalPages
  {
    if totalPages <= page + 1 then totalPages else page + 1
  }

  /** Starting on page 1 and pressing the buttons in any order never leaves the range 1..totalPages. */
  lemma ButtonsStayInRange(page: nat, totalPages: nat)
    requires 1 <= page <= totalPages
    ensures 1 <= PrevPage(page) <= totalPages
    ensures 1 <= NextPage(page, totalPages) <= totalPages
    ensures NextPage(PrevPage(page), totalPages) == page || page == 1
    ensures PrevPage(NextPage(page, totalPages)) == page || page == totalPages
  {
  }

  /** The caption under the table, or none when everything fits on one page. */
  function PagerCaption(n: nat, page: nat): (r: Option<string>)
    requires page >= 1
    ensures r.Some? <==> TotalPages(n) > 1
    ensures r.Some? ==> StartsWith(r.value, "Mostrando ")
  {
    if TotalPages(n) <= 1 then None
    else
      var start := StartIndex(page);
      Some("Mostrando " + NatToString(start + 1) + "-" + IntToString(Min(start + PageSize, n))
        + " de " + NatToString(n) + " streamers")
  }

  /**
   * On a reachable page the caption's range is exactly the rows the page
   * shows: it reads "Mostrando a-b de n streamers", where a and b are the
   * global positions of the page's first and last rows, counted from 1, and
   * n is the length of the list.
   */
  lemma CaptionRangeIsPage<T>(rows: seq<T>, page: nat)
    requires 1 <= page <= TotalPages(|rows|)
    ensures var start := StartIndex(page);
      && 1 <= start + 1 <= Min(start + PageSize, |rows|) <= |rows|
      && Min(start + PageSize, |rows|) - start == |PageRows(rows, page)|
    ensures TotalPages(|rows|) > 1 ==>
      PagerCaption(|rows|, page) == Some("Mostrando " + NatToString(StartIndex(page) + 1)
        + "-" + NatToString(StartIndex(page) + |PageRows(rows, page)|)
        + " de " + NatToString(|rows|) + " streamers")
  {
    ReachablePageNonEmpty(rows, page);
    var last := StartIndex(page) + |PageRows(rows, page)|;
    assert Min(StartIndex(page) + PageSize, |rows|) == last;
    if TotalPages(|rows|) > 1 {
      CaptionText(|rows|, page, last);
    }
  }

  /** The caption with its end position already clamped to the list. */
  lemma CaptionText(n: nat, page: nat, last: nat)
    requires page >= 1 && TotalPages(n) > 1 && Min(StartIndex(page) + PageSize, n) == last
    ensures PagerCaption(n, page) == Some("Mostrando " + NatToString(StartIndex(page) + 1)
      + "-" + NatToString(last) + " de " + NatToString(n) + " streamers")
  {
    assert IntToString(last) == NatToString(last);
  }

  /** Pages 1 to `k` one after another. */
  function Pages<T>(rows: seq<T>, k: nat): seq<T>
    decreases k
  {
    if k == 0 then [] else Pages(rows, k - 1) + PageRows(rows, k)
  }

  /** The first `k` pages are the first `k * 20` rows, or all of them. */
  lemma {:induction false} PagesArePrefix<T>(rows: seq<T>, k: nat)
    ensures Pages(rows, k) == rows[..Min(k * PageSize, |rows|)]
    decreases k
  {
    if k > 0 {
      PagesArePrefix(rows, k - 1);
      var a := Min((k - 1) * PageSize, |rows|);
      var b := Min(k * PageSize, |rows|);
      assert k * PageSize == (k - 1) * PageSize + PageSize;
      var page := PageRows(rows, k);
      assert page == rows[a..b];
      assert rows[..a] + rows[a..b] == rows[..b];
    }
  }

  /** Paging through every page shows every row once, in order. */
  lemma PagesCoverList<T>(rows: seq<T>)
    ensures Pages(rows, TotalPages(|rows|)) == rows
  {
    PagesArePrefix(rows, TotalPages(|rows|));
  }
}

=== FILE: text.dfy ===
/**
 * String primitives of the JavaScript runtime that the application relies on:
 * white-space trimming, `split`/`join`, `includes`, ASCII lower-casing,
 * decimal digits and number-to-string conversion. Strings are sequences of
 * Unicode code points.
 */
module Text {

  /** JavaScript's WhiteSpace and LineTerminator characters: the set that
      `String.prototype.trim` removes and that the regex class `\s` matches. */
  predicate IsSpace(c: char) {
    || c == ' ' || c == '\t' || c == '\n' || c == '\r'
    || c == '\U{000B}' || c == '\U{000C}' || c == '\U{00A0}' || c == '\U{1680}'
    || ('\U{2000}' <= c <= '\U{200A}')
    || c == '\U{2028}' || c == '\U{2029}' || c == '\U{202F}' || c == '\U{205F}'
    || c == '\U{3000}' || c == '\U{FEFF}'
  }

  /** The regex class `\d`: ASCII decimal digits only. */
  predicate IsDigit(c: char) {
    '0' <= c <= '9'
  }

  predicate AllDigits(s: string) {
    forall i :: 0 <= i < |s| ==> IsDigit(s[i])
  }

  /** A string with no white space at either end. */
  predicate IsTrimmed(s: string) {
    s == [] || (!IsSpace(s[0]) && !IsSpace(s[|s| - 1]))
  }

  // ---------------------------------------------------------------------------
  // Trimming

  /** Removes the longest prefix whose characters all satisfy `p`. */
  function DropStartWhile(s: string, p: char -> bool): (r: string)
    ensures |r| <= |s| && r == s[|s| - |r|..]
    ensures r == [] || !p(r[0])
    ensures forall k :: 0 <= k < |s| - |r| ==> p(s[k])
    decreases |s|
  {
    if |s| > 0 && p(s[0]) then DropStartWhile(s[1..], p) else s
  }

  /** Removes the longest suffix whose characters all satisfy `p`. */
  function DropEndWhile(s: string, p: char -> bool): (r: string)
    ensures |r| <= |s| && r == s[..|r|]
    ensures r == [] || !p(r[|r| - 1])
    ensures forall k :: |r| <= k < |s| ==> p(s[k])
    decreases |s|
  {
    if |s| > 0 && p(s[|s| - 1]) then DropEndWhile(s[..|s| - 1], p) else s
  }

  /** The longest suffix whose characters all satisfy `p`. */
  function TakeEndWhile(s: string, p: char -> bool): (r: string)
    ensures |r| <= |s| && r == s[|s| - |r|..]
    ensures forall k :: |s| - |r| <= k < |s| ==> p(s[k])
    ensures |r| == |s| || !p(s[|s| - |r| - 1])
    decreases |s|
  {
    if |s| > 0 && p(s[|s| - 1]) then TakeEndWhile(s[..|s| - 1], p) + [s[|s| - 1]] else []
  }

  /** The longest run satisfying `p` at the end of `a + d` is `d`, when the last character of `a` fails `p`. */
  lemma TakeEndWhileAfter(a: string, d: string, p: char -> bool)
    requires a != [] && !p(a[|a| - 1])
    requires forall k :: 0 <= k < |d| ==> p(d[k])
    ensures TakeEndWhile(a + d, p) == d
  {
    var s := a + d;
    var r := TakeEndWhile(s, p);
    assert s[|a| - 1] == a[|a| - 1];
    assert forall k :: |a| <= k < |s| ==> s[k] == d[k - |a|];
    assert |r| == |d|;
    assert s[|a|..] == d;
  }

  /** `DropEndWhile` stops exactly at the last character that fails `p`. */
  lemma DropEndWhileAt(s: string, p: char -> bool, n: nat)
    requires n <= |s|
    requires n == 0 || !p(s[n - 1])
    requires forall k :: n <= k < |s| ==> p(s[k])
    ensures DropEndWhile(s, p) == s[..n]
  {
    var r := DropEndWhile(s, p);
    assert r == [] || r[|r| - 1] == s[|r| - 1];
    assert |r| == n;
  }

  /** Dropping a `p`-suffix and then a `q`-suffix drops just the `q`-suffix, when every `p` character is a `q` character. */
  lemma DropEndWhileTwice(s: string, p: char -> bool, q: char -> bool)
    requires forall c :: p(c) ==> q(c)
    ensures DropEndWhile(DropEndWhile(s, p), q) == DropEndWhile(s, q)
  {
    var r1 := DropEndWhile(s, p);
    var r2 := DropEndWhile(r1, q);
    assert r2 == s[..|r2|];
    assert forall k :: |r2| <= k < |s| ==> q(s[k]) by {
      forall k | |r2| <= k < |s| ensures q(s[k]) {
        if k < |r1| {
          assert s[k] == r1[k];
        }
      }
    }
    assert |r2| == 0 || !q(s[|r2| - 1]) by {
      if |r2| > 0 {
        assert s[|r2| - 1] == r2[|r2| - 1];
      }
    }
    DropEndWhileAt(s, q, |r2|);
  }

  /** `String.prototype.trim`. */
  function Trim(s: string): (r: string)
    ensures |r| <= |s|
    ensures IsTrimmed(r)
    ensures r == [] <==> forall k :: 0 <= k < |s| ==> IsSpace(s[k])
  {
    var t := DropStartWhile(s, IsSpace);
    var r := DropEndWhile(t, IsSpace);
    assert r != [] ==> r[0] == t[0];
    TrimEmpty(s, t, r);
    r
  }

  /** Trimming leaves nothing exactly when every character is white space. */
  lemma TrimEmpty(s: string, t: string, r: string)
    requires t == DropStartWhile(s, IsSpace) && r == DropEndWhile(t, IsSpace)
    ensures r == [] <==> forall k :: 0 <= k < |s| ==> IsSpace(s[k])
  {
    assert t != [] ==> t[0] == s[|s| - |t|];
  }

  lemma TrimOfTrimmed(s: string)
    requires IsTrimmed(s)
    ensures Trim(s) == s
  {
  }

  // ---------------------------------------------------------------------------
  // split / join

  /** `String.prototype.split` with a one-character separator. */
  function Split(s: string, sep: char): (parts: seq<string>)
    ensures |parts| >= 1
    ensures forall i :: 0 <= i < |parts| ==> sep !in parts[i]
    ensures Join(parts, sep) == s
    ensures sep in s ==> |parts| >= 2
    decreases |s|
  {
    if |s| == 0 then [[]]
    else
      var rest := Split(s[1..], sep);
      if s[0] == sep then
        assert s == [sep] + s[1..];
        [[]] + rest
      else
        var parts := [[s[0]] + rest[0]] + rest[1..];
        assert parts[1..] == rest[1..];
        assert s == [s[0]] + s[1..];
        parts
  }

  /** `Array.prototype.join` of a non-empty array with a one-character separator. */
  function Join(parts: seq<string>, sep: char): string
    requires |parts| >= 1
    decreases |parts|
  {
    if |parts| == 1 then parts[0] else parts[0] + [sep] + Join(parts[1..], sep)
  }

  /** `Array.prototype.join` for any array: the empty array joins to "". */
  function JoinWith(parts: seq<string>, sep: char): string {
    if parts == [] then [] else Join(parts, sep)
  }

  /** Splitting undoes joining when no part contains the separator. */
  lemma {:induction false} SplitJoin(parts: seq<string>, sep: char)
    requires |parts| >= 1
    requires forall i :: 0 <= i < |parts| ==> sep !in parts[i]
    ensures Split(Join(parts, sep), sep) == parts
    decreases |parts|
  {
    if |parts| == 1 {
      SplitFree(parts[0], sep);
    } else {
      SplitJoin(parts[1..], sep);
      SplitPrefix(parts[0], Join(parts[1..], sep), sep);
      assert parts == [parts[0]] + parts[1..];
    }
  }

  /** Every character of every part is a character of the split text. */
  lemma {:induction false} SplitKeeps(s: string, sep: char, q: char -> bool)
    requires forall k :: 0 <= k < |s| ==> q(s[k])
    ensures forall i, k :: 0 <= i < |Split(s, sep)| && 0 <= k < |Split(s, sep)[i]| ==> q(Split(s, sep)[i][k])
    decreases |s|
  {
    if |s| > 0 {
      assert forall k :: 0 <= k < |s[1..]| ==> q(s[1..][k]) by {
        forall k | 0 <= k < |s[1..]| ensures q(s[1..][k]) { assert s[1..][k] == s[k + 1]; }
      }
      SplitKeeps(s[1..], sep, q);
      var rest := Split(s[1..], sep);
      var parts := Split(s, sep);
      if s[0] != sep {
        assert parts == [[s[0]] + rest[0]] + rest[1..];
        forall i, k | 0 <= i < |parts| && 0 <= k < |parts[i]|
          ensures q(parts[i][k])
        {
          if i > 0 {
            assert parts[i] == rest[i];
            assert q(rest[i][k]);
          } else if k > 0 {
            assert parts[0][k] == rest[0][k - 1];
            assert q(rest[0][k - 1]);
          } else {
            assert parts[0][0] == s[0];
            assert q(s[0]);
          }
        }
      } else {
        assert parts == [[]] + rest;
        forall i, k | 0 <= i < |parts| && 0 <= k < |parts[i]|
          ensures q(parts[i][k])
        {
          assert parts[i] == rest[i - 1];
          assert q(rest[i - 1][k]);
        }
      }
    }
  }

  lemma {:induction false} SplitFree(s: string, sep: char)
    requires sep !in s
    ensures Split(s, sep) == [s]
    decreases |s|
  {
    if |s| > 0 {
      SplitFree(s[1..], sep);
      assert s == [s[0]] + s[1..];
    }
  }

  lemma {:induction false} SplitPrefix(a: string, b: string, sep: char)
    requires sep !in a
    ensures Split(a + [sep] + b, sep) == [a] + Split(b, sep)
    decreases |a|
  {
    if |a| == 0 {
      assert a + [sep] + b == [sep] + b;
      assert (a + [sep] + b)[1..] == b;
    } else {
      assert (a + [sep] + b)[1..] == a[1..] + [sep] + b;
      SplitPrefix(a[1..], b, sep);
      assert a == [a[0]] + a[1..];
    }
  }

  lemma {:induction false} JoinAppend(a: seq<string>, b: seq<string>, sep: char)
    requires |a| >= 1 && |b| >= 1
    ensures Join(a + b, sep) == Join(a, sep) + [sep] + Join(b, sep)
    decreases |a|
  {
    if |a| == 1 {
      assert (a + b)[1..] == b;
    } else {
      assert (a + b)[1..] == a[1..] + b;
      JoinAppend(a[1..], b, sep);
    }
  }

  /** Joining a longer list extends the joined text of any non-empty prefix. */
  lemma JoinPrefix(parts: seq<string>, k: nat, sep: char)
    requires 1 <= k <= |parts|
    ensures StartsWith(Join(parts, sep), Join(parts[..k], sep))
  {
    if k < |parts| {
      assert parts == parts[..k] + parts[k..];
      JoinAppend(parts[..k], parts[k..], sep);
    } else {
      assert parts[..k] == parts;
    }
  }

  /** A joined list starts with its first part. */
  lemma JoinStartsWithHead(x: string, rest: seq<string>, sep: char)
    ensures StartsWith(JoinWith([x] + rest, sep), x)
  {
    var parts := [x] + rest;
    if rest != [] {
      assert parts[1..] == rest;
    }
  }

  /** A joined text contains the separator only where the list had two or more parts. */
  lemma {:induction false} JoinFree(parts: seq<string>, sep: char, c: char)
    requires |parts| >= 1
    requires forall i :: 0 <= i < |parts| ==> c !in parts[i]
    requires c != sep
    ensures c !in Join(parts, sep)
    decreases |parts|
  {
    if |parts| > 1 {
      JoinFree(parts[1..], sep, c);
    }
  }

  /** Where the parts of `h + [sep] + m` sit when `m` has two characters. */
  lemma TwoCharSuffix(h: string, sep: char, m: string)
    requires |m| == 2
    ensures var r := h + [sep] + m;
      |r| == |h| + 3 && r[|r| - 3] == sep && r[..|r| - 3] == h && r[|r| - 2..] == m
  {
    var r := h + [sep] + m;
    assert r[..|r| - 3] == h;
    assert r[|r| - 2..] == m;
  }

  // ---------------------------------------------------------------------------
  // Searching

  predicate StartsWith(s: string, prefix: string) {
    |prefix| <= |s| && s[..|prefix|] == prefix
  }

  /** `String.prototype.includes`. */
  predicate Contains(s: string, pat: string)
    decreases |s|
  {
    StartsWith(s, pat) || (|s| > 0 && Contains(s[1..], pat))
  }

  /** `includes` finds a pattern exactly when it occurs at some position. */
  lemma {:induction false} ContainsAt(s: string, pat: string, i: nat)
    requires i + |pat| <= |s|
    ensures s[i..i + |pat|] == pat ==> Contains(s, pat)
    decreases i
  {
    if i > 0 && s[i..i + |pat|] == pat {
      assert s[1..][i - 1..i - 1 + |pat|] == s[i..i + |pat|];
      ContainsAt(s[1..], pat, i - 1);
    }
  }

  // ---------------------------------------------------------------------------
  // Case

  /** ASCII lower-casing of one character. */
  function LowerChar(c: char): (r: char)
    ensures 'A' <= c <= 'Z' ==> r as int == c as int + 32
    ensures !('A' <= c <= 'Z') ==> r == c
  {
    if 'A' <= c <= 'Z' then (c as int + 32) as char else c
  }

  /** `String.prototype.toLowerCase`, restricted to the ASCII letters. */
  function Lower(s: string): (r: string)
    ensures |r| == |s|
    ensures forall i :: 0 <= i < |s| ==> r[i] == LowerChar(s[i])
  {
    seq(|s|, i requires 0 <= i < |s| => LowerChar(s[i]))
  }

  // ---------------------------------------------------------------------------
  // Decimal numbers

  function DigitValue(c: char): nat
    requires IsDigit(c)
  {
    c as int - '0' as int
  }

  function DigitChar(d: nat): (c: char)
    requires d < 10
    ensures IsDigit(c) && DigitValue(c) == d
  {
    ('0' as int + d) as char
  }

  /** The number a string of decimal digits spells (leading zeros allowed). */
  function DigitsValue(s: string): nat
    requires AllDigits(s)
    decreases |s|
  {
    if s == [] then 0 else DigitsValue(s[..|s| - 1]) * 10 + DigitValue(s[|s| - 1])
  }

  lemma DigitsValueAppend(s: string, c: char)
    requires AllDigits(s) && IsDigit(c)
    ensures AllDigits(s + [c])
    ensures DigitsValue(s + [c]) == DigitsValue(s) * 10 + DigitValue(c)
  {
    assert (s + [c])[..|s + [c]| - 1] == s;
  }

  /** `String(n)` for a natural number: its canonical decimal digits. */
  function NatToString(n: nat): (r: string)
    ensures |r| >= 1 && AllDigits(r)
    ensures DigitsValue(r) == n
    ensures r[0] == '0' ==> n == 0
    decreases n
  {
    if n < 10 then [DigitChar(n)]
    else
      var r := NatToString(n / 10) + [DigitChar(n % 10)];
      DigitsValueAppend(NatToString(n / 10), DigitChar(n % 10));
      r
  }

  /** `String(i)` for an integer. */
  function IntToString(i: int): (r: string)
    ensures |r| >= 1
    ensures i >= 0 ==> AllDigits(r) && DigitsValue(r) == i
    ensures i < 0 ==> r[0] == '-' && AllDigits(r[1..]) && DigitsValue(r[1..]) == -i
  {
    if i < 0 then "-" + NatToString(-i) else NatToString(i)
  }

  /** `s.padStart(2, '0')`. */
  function PadStart2(s: string): (r: string)
    ensures |r| == if |s| >= 2 then |s| else 2
    ensures r[|r| - |s|..] == s
    ensures forall k :: 0 <= k < |r| - |s| ==> r[k] == '0'
  {
    if |s| >= 2 then s else seq(2 - |s|, _ => '0') + s
  }

  /** `s.substring(0, n)`, counting code points. */
  function Take(s: string, n: nat): (r: string)
    ensures |r| == if |s| <= n then |s| else n
    ensures r == s[..|r|]
  {
    if |s| <= n then s else s[..n]
  }
}

=== FILE: wrappers.dfy ===
/** The optional-value type used wherever the source returns `null` or `undefined`. */
module Wrappers {

  datatype Option<+T> = None | Some(value: T) {

    /** Returns the wrapped value, or `default` when there is none. */
    function GetOr(default: T): T {
      match this
      case Some(v) => v
      case None => default
    }
  }

  /** The first of two alternatives that holds a value (`a ?? b`). */
  function OrElse<T>(a: Option<T>, b: Option<T>): (r: Option<T>)
    ensures a.Some? ==> r == a
    ensures a.None? ==> r == b
  {
    if a.Some? then a else b
  }
}
